=== FILE: README.md ===
# Vedics API core, modelled in Dafny

This project models the decision logic of a Django service that draws up
Vedic astrology readings. The service keeps user profiles with their birth
data and turns a birth chart into prompt text for a language model. It
normalises the model's answer into JSON, stores readings as prediction
rows, and runs organisations, teams and seats, signup, subscriptions and
the permission checks of its REST API.

The model has one Dafny module per source file. Each module follows its
file's style:

- Pure decisions become functions and lemmas: the permission predicates,
  the zodiac sector, the geocoding fallback and the prompt table.
- Code that changes state step by step becomes methods with loops and
  frames, each proved against a function that states its result:
  - the normaliser's rewrite loop;
  - the content-cleaning loop;
  - the poll loop;
  - the batch jobs;
  - the profile hooks;
  - signup;
  - `add_user`;
  - the free-subscription hook;
  - the history walk.
- Tables are sequences of rows with an `is_deleted` flag, held in classes
  whose methods update them in place.
- Dispatched background jobs are a log.
- The world outside the code is a function-typed parameter. This covers
  `json.loads`, the geocoding service, the ephemeris and the house
  formulas, the chat-completion and assistant services, `str()` of
  non-text values, and the clock.

`Common` holds the Python string helpers the code relies on: `strip`,
`split(",")`, `split()`, `str.replace`, `isspace` and `str(int)`. It also
holds the `Option`, `Result` and `Json` datatypes.

## Model

| member | source | states |
|---|---|---|
| ResponseNormalizer.GetStructuredResponse | core/conduit/utils.py:127-248 | the nine steps, run in the source's order, give `Normalize(text, loads)` |
| ResponseNormalizer.FenceChoice | core/conduit/utils.py:151-154 | a fence split exists exactly when the text opens and closes with ``` and has room for a group |
| ResponseNormalizer.FenceChoiceIsSplit | core/conduit/utils.py:151 | the chosen split matches the pattern: tag letters, whitespace, group, whitespace |
| ResponseNormalizer.FenceChoicePreferred | core/conduit/utils.py:151 | the chosen split is the one `re` prefers: longest tag, longest leading whitespace, shortest lazy group |
| ResponseNormalizer.FenceRemoved | core/conduit/utils.py:151-154 | a fenced text with stripped body `s[b..c]` is replaced by exactly that body |
| ResponseNormalizer.TaggedFenceRemoved | core/conduit/utils.py:151-154 | ```` ```json\n<body>\n``` ```` becomes `<body>` |
| ResponseNormalizer.StripFence | core/conduit/utils.py:152-154 | step 2 never lengthens the text |
| ResponseNormalizer.StripQuotes | core/conduit/utils.py:159-164 | the text changes only when wrapped in matching quotes and longer than one character |
| ResponseNormalizer.QuotePairRemoved | core/conduit/utils.py:159-164 | exactly one wrapping pair is removed, and the inside is stripped |
| ResponseNormalizer.LoneQuoteKept | core/conduit/utils.py:163 | a lone quote character is left as it is |
| ResponseNormalizer.LiteralsReplaced | core/conduit/utils.py:168-170 | after step 4 no `None`, `True` or `False` occurs anywhere in the text |
| ResponseNormalizer.MatchQuoteAt | core/conduit/utils.py:187 | a match at `i` has its opener, quoted body and closer at increasing positions |
| ResponseNormalizer.MatchQuoteShape | core/conduit/utils.py:187 | a match has the pattern's shape: opener, whitespace, quote, body without quote or line break, quote, whitespace, closer |
| ResponseNormalizer.MatchQuoteComplete | core/conduit/utils.py:187 | text with that shape at `i` is matched there, and only in that way |
| ResponseNormalizer.QuoteReplacement | core/conduit/utils.py:190 | the replacement `\1"\2"\3` keeps the opener and puts double quotes where the single quotes were |
| ResponseNormalizer.PlanFollows | core/conduit/utils.py:190 | one `re.sub` pass is a run of steps from the start to the end of the text, each replacement at a real match |
| ResponseNormalizer.SpliceCount | core/conduit/utils.py:190 | each replacement turns exactly two single quotes into double quotes |
| ResponseNormalizer.PlanSwapsNone | core/conduit/utils.py:190-192 | a pass replaces nothing exactly when the pattern matches nowhere |
| ResponseNormalizer.QuoteSubCount | core/conduit/utils.py:190-192 | a pass removes two single quotes per replacement, and leaves the text unchanged exactly when nothing matches |
| ResponseNormalizer.QuoteSubShrinks | core/conduit/utils.py:189-193 | a pass that changes the text removes at least two single quotes, so the loop terminates |
| ResponseNormalizer.QuoteSubKeepsWord | core/conduit/utils.py:190 | a pass never forms a word of letters that was not already in the text |
| ResponseNormalizer.FixQuotes | core/conduit/utils.py:189-193 | the `while True` loop ends, with the result `FixedQuotes(s)` |
| ResponseNormalizer.FixedQuotesIsFixpoint | core/conduit/utils.py:189-193 | the loop ends at a text the substitution leaves unchanged |
| ResponseNormalizer.FixedQuotesCount | core/conduit/utils.py:189-193 | the loop turns single quotes into double quotes two at a time |
| ResponseNormalizer.FixedQuotesKeepsWord | core/conduit/utils.py:189-193 | the whole loop never forms a word of letters that was not already in the text |
| ResponseNormalizer.FixedQuotesLiteralFree | core/conduit/utils.py:189-193 | text free of the three Python words stays free of them through the loop |
| ResponseNormalizer.ColonValueKeepsSingleQuotes | core/conduit/utils.py:187-193 | the loop turns `{'a': 'b'}` into `{"a": 'b'}`: a value after ':' keeps its single quotes |
| ResponseNormalizer.SpanQuotesEscaped | core/conduit/utils.py:229 | a span the pattern captures holds a `"` only right after a backslash |
| ResponseNormalizer.EscapeFromIdentity | core/conduit/utils.py:226 | the lookbehind replacement never fires on such a span |
| ResponseNormalizer.DqSubIdentity | core/conduit/utils.py:219-230 | step 6 returns its input unchanged |
| ResponseNormalizer.SpanKept | core/conduit/utils.py:227 | each matched span is given back as it was |
| ResponseNormalizer.BraceSlice | core/conduit/utils.py:240-242 | the slice from the first `{` to the last `}`, empty when no `}` follows it |
| ResponseNormalizer.ParseCleaned | core/conduit/utils.py:232-248 | steps 7 to 9: parse the text, else its brace slice, else return the text |
| ResponseNormalizer.NormalizeCascade | core/conduit/utils.py:232-248 | a parse of the cleaned text when it parses; else a parse of its brace slice; the text itself exactly when neither parses |
| ResponseNormalizer.RawIsLiteralFree | core/conduit/utils.py:248 | a text answer never contains `None`, `True` or `False` |
| ResponseNormalizer.CleanedIsQuoteFixpoint | core/conduit/utils.py:187-230 | the cleaned text is a fixed point of the single-quote substitution |
| Geocoding.StripAll | core/conduit/utils.py:117 | every comma piece is stripped, with one result per piece |
| Geocoding.EmptyPlaceSentinel | core/conduit/utils.py:107-109 | an empty place gives (0, 0) and sends no query |
| Geocoding.FullPlaceWins | core/conduit/utils.py:111-114 | when the full text resolves, that answer is returned after exactly one query |
| Geocoding.FirstPartRetry | core/conduit/utils.py:116-123 | after a failed full lookup only the first part is tried (the stripped text before the first comma, else the first word); a failed retry or no part gives (0, 0) |
| Geocoding.WordsEmpty | core/conduit/utils.py:117 | `split()` is empty exactly when the text is all whitespace |
| Geocoding.WordsHead | core/conduit/utils.py:117 | the first word is the first maximal run of non-whitespace |
| Astro.Mod360 | predictions/services/astro_service.py:40 | `% 360.0` taken as the exact real remainder, which lies in [0, 360) |
| Astro.ZodiacIndex | predictions/services/astro_service.py:18 | `int(lon // 30) % 12` lies in 0..11 |
| Astro.ZodiacSign | predictions/services/astro_service.py:17-19 | the sign is always one of the twelve |
| Astro.ZodiacSector | predictions/services/astro_service.py:17-19 | a longitude in [30k, 30k+30) has sign k |
| Astro.ZodiacPeriodic | predictions/services/astro_service.py:17-19 | the sign repeats every 360 degrees, in either direction |
| Astro.ApproximateHouses | predictions/services/astro_service.py:47-63 | the dict, filled key by key, has keys "1".."12", each holding the fixed-offset cusp |
| Astro.CuspsAsStored | predictions/services/astro_service.py:47-61 | the twelve assignments, read in order, are the fixed-offset layout |
| Astro.CuspAngles | predictions/services/astro_service.py:48-54 | house 1 is the reduced ascendant and house 10 the reduced midheaven; every cusp lies in [0, 360) |
| Astro.OppositeHouses | predictions/services/astro_service.py:56-61 | houses 4 to 9 lie exactly opposite (+180 mod 360) houses 10, 11, 12, 1, 2 and 3 |
| Astro.HouseKeysAreNumerals | predictions/services/astro_service.py:140-142 | the dict keys are `str(h)` for h in 1..12 |
| Astro.Round2Close | predictions/services/astro_service.py:133 | `round(x, 2)` is a whole number of hundredths within 0.005 of x |
| Astro.SplitOnLength | predictions/services/astro_service.py:97 | `split(",")` gives one piece more than there are commas |
| Astro.PlaceNeedsOneComma | predictions/services/astro_service.py:94-101 | without exactly one comma the default coordinates stay |
| Astro.PlaceParse | predictions/services/astro_service.py:96-101 | with one comma the two stripped pieces are parsed; a parsed latitude survives a failed longitude |
| Astro.SplitOnTwo | predictions/services/astro_service.py:97 | text with one comma splits into the parts before and after it |
| Astro.CalculateBirthChart | predictions/services/astro_service.py:77-155 | the chart has ten planets in listed order, twelve houses from the cusps at the parsed or default place, and the ascendant taken from house 1 |
| Astro.AscendantIsHouseOne | predictions/services/astro_service.py:147-151 | the ascendant is the rounded reduced ascendant angle, with the sign of the unrounded one |
| Astro.EntriesJson | predictions/services/astro_service.py:132-145 | each entry becomes a dict under its own key, in order |
| Astro.ChartJson | predictions/services/astro_service.py:150-154 | the chart dict has keys ascendant, planets and houses, in that order |
| OpenAiUtils.ContentOf | assistant/openai_utils.py:28-33 | a dict message's "content" and an object's `.content` are both read; a missing or null content is an error |
| OpenAiUtils.ExtractAiResponse | assistant/openai_utils.py:26-35 | the first choice's content, normalised; no choice or no content gives the exception's text |
| OpenAiUtils.AsJson | assistant/openai_utils.py:35 | the normaliser's answer is the parsed value, or the text as a JSON string |
| OpenAiUtils.ExtractedInfoOutcome | assistant/openai_utils.py:37-55 | SUCCESS with the normalised response when the call returns content; FAILED with `{}` and the text of the error otherwise, whether the call failed, returned no choice, or its first choice had no content |
| OpenAiUtils.ExtractedInfoShape | assistant/openai_utils.py:48-55 | the result has status and response (plus error_description exactly when FAILED) |
| OpenAiUtils.SentMessages | assistant/openai_utils.py:39-43 | the request names the model, the two messages and the `json_object` format |
| OpenAiUtils.CollapseSpaces | assistant/openai_utils.py:65-66 | the loop leaves no double space |
| OpenAiUtils.CleanedContentFacts | assistant/openai_utils.py:64-66 | the cleaned content has no double space, no "NaN" and no "NaT" |
| OpenAiUtils.CleanContentKeepsClean | assistant/openai_utils.py:64-66 | content without those patterns is sent unchanged |
| OpenAiUtils.CleanedContentIdempotent | assistant/openai_utils.py:64-66 | cleaning twice is cleaning once |
| OpenAiUtils.CleanContent | assistant/openai_utils.py:64-66 | the replacements and the `while` loop give the cleaned content |
| OpenAiUtils.Messages | assistant/openai_utils.py:68-71 | exactly [system: prompt, user: content] |
| OpenAiUtils.PromptKeyIff | assistant/openai_utils.py:73-77 | the result has a "prompt" key exactly when it was asked for, appended last |
| OpenAiUtils.GenerateInfo | assistant/openai_utils.py:57-77 | clean, send, wrap, then append the prompt on request; the model defaults to "gpt-4o" and the prompt is not returned by default |
| OpenAiUtils.DefaultCall | assistant/openai_utils.py:57-63 | a call with the defaults asks "gpt-4o" and returns the wrapped answer without a "prompt" key |
| OpenAiUtils.Digits | assistant/openai_utils.py:127 | a field of `strftime` is zero-padded to its width |
| OpenAiUtils.Timestamp | assistant/openai_utils.py:127 | `%Y-%m-%d %H:%M:%S` is 19 characters with its separators in place |
| OpenAiUtils.ThreadMessageFor | assistant/openai_utils.py:126-131 | a user-role message whose content is the timestamp, ": ", then the content |
| Assistant.FirstDecisive | assistant/assistant.py:13-23 | the first poll that says completed or failed, or the budget of 60 |
| Assistant.FirstDecisiveUnique | assistant/assistant.py:13-23 | the first decisive poll is unique |
| Assistant.PollsMade | assistant/assistant.py:12-23 | between 1 and 60 polls are made |
| Assistant.GetAssistantResponse | assistant/assistant.py:9-24 | the loop's reply is `AssistantReply`, after `PollsMade` polls |
| Assistant.CompletedIff | assistant/assistant.py:15-17 | the message is returned exactly when the run, or a poll before any failure, says completed |
| Assistant.CompletedWitness | assistant/assistant.py:15-19 | a completed first decisive poll has no failure before it |
| Assistant.CompletedFound | assistant/assistant.py:15-19 | a completed poll with no failure before it makes the first decisive poll a completed one |
| Assistant.FailedStopsAtOnce | assistant/assistant.py:18-19 | a failed poll ends the loop at once, with the apology |
| Assistant.BudgetExhausted | assistant/assistant.py:20-24 | sixty undecided polls end the loop with the apology |
| Assistant.LatestMessage | assistant/assistant.py:33-36 | the first part's text of the first listed message, or the error when there is none |
| ReadingService.PromptTable | predictions/services/reading_service.py:26-121 | the table's keys are the seven reading types |
| ReadingService.PromptTableKeys | predictions/services/reading_service.py:26-121 | exactly seven keys, "today_reading" among them |
| ReadingService.BasePromptFallback | predictions/services/reading_service.py:149 | a known type gets its prompt; any other type gets the "today_reading" prompt |
| ReadingService.UserContentParts | predictions/services/reading_service.py:150-153 | the content is the chart introduction, the chart, the request line and the prompt, in order |
| ReadingService.ReadingMessages | predictions/services/reading_service.py:156-159 | the fixed system message, then the user content |
| ReadingService.StoredContentIsDict | predictions/services/reading_service.py:164-168 | the stored content is always a dict; a dict response is kept; anything else becomes `{"raw": str(response)}` |
| ReadingService.MissingBirthInfoGivesEmptyChart | predictions/services/reading_service.py:137-140 | without a date or time the chart is `{}`, whatever the astro service would say |
| ReadingService.ChartUsesPlaceOrDefault | predictions/services/reading_service.py:133-146 | with both, the chart is computed for the user's place, or "48.8566,2.3522" when it has none |
| ReadingService.GenerateReading | predictions/services/reading_service.py:123-170 | one row is appended with the user, the type and the stored content, and that content is returned |
| Tasks.LongTermTypesArePrompts | predictions/tasks.py:20-27 | six distinct types, each a prompt key other than "today_reading" |
| Tasks.GenerateAllReadingsForUser | predictions/tasks.py:9-34 | an unknown user gets the message and nothing is generated; otherwise one reading per type, in order, and a dict keyed by exactly those types |
| Tasks.GenerateDailyReadingForAllUsers | predictions/tasks.py:37-51 | one "today_reading" per user, in order, and a count equal to the number of users |
| Records.JobLog.constructor | profiles/signals.py:67 | an empty job log |
| Records.JobLog.Delay | profiles/signals.py:67 | `.delay` appends exactly one job to the log |
| ProfileSignals.Profile.constructor | profiles/signals.py:15 | a new instance has no key, no flag and no status |
| ProfileSignals.UpdateCoordinates | profiles/signals.py:10-53 | a new profile with a place, or a changed one, gets coordinates, chart and flag (a changed one also "reeval"); otherwise nothing changes; the input fields never change |
| ProfileSignals.PhoneDoesNotCount | profiles/signals.py:31-37 | a phone-number change alone is not a change; an unchanged row is not changed |
| ProfileSignals.GenerateReadings | profiles/signals.py:56-67 | without the flag nothing happens; with it, this user's rows of the retired types become deleted and one job is queued |
| ProfileSignals.TodayReadingKept | profiles/signals.py:62 | "today_reading" rows are not retired, because the list adds "todays_reading" |
| PredictionViews.DailyRows | predictions/views.py:18-23 | exactly this user's live "today_reading" rows |
| PredictionViews.Newest | predictions/views.py:23 | the first row of the queryset ordered newest first |
| PredictionViews.DailyList | predictions/views.py:25-34 | the newest daily row, or a new one with content `{}` when there is none |
| PredictionViews.DailyRowsAppend | predictions/views.py:18-23 | appending a row extends the queryset exactly when the row is a live daily row of the user |
| PredictionViews.DailyListSettles | predictions/views.py:25-34 | after the created row, the queryset holds that row alone |
| PredictionViews.LongTermRows | predictions/views.py:41-46 | exactly this user's live rows whose type is one of the reading types |
| PredictionViews.LongTermList | predictions/views.py:48-59 | a job is queued exactly when the status is "completed"; the listed rows are the queryset |
| PredictionSerializers.Create | predictions/serializers.py:14-17 | the new row gets the requesting user |
| PredictionSerializers.DailyRepresentation | predictions/serializers.py:21-34 | the row is shown as stored exactly when created today with truthy content; otherwise a new "today_reading" is written for its user and the returned dict is rendered, which fails as `RenderReading` says |
| PredictionSerializers.RenderReading | predictions/serializers.py:34 | rendering a dict succeeds exactly when it has both `prediction_type` and `content`, and shows their values, a null `prediction_type` as `None` and any other as `str()` of it; otherwise the error names the first required field missing |
| PredictionSerializers.RawReplyCannotRender | predictions/serializers.py:29-34 | a reply that was not a dict, stored as `{"raw": ...}`, always fails on `prediction_type` |
| PredictionSerializers.FieldsRender | predictions/serializers.py:34 | a dict that starts with both fields renders as their values: a text type as itself, a null type as `None` |
| PredictionSerializers.EmptyRowAlwaysRegenerates | predictions/serializers.py:26 | an empty row is never reused |
| PredictionSerializers.OldRowRegenerates | predictions/serializers.py:26 | a row from an earlier day is never reused |
| PredictionSerializers.LongTermCreate | predictions/serializers.py:43-54 | a reading is generated, then reading `.content` on the returned dict raises, so no prediction row is written |
| PredictionSerializers.CreateMissingPredictions | predictions/serializers.py:56-60 | exactly one job for the user |
| ConversationManager.Language | assistant/conversation_manager.py:21-24 | the profile's preferred language when set, else "en" |
| ConversationManager.FirstOwned | assistant/conversation_manager.py:36 | the first of this user's conversations with the session id |
| ConversationManager.FindConversation | assistant/conversation_manager.py:34-36 | a conversation is reused only with a session id, and only one of this user's |
| ConversationManager.Chosen | assistant/conversation_manager.py:33-44 | the chosen conversation is the user's; it is new exactly when none was found |
| ConversationManager.SetupEventsShape | assistant/conversation_manager.py:46-54 | a thread is created only when there is none, followed by the two context messages |
| ConversationManager.OpenConversation | assistant/conversation_manager.py:33-49 | the chosen conversation is added when new and saved with its thread |
| ConversationManager.SetUpConversation | assistant/conversation_manager.py:33-54 | the conversation is opened; a new thread gets the two context messages, and without a profile the call stops after the thread is saved |
| ConversationManager.Exchange | assistant/conversation_manager.py:56-71 | the user message is stored before the reply, and the reply after it |
| ConversationManager.ChatReply | assistant/conversation_manager.py:73-76 | `{"reply": ..., "conversation_id": ...}` in that order |
| ConversationManager.ChatStore.constructor | assistant/conversation_manager.py:17-19 | an empty store |
| ConversationManager.Chat | assistant/conversation_manager.py:26-76 | the conversation table, the thread events and the stored messages after the call, and its reply |
| ConversationManager.UserMessageBeforeRun | assistant/conversation_manager.py:62-63 | the user message is posted after every set-up event and right before the run |
| Organizations.SeatRule | core/organizations/models.py:31-46 | a user already in the organisation always has a seat; a new user has one exactly when usage < seats |
| Organizations.OrgUsersAreMembers | core/organizations/models.py:23-29 | a user counted in the seat usage belongs to the organisation through a membership |
| Organizations.LiveTeamsNamed | core/organizations/models.py:58 | exactly the live "General" teams of the organisation |
| Organizations.LiveMembershipsOf | core/organizations/models.py:63-67 | exactly the live memberships of the user in the team |
| Organizations.GeneralTeam | core/organizations/models.py:58-60 | the single live "General" team is reused with the team table unchanged; with none, one is appended and returned; several give the `get()` error |
| Organizations.JoinTeam | core/organizations/models.py:62-73 | the single live membership of the user in the team is returned as it is, role included, with no row added; with none, a membership with the given role is appended; several give the `get()` error |
| Organizations.AfterAddUser | core/organizations/models.py:48-73 | without a seat, the ValueError and no change; with one, the single General team and the user's single membership in it are reused unchanged, and with no General team a team and a membership with the given role are appended; seats never change |
| Organizations.TeamAppendKeepsUsers | core/organizations/models.py:58 | a new team adds no user to any organisation |
| Organizations.MembershipAppendUsers | core/organizations/models.py:63-67 | a new membership adds its user to its own organisation only |
| Organizations.AddUserUsers | core/organizations/models.py:48-73 | on success the organisation's users gain exactly the user; no other organisation changes |
| Organizations.SeatInvariant | core/organizations/models.py:44-67 | when every organisation is within its seats, it stays so after `add_user` |
| Organizations.AddUserOwners | core/organizations/models.py:70-71 | only a successful "owner" call adds the user to the owners |
| Organizations.Directory.constructor | core/organizations/models.py:5-18 | empty tables |
| Organizations.Directory.AddUser | core/organizations/models.py:48-73 | the tables and the result are `AfterAddUser` |
| Organizations.Directory.GetOrCreateGeneralTeam | core/organizations/models.py:58-60 | the team table and the id are `GeneralTeam` |
| Organizations.Directory.GetOrCreateMembership | core/organizations/models.py:62-73 | the tables and the result are `JoinTeam` |
| Organizations.Directory.CreateOrganization | core/organizations/models.py:11 | the tables and the result are `AfterCreateOrganization` |
| Organizations.AfterCreateOrganization | core/organizations/models.py:11-13 | a name used by any row, deleted ones included, is refused with no change; otherwise a new organisation with no owners |
| Organizations.CreatedOrganizationIsEmpty | core/organizations/models.py:23-29 | a new organisation has no users, and no other organisation's users change |
| OrganizationSerializers.OrganizationRepresentation | core/organizations/serializers.py:17-20 | the declared fields, then `current_seat_usage` |
| OrganizationSerializers.ValidateAgreesWithAddUser | core/organizations/serializers.py:42-54 | seats are checked only with a team and a user; success returns the attributes unchanged; a refusal happens exactly when `add_user` would refuse |
| OrganizationSerializers.NoSeatMessageIsNotGetError | core/organizations/models.py:54-55 | the seat message cannot be mistaken for a `get()` error |
| UserSerializers.TrimFields | core/users/serializers.py:28-31 | the `organization_name` field hands on its text stripped, since `trim_whitespace` is on by default; the other fields unchanged |
| UserSerializers.Validate | core/users/serializers.py:42-50 | on the attributes the fields hand on: refused exactly when both an id and a non-empty name are given; otherwise the attributes unchanged |
| UserSerializers.ValidateSentFields | core/users/serializers.py:28-50 | as sent: refused exactly when an id and a name that is not all whitespace are both given, so a whitespace-only name with an id joins by the id |
| UserSerializers.CreateOwned | core/users/serializers.py:61-64 | an organisation on the "free" plan with 5 seats, the user as owner; no seat count changes |
| UserSerializers.SignupOrganization | core/users/serializers.py:60-84 | the organisation decision table; seat counts never change |
| UserSerializers.JoinExisting | core/users/serializers.py:65-76 | an unknown organisation is an error; a missing seat is an error keyed organization_id; otherwise the user joins as member |
| UserSerializers.CreateOwnedOutcome | core/users/serializers.py:61-64 | on success the organisation is new, named as asked, with the user as its only user and owner |
| UserSerializers.JoinExistingOutcome | core/users/serializers.py:65-76 | on success the user is among the organisation's users |
| UserSerializers.SignupOrganizationRefusals | core/users/serializers.py:65-82 | the two refusals: an unknown id, and a name already taken by a live organisation |
| UserSerializers.SignupKeepsSeats | core/users/serializers.py:60-84 | signup keeps every organisation within its seats |
| UserSerializers.BlankNameIsNoName | core/users/serializers.py:54 | a whitespace-only name strips to nothing |
| UserSerializers.Accounts.constructor | core/users/serializers.py:52-58 | no users, tokens or profiles |
| UserSerializers.Create | core/users/serializers.py:52-89 | the user and a token always; the organisation step on the stripped name; a profile exactly on success |
| UserSerializers.OrganizationStep | core/users/serializers.py:60-84 | the directory and the result are `SignupOrganization` |
| UserSerializers.JoinExistingOrganization | core/users/serializers.py:65-76 | the directory and the result are `JoinExisting` |
| UserSerializers.CreateOwnedOrganization | core/users/serializers.py:61-64 | the directory and the result are `CreateOwned` |
| ProfileSerializers.PlaceOfBirthRule | profiles/serializers.py:27-37 | an empty place is accepted without lookup; a valid place is returned unchanged; a non-empty place is refused with "Invalid Place of birth" exactly when it geocodes to (0, 0) |
| ProfileSerializers.ResolvedPlaceAccepted | profiles/serializers.py:31-37 | a place the lookup resolves to a point other than (0, 0) is accepted |
| ProfileSerializers.Create | profiles/serializers.py:65-71 | an unknown user id writes nothing; otherwise one row bound to that user, or to none without an id |
| Mixins.TotalPagesIsCeiling | core/mixins.py:151-154 | `total_pages` is the ceiling of count / limit |
| Mixins.CurrentPageHoldsOffset | core/mixins.py:155 | `current_page` is the page holding the row at `offset` |
| Mixins.PaginatedResponse | core/mixins.py:157-167 | keys count, next, previous, total_pages, current_page and results, in that order |
| Mixins.FileNameIsLastSegment | core/mixins.py:139 | the file name has no '/', is a suffix of the URL preceded by '/', and is the whole URL when it has no '/' |
| Mixins.Disposition | core/mixins.py:127-130 | "attachment" exactly when `download` is "true", else "inline" |
| Mixins.FileRedirectHeaders | core/mixins.py:132-140 | the status; the content type when given or guessed; Location = url; the disposition with the file name |
| Mixins.Live | core/mixins.py:174-179 | the default manager yields exactly the rows not marked deleted |
| Mixins.LiveAppend | core/mixins.py:178-179 | the manager keeps table order and multiplicity: an appended row shows up last exactly when it is live |
| Mixins.Table.constructor | core/mixins.py:181-191 | an empty table |
| Mixins.Table.Create | core/mixins.py:186 | a new row is live, with a fresh key |
| Mixins.Table.SoftDelete | core/mixins.py:217-222 | the instance is marked deleted, and only that field of its row is saved |
| Mixins.Table.DeleteWhere | core/mixins.py:174-179 | a bulk update through the manager marks exactly the selected live rows deleted |
| ProfilePermissions.SharedOrgs | profiles/permissions.py:35-37 | the organisations both users belong to |
| ProfilePermissions.HasObjectPermission | profiles/permissions.py:17-49 | anonymous is denied; the superuser and the profile's own user are allowed |
| ProfilePermissions.OtherUserRule | profiles/permissions.py:30-49 | another user needs the flag and a shared organisation; reads then pass; writes also need ownership of a shared organisation |
| ProfilePermissions.WriteImpliesRead | profiles/permissions.py:41-49 | whoever may change a profile may read it |
| ProfilePermissions.NoSharedOrgNoAccess | profiles/permissions.py:34-39 | without a shared organisation only the superuser and the profile's user get in |
| OrganizationPermissions.OrganizationPermission | core/organizations/permissions.py:10-18 | safe methods always; writes only for the superuser or an owner |
| OrganizationPermissions.TeamPermission | core/organizations/permissions.py:29-56 | safe methods always; anonymous writes denied; the superuser allowed; team writes for an owner or a team admin; other objects denied |
| OrganizationPermissions.MembershipFollowsTeam | core/organizations/permissions.py:48-54 | a membership is governed exactly as its team |
| OrganizationPermissions.OwnerManagesTeams | core/organizations/permissions.py:40-44 | an organisation owner may change each of its teams |
| UserPermissions.HasPermission | core/users/permissions.py:13-27 | create always; otherwise authentication required; list only for superusers |
| UserPermissions.HasObjectPermission | core/users/permissions.py:29-37 | exactly the superuser or the user themself |
| UserPermissions.ObjectActionRule | core/users/permissions.py:19-37 | other actions pass for a signed-in user and defer to the object check |
| CorePermissions.HasPermission | core/permissions.py:18-22 | exactly the authenticated requests |
| CorePermissions.Resolve | core/permissions.py:33-50 | direct fields first, then the use case, then the workflow; unknown shapes resolve to nothing |
| CorePermissions.HasObjectPermission | core/permissions.py:24-61 | the superuser is always allowed; an unresolved object is denied |
| CorePermissions.ResolvedRule | core/permissions.py:52-61 | allowed exactly for the owner or a member of the resolved organisation |
| CorePermissions.MemberAllowed | core/permissions.py:56-61 | a member of the organisation's live teams is allowed |
| CorePermissions.DirectWins | core/permissions.py:33-36 | the object's own fields take precedence |
| Subscriptions.ActiveRule | subscriptions/models.py:40-47 | active without an end date and with an end date of today or later; inactive after it |
| Subscriptions.Text | subscriptions/models.py:49-50 | "<organisation> -> <plan>", with "No Plan" when there is none |
| Subscriptions.FirstWhere | subscriptions/signals.py:14 | the first matching row, or none |
| Subscriptions.FirstWhereAppend | subscriptions/signals.py:14-27 | appending a row changes the first match only when there was none |
| Subscriptions.FreePlanStep | subscriptions/signals.py:14-22 | the existing "free" plan, or a new default one; a deleted one blocks the insert |
| Subscriptions.SubscriptionStep | subscriptions/signals.py:24-27 | the existing live subscription, or a new one; a deleted one blocks the insert |
| Subscriptions.AfterAssignFree | subscriptions/signals.py:6-27 | the tables stay well formed |
| Subscriptions.AssignFreeOnlyAdds | subscriptions/signals.py:12-27 | nothing on update; at most one plan (the default free tier) and one subscription added; no row altered |
| Subscriptions.AssignedIsLive | subscriptions/signals.py:12-27 | after success the organisation has a live subscription to a "free" plan |
| Subscriptions.AssignFreeIdempotent | subscriptions/signals.py:12-27 | running the hook again changes nothing more and reports the same |
| Subscriptions.Billing.constructor | subscriptions/models.py:25-38 | empty tables |
| Subscriptions.Billing.AssignFreeSubscription | subscriptions/signals.py:6-27 | the tables and the outcome are `AfterAssignFree` |
| History.HistoryModelName | utils/simple_history_util.py:25-27 | the name followed by "_Historical" |
| History.CurrentUser | utils/simple_history_util.py:30-35 | the current user only when it is a registered user, else none |
| History.Pairs | utils/simple_history_util.py:84-87 | (x[i], x[i+1]) for each i < n-1; empty when n ≤ 1 |
| History.ChangesOf | utils/simple_history_util.py:107-113 | one change per changed field, with rendered old and new values |
| History.HistoricalDataSnoc | utils/simple_history_util.py:94-115 | one more pair adds its entry exactly when it has changes |
| History.GetHistoricalData | utils/simple_history_util.py:90-117 | the loop's list is `HistoricalData` of the adjacent pairs |
| History.CollectChanges | utils/simple_history_util.py:107-113 | the inner loop's list is `ChangesOf` |
| History.HistoricalDataEntries | utils/simple_history_util.py:94-115 | every entry comes from a pair with changes, and every such pair has its entry |
| History.EntryShape | utils/simple_history_util.py:97-113 | changed_by is the email, or "System" without a user; the date, reason and changes of the newer row |
| History.ShortHistoryIsEmpty | utils/simple_history_util.py:84-87 | a history of zero or one rows gives no entries |

## Left out

- HTTP and the Nominatim request inside `fetch_coordinates`: the lookup is the parameter `fetch`.
- `json.loads`: the parameter `loads`. Python's `re` engine is written out only for the patterns the normaliser uses.
- Floating point: angles, prices and coordinates are exact reals. `Astro.Round2` rounds the exact value, so float representation error is not modelled.
- The ephemeris, sidereal time and the trigonometry of the ascendant and midheaven: the parameter `sky` supplies these angles.
- The chat-completion, assistant, thread and file services: these are parameters. `time.sleep` is not modelled.
- `OpenAIAPI`, which `assistant.py`, `reading_service.py` and `conversation_manager.py` use, is not part of this model. Its `chat_completion` is the parameter `chat`, its run status is `status`, and its message list is `listed`.
- `READING_TYPES` and `generate_missing_predictions_for_user` are not defined in `predictions/tasks.py`. The first is the parameter `readingTypes`; the second appears only as a job name in the log.
- `UserReading` is not defined next to `Prediction`, so it is kept as a table of its own.
- `Conversation` and `Message`, which `conversation_manager.py` imports from `assistant/models.py`, are not defined there; that file declares only `ConversationMessage`, which has no assistant, thread or conversation link. The records `ConversationManager.Conversation` (id, user, assistant id, session id, thread id) and `ConversationManager.StoredMessage` (conversation, role, content) take their fields from the manager's use of them. Whether conversations are soft-deletable is unknown, so `ConversationManager.FindConversation` filters by user and session id only, with no deleted-row filter.
- `calculate_birth_chart` is called with `lat`/`lon` keywords from `profiles/signals.py`. That call is the parameter `chartFor`.
- ProfileSignals.UpdateCoordinates: `AstroService.calculate_birth_chart` takes `place_of_birth`, not `lat`/`lon`. So as written, each recomputing branch raises TypeError (unexpected keyword `lat`) before `latitude`, `longitude`, `birth_chart`, `long_term_reading_status` or `_generate_readings` is assigned. The save is then aborted, so a new profile with a place of birth, or an edit that changes a tracked field of a profile with a place, is never saved. The model shows those branches as if the call returned `chartFor(date, time, lat, lon)`.
- `allow_org_access` and `long_term_reading_status` are not declared on the profile model. The first is an input of the profile permission. The second is a field of `ProfileSignals.Profile`, set only by the coordinates hook on the instance it handles.
- PredictionViews.LongTermList: the status is an input. As written, a profile loaded from the database has no `long_term_reading_status` attribute, so the view raises AttributeError before listing.
- Celery delivery and worker concurrency: a dispatched job is an entry in `Records.JobLog`.
- Transactions: a failure part-way leaves earlier writes in place, as the source does without `atomic`. Database errors are modelled only where the source hits a unique constraint (organisation name, plan name, one subscription per organisation).
- Signals do not fire one another. Creating an organisation during signup does not run `Subscriptions.Billing.AssignFreeSubscription`; the two are modelled separately.
- Primary keys: every table's key is an auto-incremented integer, and the model identifies rows by their position in the table. The `organization_id` and `user_id` the signup and profile serializers accept are UUIDs in the source; the model takes them as row positions (`UserSerializers.OrgRef` keeps the text sent for the error message).
- PredictionViews.Newest: among rows created at the same moment, the one picked is not tied to the database's order.
- ConversationManager.Chat: one clock reading stamps every thread message of a call.
- UserSerializers.Create: requires a fresh username. This is what the serializer's unique-username validator ensures before `create` runs.
- ProfileSerializers.Create: the database's not-null and one-to-one constraints on the profile's user are not modelled, so a profile without a user is written.
- ProfileSerializers.Create and ProfileSerializers.PlaceOfBirthRule: `UserProfileSerializer.Meta.fields` names `area_of_interests` and `long_term_reading_status`, which the profile model does not declare. As written, DRF raises ImproperlyConfigured when it builds the serializer's fields, before `validate_place_of_birth` or `create` runs. Both members model the two methods as they would run once the fields resolve.
- Mixins.FileName: defined as the text after the last '/', which is what `split('/')[-1]` yields; the equivalence with the split is not proved.
- Mixins.Table.SoftDelete: the TypeError branch for models without the deletion mixin is not modelled, since every audited model here has it.
- The `_generate_readings` attribute is never cleared by the source. It stays set on the instance, and `ProfileSignals.Profile` keeps it.
- The Django REST framework's rendering of a stored row (`super().to_representation(instance)`) is not modelled: a reused row is shown as the row itself.
- PredictionSerializers.DailyRepresentation: a regenerated dict renders only when the model's reply carried both `prediction_type` and `content`; otherwise the serializer raises after the reading row is written. The read-only fields `id`, `created_at` and `updated_at` are not rendered even when the reply happens to carry them.
- `get_method_module_for_simple_history` (stack inspection), `pre_save_handler` (request-derived reason) and `print_human_readable_changes` (console output) are left out. `diff_against` and `str()` of a field are the parameters `diff` and `render`. The history is taken in the order the history manager yields it, newest first.
- The thread-local request context of the middleware: the current principal is an input.
- The URL rewriting of the ledger response and `mimetypes.guess_type`: the guess is the parameter `guessType`.

Where the code and its comments disagree, the model follows the code:

- `{'a': 'b'}` is not fully repaired by step 5. The opener class `[{\[,]` has no ':', so the single-quoted value after a colon stays as it is (`ResponseNormalizer.ColonValueKeepsSingleQuotes`).
- Step 9 returns the cleaned text, not the original text its docstring mentions.
- In the "lat,lon" parse, the latitude is assigned before the longitude is parsed. A failed longitude therefore keeps the parsed latitude with the default longitude.
- `LongTermPredictionSerializer.create` reads `.content` on the dict `generate_reading` returns. It raises, so no prediction row is created; `PredictionSerializers.LongTermCreate` models that.
- The profile hook's comments mention only a regeneration, but it marks the old rows deleted first. It retires "todays_reading" rather than "today_reading", so today's row survives.

=== FILE: assistant.dfy ===
/**
 * The bounded poll loop that waits for an assistant run.
 *
 * The remote run status is the parameter `status`: `status(i)` is what the
 * i-th poll (counting from 0) reports. Sleeping between polls is left out.
 */
module Assistant {
  import opened Common
  import opened ResponseNormalizer
  import opened OpenAiUtils

  /** At most this many polls are made. */
  const PollBudget := 60

  const ApologyText := "Sorry, I'm having trouble generating your reading. Please try again later."

  /** The reply returned on failure or when the budget runs out. */
  function ApologyReply(): Json
  {
    JObj([("reply", JStr(ApologyText))])
  }

  /** A polled status that ends the loop. */
  predicate Decisive(st: string)
  {
    st == "completed" || st == "failed"
  }

  /** The first poll at or after `i` that reports a decisive status, or the budget when none does. */
  function FirstDecisive(status: nat -> string, i: nat): (d: nat)
    requires i <= PollBudget
    ensures i <= d <= PollBudget
    ensures d < PollBudget ==> Decisive(status(d))
    ensures forall j :: i <= j < d ==> !Decisive(status(j))
    decreases PollBudget - i
  {
    if i == PollBudget then PollBudget
    else if Decisive(status(i)) then i
    else FirstDecisive(status, i + 1)
  }

  /** `d` is the first decisive poll (or the budget) exactly when it is `FirstDecisive`. */
  lemma FirstDecisiveUnique(status: nat -> string, d: nat)
    requires d <= PollBudget
    requires d < PollBudget ==> Decisive(status(d))
    requires forall j :: 0 <= j < d ==> !Decisive(status(j))
    ensures FirstDecisive(status, 0) == d
  {
    var f := FirstDecisive(status, 0);
    assert f < PollBudget ==> Decisive(status(f));
  }

  datatype Outcome = Completed | Failed | Exhausted

  /** How the loop ends, given the status of the freshly created run. */
  function PollOutcome(runStatus: string, status: nat -> string): Outcome
  {
    if runStatus == "completed" then Completed
    else
      var d := FirstDecisive(status, 0);
      if d == PollBudget then Exhausted
      else if status(d) == "completed" then Completed
      else Failed
  }

  /** How many times the loop asks for the status. */
  function PollsMade(runStatus: string, status: nat -> string): (n: nat)
    ensures 1 <= n <= PollBudget
  {
    if runStatus == "completed" then 1
    else
      var d := FirstDecisive(status, 0);
      if d == PollBudget then PollBudget else d + 1
  }

  /** `list_latest_message`: the first part's text of the first listed message. */
  function LatestMessage(messages: seq<seq<string>>): (r: Result<string, string>)
    ensures r.Ok? <==> |messages| > 0 && |messages[0]| > 0
    ensures r.Ok? ==> r.value == messages[0][0]
  {
    if |messages| == 0 || |messages[0]| == 0 then Err(NoChoiceError) else Ok(messages[0][0])
  }

  /** What `get_assistant_response` returns (or the exception text it lets escape). */
  function AssistantReply(runStatus: string, status: nat -> string, messages: seq<seq<string>>,
                          loads: string -> Option<Json>): Result<Json, string>
  {
    if PollOutcome(runStatus, status) == Completed then
      match LatestMessage(messages)
      case Err(e) => Err(e)
      case Ok(text) => Ok(AsJson(Normalize(text, loads)))
    else Ok(ApologyReply())
  }

  /** `get_assistant_response`, with the number of polls it makes. */
  method GetAssistantResponse(runStatus: string, status: nat -> string, messages: seq<seq<string>>,
                              loads: string -> Option<Json>) returns (reply: Result<Json, string>, polls: nat)
    ensures reply == AssistantReply(runStatus, status, messages, loads)
    ensures polls == PollsMade(runStatus, status)
  {
    var count := 0;
    polls := 0;
    while true
      invariant 0 <= count < PollBudget && polls == count
      invariant count > 0 ==> runStatus != "completed"
      invariant forall j :: 0 <= j < count ==> !Decisive(status(j))
      decreases PollBudget - count
    {
      var runState := status(count);
      polls := polls + 1;
      if runStatus == "completed" || runState == "completed" {
        if runStatus != "completed" {
          FirstDecisiveUnique(status, count);
        }
        var message := LatestMessage(messages);
        match message {
          case Err(e) => reply := Err(e);
          case Ok(text) =>
            var n := GetStructuredResponse(text, loads);
            reply := Ok(AsJson(n));
        }
        return;
      }
      if runState == "failed" {
        FirstDecisiveUnique(status, count);
        break;
      }
      count := count + 1;
      if count == PollBudget {
        FirstDecisiveUnique(status, count);
        break;
      }
    }
    reply := Ok(ApologyReply());
  }

  /** The loop returns the normalised message exactly when the run, or a poll before any failure, says completed. */
  lemma CompletedIff(runStatus: string, status: nat -> string)
    ensures PollOutcome(runStatus, status) == Completed <==>
            runStatus == "completed"
            || exists i :: 0 <= i < PollBudget && status(i) == "completed"
                           && forall j :: 0 <= j < i ==> status(j) != "failed"
  {
    if runStatus != "completed" {
      var d := FirstDecisive(status, 0);
      if d < PollBudget && status(d) == "completed" {
        CompletedWitness(status, d);
      }
      if exists i :: 0 <= i < PollBudget && status(i) == "completed"
                     && forall j :: 0 <= j < i ==> status(j) != "failed" {
        var i :| 0 <= i < PollBudget && status(i) == "completed"
                 && forall j :: 0 <= j < i ==> status(j) != "failed";
        CompletedFound(status, i);
      }
    }
  }

  /** The first decisive poll, when it says completed, has no failure before it. */
  lemma CompletedWitness(status: nat -> string, d: nat)
    requires d == FirstDecisive(status, 0) && d < PollBudget && status(d) == "completed"
    ensures exists i :: 0 <= i < PollBudget && status(i) == "completed"
                        && forall j :: 0 <= j < i ==> status(j) != "failed"
  {
    assert forall j :: 0 <= j < d ==> status(j) != "failed";
  }

  /** A completed poll with no failure before it makes the first decisive poll a completed one. */
  lemma CompletedFound(status: nat -> string, i: nat)
    requires i < PollBudget && status(i) == "completed"
    requires forall j :: 0 <= j < i ==> status(j) != "failed"
    ensures FirstDecisive(status, 0) < PollBudget && status(FirstDecisive(status, 0)) == "completed"
  {
    var d := FirstDecisive(status, 0);
    assert Decisive(status(i));
    assert d <= i;
  }

  /** A failed poll before any completed one ends the loop at once, with the apology. */
  lemma FailedStopsAtOnce(runStatus: string, status: nat -> string, messages: seq<seq<string>>,
                          loads: string -> Option<Json>, k: nat)
    requires runStatus != "completed" && k < PollBudget && status(k) == "failed"
    requires forall j :: 0 <= j < k ==> !Decisive(status(j))
    ensures PollOutcome(runStatus, status) == Failed
    ensures PollsMade(runStatus, status) == k + 1
    ensures AssistantReply(runStatus, status, messages, loads) == Ok(ApologyReply())
  {
    FirstDecisiveUnique(status, k);
  }

  /** Sixty undecided polls exhaust the budget, with the apology. */
  lemma BudgetExhausted(runStatus: string, status: nat -> string, messages: seq<seq<string>>,
                        loads: string -> Option<Json>)
    requires runStatus != "completed"
    requires forall j :: 0 <= j < PollBudget ==> !Decisive(status(j))
    ensures PollOutcome(runStatus, status) == Exhausted
    ensures PollsMade(runStatus, status) == PollBudget
    ensures AssistantReply(runStatus, status, messages, loads) == Ok(ApologyReply())
  {
    FirstDecisiveUnique(status, PollBudget);
  }
}

=== FILE: astro.dfy ===
/**
 * Chart arithmetic of the astrology service: the zodiac sector of a
 * longitude, the fixed-offset house layout around the ascendant and the
 * midheaven, the "lat,lon" place parse and the assembly of the chart.
 *
 * The ephemeris, the sidereal time and the trigonometry of the ascendant and
 * midheaven formulas are the parameter `sky`; angles are exact reals.
 */
module Astro {
  import opened Common

  const ZodiacSigns: seq<string> := [
    "Aries", "Taurus", "Gemini", "Cancer", "Leo", "Virgo",
    "Libra", "Scorpio", "Sagittarius", "Capricorn", "Aquarius", "Pisces"
  ]

  /** Python's `x % 360.0`, on exact reals: the remainder has the sign of the divisor. */
  function Mod360(x: real): (r: real)
    ensures 0.0 <= r < 360.0
  {
    x - 360.0 * (x / 360.0).Floor as real
  }

  /** `int(lon // 30) % 12`. */
  function ZodiacIndex(lon: real): (k: int)
    ensures 0 <= k < 12
  {
    (lon / 30.0).Floor % 12
  }

  /** `get_zodiac_sign`. */
  function ZodiacSign(lon: real): (sign: string)
    ensures sign in ZodiacSigns
  {
    ZodiacSigns[ZodiacIndex(lon)]
  }

  /** A longitude in the `k`-th sector of 30 degrees has the `k`-th sign. */
  lemma ZodiacSector(lon: real, k: int)
    requires 0 <= k < 12 && 30.0 * k as real <= lon < 30.0 * k as real + 30.0
    ensures ZodiacIndex(lon) == k && ZodiacSign(lon) == ZodiacSigns[k]
  {
    assert (lon / 30.0).Floor == k;
  }

  /** The sign repeats every full turn, in either direction. */
  lemma ZodiacPeriodic(lon: real, turns: int)
    ensures ZodiacSign(lon + 360.0 * turns as real) == ZodiacSign(lon)
  {
    var a := (lon / 30.0).Floor;
    assert (lon + 360.0 * turns as real) / 30.0 == lon / 30.0 + (12 * turns) as real;
    assert ((lon + 360.0 * turns as real) / 30.0).Floor == a + 12 * turns;
    assert (a + 12 * turns) % 12 == a % 12;
  }

  /** Adding whole turns does not change an angle reduced modulo 360. */
  lemma Mod360Turns(x: real, turns: int)
    ensures Mod360(x + 360.0 * turns as real) == Mod360(x)
  {
    assert (x + 360.0 * turns as real) / 360.0 == x / 360.0 + turns as real;
    assert ((x + 360.0 * turns as real) / 360.0).Floor == (x / 360.0).Floor + turns;
  }

  /** Reducing before adding gives the same angle as adding before reducing. */
  lemma Mod360Add(x: real, y: real)
    ensures Mod360(Mod360(x) + y) == Mod360(x + y)
  {
    var k := (x / 360.0).Floor;
    assert Mod360(x) + y == (x + y) + 360.0 * (-k) as real;
    Mod360Turns(x + y, -k);
  }

  /** An angle already in [0, 360) is its own reduction. */
  lemma Mod360Small(x: real)
    requires 0.0 <= x < 360.0
    ensures Mod360(x) == x
  {
    assert (x / 360.0).Floor == 0;
  }

  // ---------------------------------------------------------------------
  // Houses
  // ---------------------------------------------------------------------

  /** The dict keys `"1"` to `"12"`, as `str(hnum)` writes them. */
  const HouseKeys: seq<string> := ["1", "2", "3", "4", "5", "6", "7", "8", "9", "10", "11", "12"]

  /** `str(h)` for a house number. */
  lemma HouseKeysAreNumerals(h: nat)
    requires 1 <= h <= 12
    ensures HouseKeys[h - 1] == NatToString(h)
  {
    if h >= 10 {
      assert NatToString(h) == NatToString(1) + [DigitChar(h - 10)];
    }
  }

  /** Whether house `h` is laid out from the ascendant (else from the midheaven). */
  predicate FromAscendant(h: int)
  {
    h == 1 || h == 2 || h == 3 || h == 7 || h == 8 || h == 9
  }

  /** The fixed offset, in degrees, of house `h` from its base angle. */
  function HouseOffset(h: int): real
  {
    if h == 1 || h == 10 then 0.0
    else if h == 2 || h == 12 then 30.0
    else if h == 3 || h == 11 then 60.0
    else if h == 7 || h == 4 then 180.0
    else if h == 8 || h == 6 then 210.0
    else 240.0
  }

  /**
   * The cusp of house `h`: its base angle plus its fixed offset, modulo 360.
   * `asc` and `mc` are the angles before the source's reduction `% 360.0`.
   */
  function Cusp(asc: real, mc: real, h: int): real
  {
    Mod360((if FromAscendant(h) then asc else mc) + HouseOffset(h))
  }

  /**
   * `approximate_placidus_houses` after the ascendant and midheaven are
   * known: the dict is filled key by key as the source assigns it, the
   * opposite houses from the cusps already stored.
   */
  method ApproximateHouses(asc: real, mc: real) returns (cusps: map<string, real>)
    ensures cusps.Keys == set h | h in HouseKeys
    ensures forall h :: 1 <= h <= 12 ==> cusps[HouseKeys[h - 1]] == Cusp(asc, mc, h)
  {
    var ascDegrees := Mod360(asc);
    var mcDegrees := Mod360(mc);
    cusps := map[];
    cusps := cusps["1" := ascDegrees];
    cusps := cusps["10" := mcDegrees];
    cusps := cusps["2" := Mod360(ascDegrees + 30.0)];
    cusps := cusps["3" := Mod360(ascDegrees + 60.0)];
    cusps := cusps["11" := Mod360(mcDegrees + 60.0)];
    cusps := cusps["12" := Mod360(mcDegrees + 30.0)];
    cusps := cusps["4" := Mod360(cusps["10"] + 180.0)];
    cusps := cusps["5" := Mod360(cusps["11"] + 180.0)];
    cusps := cusps["6" := Mod360(cusps["12"] + 180.0)];
    cusps := cusps["7" := Mod360(cusps["1"] + 180.0)];
    cusps := cusps["8" := Mod360(cusps["2"] + 180.0)];
    cusps := cusps["9" := Mod360(cusps["3"] + 180.0)];
    CuspsAsStored(asc, mc, cusps);
  }

  /** The twelve stored values are the cusps of the fixed-offset layout. */
  lemma CuspsAsStored(asc: real, mc: real, cusps: map<string, real>)
    requires cusps.Keys == {"1", "10", "2", "3", "11", "12", "4", "5", "6", "7", "8", "9"}
    requires cusps["1"] == Mod360(asc) && cusps["10"] == Mod360(mc)
    requires cusps["2"] == Mod360(cusps["1"] + 30.0) && cusps["3"] == Mod360(cusps["1"] + 60.0)
    requires cusps["11"] == Mod360(cusps["10"] + 60.0) && cusps["12"] == Mod360(cusps["10"] + 30.0)
    requires cusps["4"] == Mod360(cusps["10"] + 180.0) && cusps["5"] == Mod360(cusps["11"] + 180.0)
    requires cusps["6"] == Mod360(cusps["12"] + 180.0) && cusps["7"] == Mod360(cusps["1"] + 180.0)
    requires cusps["8"] == Mod360(cusps["2"] + 180.0) && cusps["9"] == Mod360(cusps["3"] + 180.0)
    ensures cusps.Keys == set h | h in HouseKeys
    ensures forall h :: 1 <= h <= 12 ==> cusps[HouseKeys[h - 1]] == Cusp(asc, mc, h)
  {
    SideCusps(asc, mc, true, cusps["1"], cusps["2"], cusps["3"], cusps["7"], cusps["8"], cusps["9"]);
    SideCusps(asc, mc, false, cusps["10"], cusps["12"], cusps["11"], cusps["4"], cusps["6"], cusps["5"]);
  }

  /**
   * Three cusps stepped 30 and 60 degrees from a base angle, and the three
   * opposite them, are the layout's cusps for that side of the chart.
   */
  lemma SideCusps(asc: real, mc: real, ascSide: bool, c0: real, c30: real, c60: real, o0: real, o30: real, o60: real)
    requires c0 == Mod360(if ascSide then asc else mc)
    requires c30 == Mod360(c0 + 30.0) && c60 == Mod360(c0 + 60.0)
    requires o0 == Mod360(c0 + 180.0) && o30 == Mod360(c30 + 180.0) && o60 == Mod360(c60 + 180.0)
    ensures ascSide ==>
      c0 == Cusp(asc, mc, 1) && c30 == Cusp(asc, mc, 2) && c60 == Cusp(asc, mc, 3)
      && o0 == Cusp(asc, mc, 7) && o30 == Cusp(asc, mc, 8) && o60 == Cusp(asc, mc, 9)
    ensures !ascSide ==>
      c0 == Cusp(asc, mc, 10) && c30 == Cusp(asc, mc, 12) && c60 == Cusp(asc, mc, 11)
      && o0 == Cusp(asc, mc, 4) && o30 == Cusp(asc, mc, 6) && o60 == Cusp(asc, mc, 5)
  {
    var base := if ascSide then asc else mc;
    Mod360Add(base, 0.0);
    Mod360Add(base, 30.0);
    Mod360Add(base, 60.0);
    Mod360Add(base, 180.0);
    Mod360Add(base + 30.0, 180.0);
    Mod360Add(base + 60.0, 180.0);
    assert base + 30.0 + 180.0 == base + 210.0;
    assert base + 60.0 + 180.0 == base + 240.0;
  }

  /** House 1 is the ascendant and house 10 the midheaven; every cusp lies in [0, 360). */
  lemma CuspAngles(asc: real, mc: real)
    ensures Cusp(asc, mc, 1) == Mod360(asc) && Cusp(asc, mc, 10) == Mod360(mc)
    ensures forall h :: 0.0 <= Cusp(asc, mc, h) < 360.0
  {
  }

  /** Houses 4 to 9 lie exactly opposite houses 10, 11, 12, 1, 2 and 3. */
  lemma OppositeHouses(asc: real, mc: real, h: int)
    requires h in {1, 2, 3, 10, 11, 12}
    ensures Cusp(asc, mc, (h + 5) % 12 + 1) == Mod360(Cusp(asc, mc, h) + 180.0)
  {
    var base := if FromAscendant(h) then asc else mc;
    Mod360Add(base + HouseOffset(h), 180.0);
  }

  // ---------------------------------------------------------------------
  // Rounding and the place string
  // ---------------------------------------------------------------------

  /**
   * `round(x, 2)` on the exact value: the nearest multiple of 0.01, a tie
   * going to the even multiple.
   */
  function Round2(x: real): real
  {
    var n := (x * 100.0).Floor;
    var f := x * 100.0 - n as real;
    var k := if f < 0.5 then n else if f > 0.5 then n + 1 else if n % 2 == 0 then n else n + 1;
    k as real / 100.0
  }

  /** The rounded value is a whole number of hundredths, within half a hundredth of `x`. */
  lemma Round2Close(x: real)
    ensures -0.005 <= Round2(x) - x <= 0.005
    ensures (Round2(x) * 100.0).Floor as real == Round2(x) * 100.0
  {
    var n := (x * 100.0).Floor;
    var f := x * 100.0 - n as real;
    assert 0.0 <= f < 1.0;
    var k := if f < 0.5 then n else if f > 0.5 then n + 1 else if n % 2 == 0 then n else n + 1;
    assert Round2(x) == k as real / 100.0;
    assert -0.5 <= k as real - x * 100.0 <= 0.5;
    assert Round2(x) * 100.0 == k as real;
  }

  const DefaultLatitude: real := 48.8566
  const DefaultLongitude: real := 2.3522

  /**
   * The `try` block that reads `"lat,lon"`: the text must split on commas
   * into exactly two pieces; each stripped piece goes through `float`
   * (`parseFloat`, `None` when it raises). The latitude is assigned before
   * the longitude is parsed, so it keeps its parsed value when only the
   * longitude fails.
   */
  function PlaceCoordinates(place: string, parseFloat: string -> Option<real>): (real, real)
  {
    var parts := SplitOn(place, ',');
    if |parts| != 2 then (DefaultLatitude, DefaultLongitude)
    else
      match parseFloat(Strip(parts[0]))
        case None => (DefaultLatitude, DefaultLongitude)
        case Some(lat) =>
          match parseFloat(Strip(parts[1]))
            case None => (lat, DefaultLongitude)
            case Some(lon) => (lat, lon)
  }

  /** `s.split(c)` has one piece more than `s` has separators. */
  lemma {:induction false} SplitOnLength(s: string, c: char)
    ensures |SplitOn(s, c)| == multiset(s)[c] + 1
    decreases |s|
  {
    var i := FirstIndexOf(s, c);
    if i < |s| {
      SplitOnLength(s[i + 1..], c);
      assert s == s[..i] + [c] + s[i + 1..];
      assert c !in s[..i];
      assert multiset(s[..i])[c] == 0;
    } else {
      assert c !in s;
    }
  }

  /** Without exactly one comma the place is not read and the default coordinates stay. */
  lemma PlaceNeedsOneComma(place: string, parseFloat: string -> Option<real>)
    requires multiset(place)[','] != 1
    ensures PlaceCoordinates(place, parseFloat) == (DefaultLatitude, DefaultLongitude)
  {
    SplitOnLength(place, ',');
  }

  /**
   * With exactly one comma the stripped pieces before and after it are
   * parsed; an unparsable latitude keeps the default, and a parsed latitude
   * with an unparsable longitude keeps only the default longitude.
   */
  lemma PlaceParse(place: string, parseFloat: string -> Option<real>)
    requires multiset(place)[','] == 1
    ensures FirstIndexOf(place, ',') < |place|
    ensures var i := FirstIndexOf(place, ',');
      var lat := parseFloat(Strip(place[..i]));
      var lon := parseFloat(Strip(place[i + 1..]));
      PlaceCoordinates(place, parseFloat) ==
        if lat.None? then (DefaultLatitude, DefaultLongitude)
        else if lon.None? then (lat.value, DefaultLongitude)
        else (lat.value, lon.value)
  {
    SplitOnTwo(place, ',');
  }

  /** Text with exactly one separator splits into what is before it and what is after it. */
  lemma SplitOnTwo(s: string, c: char)
    requires multiset(s)[c] == 1
    ensures FirstIndexOf(s, c) < |s|
    ensures SplitOn(s, c) == [s[..FirstIndexOf(s, c)], s[FirstIndexOf(s, c) + 1..]]
  {
    assert c in multiset(s);
    var i := FirstIndexOf(s, c);
    assert s == s[..i] + [c] + s[i + 1..];
    assert c !in s[..i];
    assert multiset(s[..i])[c] == 0;
    assert multiset(s[i + 1..])[c] == 0;
    assert c !in multiset(s[i + 1..]);
  }

  // ---------------------------------------------------------------------
  // The chart
  // ---------------------------------------------------------------------

  /** The birth moment, combined from the date and the time of birth (UTC). */
  datatype Moment = Moment(date: Date, time: Time)

  /**
   * What the ephemeris and the house formulas answer: the apparent ecliptic
   * longitude of a body, and the ascendant and midheaven angles (before
   * `% 360.0`), seen from a latitude and longitude at a moment.
   */
  datatype Sky = Sky(
    bodyLongitude: (string, Moment, real, real) -> real,
    ascendant: (Moment, real, real) -> real,
    midheaven: (Moment, real, real) -> real)

  const PlanetNames: seq<string> := [
    "Sun", "Moon", "Mercury", "Venus", "Mars",
    "Jupiter", "Saturn", "Uranus", "Neptune", "Pluto"
  ]

  /** A rounded angle and the sign of the unrounded one. */
  datatype Placement = Placement(degree: real, sign: string)

  function PlacementOf(angle: real): Placement
  {
    Placement(Round2(angle), ZodiacSign(angle))
  }

  /** The chart dict: the ascendant, then the planets and houses in insertion order. */
  datatype Chart = Chart(ascendant: Placement, planets: seq<(string, Placement)>, houses: seq<(string, Placement)>)

  /** The chart `calculate_birth_chart` builds, stated entry by entry. */
  function BirthChart(birthDate: Date, birthTime: Time, place: string,
                      parseFloat: string -> Option<real>, sky: Sky): Chart
  {
    var t := Moment(birthDate, birthTime);
    var (lat, lon) := PlaceCoordinates(place, parseFloat);
    var asc := sky.ascendant(t, lat, lon);
    var mc := sky.midheaven(t, lat, lon);
    var houses := seq(12, h requires 0 <= h < 12 => (HouseKeys[h], PlacementOf(Cusp(asc, mc, h + 1))));
    var planets := seq(|PlanetNames|, i requires 0 <= i < |PlanetNames| =>
                         (PlanetNames[i], PlacementOf(sky.bodyLongitude(PlanetNames[i], t, lat, lon))));
    Chart(houses[0].1, planets, houses)
  }

  /**
   * `calculate_birth_chart`: parse the place, fill the planets in the
   * source's order, lay out the houses and take the ascendant from house 1.
   */
  method CalculateBirthChart(birthDate: Date, birthTime: Time, place: string,
                             parseFloat: string -> Option<real>, sky: Sky) returns (chart: Chart)
    ensures var (lat, lon) := PlaceCoordinates(place, parseFloat);
      var t := Moment(birthDate, birthTime);
      && |chart.planets| == |PlanetNames|
      && (forall i :: 0 <= i < |PlanetNames| ==>
            chart.planets[i] == (PlanetNames[i], PlacementOf(sky.bodyLongitude(PlanetNames[i], t, lat, lon))))
      && |chart.houses| == 12
      && (forall h :: 1 <= h <= 12 ==>
            chart.houses[h - 1] == (HouseKeys[h - 1], PlacementOf(Cusp(sky.ascendant(t, lat, lon), sky.midheaven(t, lat, lon), h))))
      && chart.ascendant == chart.houses[0].1
    ensures chart == BirthChart(birthDate, birthTime, place, parseFloat, sky)
  {
    var t := Moment(birthDate, birthTime);
    var (lat, lon) := PlaceCoordinates(place, parseFloat);
    var planets: seq<(string, Placement)> := [];
    for i := 0 to |PlanetNames|
      invariant |planets| == i
      invariant forall k :: 0 <= k < i ==>
        planets[k] == (PlanetNames[k], PlacementOf(sky.bodyLongitude(PlanetNames[k], t, lat, lon)))
    {
      var lonDeg := sky.bodyLongitude(PlanetNames[i], t, lat, lon);
      planets := planets + [(PlanetNames[i], Placement(Round2(lonDeg), ZodiacSign(lonDeg)))];
    }
    var cusps := ApproximateHouses(sky.ascendant(t, lat, lon), sky.midheaven(t, lat, lon));
    var houses: seq<(string, Placement)> := [];
    for h := 1 to 13
      invariant |houses| == h - 1
      invariant forall g :: 1 <= g < h ==>
        houses[g - 1] == (HouseKeys[g - 1], PlacementOf(Cusp(sky.ascendant(t, lat, lon), sky.midheaven(t, lat, lon), g)))
    {
      HouseKeysAreNumerals(h);
      var deg := cusps[HouseKeys[h - 1]];
      houses := houses + [(HouseKeys[h - 1], Placement(Round2(deg), ZodiacSign(deg)))];
    }
    chart := Chart(houses[0].1, planets, houses);
    var spec := BirthChart(birthDate, birthTime, place, parseFloat, sky);
    assert planets == spec.planets;
    assert houses == spec.houses;
  }

  /** The chart's ascendant is house 1: the reduced ascendant angle, rounded, with its sign. */
  lemma AscendantIsHouseOne(asc: real, mc: real)
    ensures PlacementOf(Cusp(asc, mc, 1)) == Placement(Round2(Mod360(asc)), ZodiacSign(Mod360(asc)))
  {
  }

  function PlacementJson(angleKey: string, p: Placement): Json
  {
    JObj([(angleKey, JNum(p.degree)), ("sign", JStr(p.sign))])
  }

  function EntriesJson(angleKey: string, entries: seq<(string, Placement)>): (fields: seq<(string, Json)>)
    ensures |fields| == |entries|
    ensures forall i :: 0 <= i < |entries| ==> fields[i] == (entries[i].0, PlacementJson(angleKey, entries[i].1))
  {
    if |entries| == 0 then []
    else [(entries[0].0, PlacementJson(angleKey, entries[0].1))] + EntriesJson(angleKey, entries[1..])
  }

  /** The chart as the dict the source returns and stores. */
  function ChartJson(c: Chart): (j: Json)
    ensures j.JObj? && KeysOf(j.fields) == ["ascendant", "planets", "houses"]
  {
    JObj([
      ("ascendant", PlacementJson("degree", c.ascendant)),
      ("planets", JObj(EntriesJson("longitude_deg", c.planets))),
      ("houses", JObj(EntriesJson("degree", c.houses)))])
  }
}

=== FILE: common.dfy ===
/**
 * Values and Python string operations shared by the whole model.
 *
 * Python dicts keep insertion order, so a dict is modelled as a sequence of
 * (key, value) pairs; `str` is `seq<char>`.
 */
module Common {

  datatype Option<+T> = None | Some(value: T)

  datatype Result<+T, +E> = Ok(value: T) | Err(error: E)

  /** Primary keys of users; every table row refers to its user by this id. */
  type UserId = nat

  /** A JSON-like Python value: None, bool, number, str, list or (ordered) dict. */
  datatype Json =
    | JNull
    | JBool(b: bool)
    | JNum(n: real)
    | JStr(s: string)
    | JArr(items: seq<Json>)
    | JObj(fields: seq<(string, Json)>)

  /** The keys of an ordered dict, in insertion order. */
  function KeysOf(fields: seq<(string, Json)>): (keys: seq<string>)
    ensures |keys| == |fields|
    ensures forall i :: 0 <= i < |fields| ==> keys[i] == fields[i].0
  {
    seq(|fields|, i requires 0 <= i < |fields| => fields[i].0)
  }

  /** A calendar date (Python `date`). */
  datatype Date = Date(year: int, month: int, day: int)

  /** A wall-clock time (Python `time`). */
  datatype Time = Time(hour: int, minute: int, second: int)

  /** A stored moment: its calendar day, and a tick that orders moments. */
  datatype Instant = Instant(day: Date, tick: nat)

  /** Python truthiness of a JSON-like value (`if value:`). */
  predicate Truthy(v: Json)
  {
    match v
    case JNull => false
    case JBool(b) => b
    case JNum(n) => n != 0.0
    case JStr(s) => |s| > 0
    case JArr(items) => |items| > 0
    case JObj(fields) => |fields| > 0
  }

  /** Python's ordering of dates: by year, then month, then day. */
  predicate DateLe(a: Date, b: Date)
  {
    a.year < b.year
    || (a.year == b.year && a.month < b.month)
    || (a.year == b.year && a.month == b.month && a.day <= b.day)
  }

  // ---------------------------------------------------------------------
  // Whitespace and strip()
  // ---------------------------------------------------------------------

  /** Python's `str.isspace` for one character; it is also what `\s` matches in `re`. */
  predicate IsSpace(c: char)
  {
    c == ' ' || c == '\t' || c == '\n' || c == '\r' || c == '\U{000B}' || c == '\U{000C}'
    || ('\U{001C}' <= c <= '\U{001F}')
    || c == '\U{0085}' || c == '\U{00A0}' || c == '\U{1680}'
    || ('\U{2000}' <= c <= '\U{200A}')
    || c == '\U{2028}' || c == '\U{2029}' || c == '\U{202F}' || c == '\U{205F}' || c == '\U{3000}'
  }

  predicate IsStripped(s: string)
  {
    |s| == 0 || (!IsSpace(s[0]) && !IsSpace(s[|s| - 1]))
  }

  /** `s.lstrip()`: drops the leading whitespace and nothing else. */
  function StripLeft(s: string): (r: string)
    ensures |r| <= |s| && r == s[|s| - |r|..]
    ensures forall k :: 0 <= k < |s| - |r| ==> IsSpace(s[k])
    ensures |r| > 0 ==> !IsSpace(r[0])
  {
    if |s| > 0 && IsSpace(s[0]) then StripLeft(s[1..]) else s
  }

  /** `s.rstrip()`: drops the trailing whitespace and nothing else. */
  function StripRight(s: string): (r: string)
    ensures |r| <= |s| && r == s[..|r|]
    ensures forall k :: |r| <= k < |s| ==> IsSpace(s[k])
    ensures |r| > 0 ==> !IsSpace(r[|r| - 1])
  {
    if |s| > 0 && IsSpace(s[|s| - 1]) then StripRight(s[..|s| - 1]) else s
  }

  /** `s.strip()`. */
  function Strip(s: string): (r: string)
    ensures IsStripped(r)
    ensures |r| <= |s|
  {
    StripRight(StripLeft(s))
  }

  /** Stripping text that has no surrounding whitespace changes nothing. */
  lemma StripStripped(s: string)
    requires IsStripped(s)
    ensures Strip(s) == s
  {
  }

  // ---------------------------------------------------------------------
  // Substrings
  // ---------------------------------------------------------------------

  /** `w` occurs in `s` starting at index `i`. */
  predicate OccursAt(s: string, w: string, i: int)
  {
    0 <= i && i + |w| <= |s| && s[i..i + |w|] == w
  }

  /** Python's `w in s` for strings. */
  predicate Contains(s: string, w: string)
  {
    exists i :: 0 <= i <= |s| - |w| && OccursAt(s, w, i)
  }

  /** An occurrence inside a suffix is an occurrence in the whole string. */
  lemma ContainsSuffix(s: string, k: nat, w: string)
    requires k <= |s|
    ensures Contains(s[k..], w) ==> Contains(s, w)
  {
    if Contains(s[k..], w) {
      var i :| 0 <= i <= |s[k..]| - |w| && OccursAt(s[k..], w, i);
      assert s[k..][i..i + |w|] == s[k + i..k + i + |w|];
      assert OccursAt(s, w, k + i);
    }
  }

  // ---------------------------------------------------------------------
  // str.replace
  // ---------------------------------------------------------------------

  /**
   * Python's `s.replace(pat, rep)`: scans left to right and replaces every
   * non-overlapping occurrence of `pat`.
   */
  function Replace(s: string, pat: string, rep: string): string
    requires |pat| > 0
    decreases |s|
  {
    if |s| < |pat| then s
    else if s[..|pat|] == pat then rep + Replace(s[|pat|..], pat, rep)
    else [s[0]] + Replace(s[1..], pat, rep)
  }

  /** No occurrence of `pat` may start inside `rep` at index `i`... nor reach past it. */
  predicate Overlaps(x: string, rep: string)
  {
    x <= rep || rep <= x
  }

  /** Two strings that differ at an index both reach do not overlap. */
  lemma NoOverlapAt(x: string, rep: string, k: nat)
    requires k < |x| && k < |rep| && x[k] != rep[k]
    ensures !Overlaps(x, rep)
  {
  }

  /**
   * If the output of a replacement starts with `w`, and no copy of `rep` can
   * start inside `w`, then the input already started with `w`.
   */
  lemma {:induction false} PrefixSurvivesReplace(t: string, pat: string, rep: string, w: string)
    requires |pat| > 0
    requires w <= Replace(t, pat, rep)
    requires forall i :: 0 <= i < |w| ==> !Overlaps(w[i..], rep)
    ensures w <= t
    decreases |t|
  {
    if |w| > 0 && |t| >= |pat| {
      assert w[0..] == w;
      assert t[..|pat|] != pat;
      PrefixThroughReplace(t, pat, rep, w);
    }
  }

  /**
   * When `t` does not start with `pat`, its first character is copied, so a
   * prefix `w` of the output is a prefix of `t` whenever no copy of `rep` can
   * start inside `w[1..]`.
   */
  lemma {:induction false} PrefixThroughReplace(t: string, pat: string, rep: string, w: string)
    requires |pat| > 0 && |w| > 0 && |t| >= |pat| && t[..|pat|] != pat
    requires forall i :: 1 <= i < |w| ==> !Overlaps(w[i..], rep)
    ensures w <= Replace(t, pat, rep) ==> w <= t
    decreases |t|, 0
  {
    if w <= Replace(t, pat, rep) {
      assert Replace(t, pat, rep) == [t[0]] + Replace(t[1..], pat, rep);
      forall i | 0 <= i < |w[1..]| ensures !Overlaps(w[1..][i..], rep) {
        assert w[1..][i..] == w[i + 1..];
      }
      PrefixSurvivesReplace(t[1..], pat, rep, w[1..]);
    }
  }

  /** An occurrence past a prefix `pre` is an occurrence in what follows `pre`. */
  lemma OccursAfterPrefix(pre: string, r: string, w: string, p: int)
    requires p >= |pre|
    ensures OccursAt(pre + r, w, p) ==> OccursAt(r, w, p - |pre|)
  {
    if OccursAt(pre + r, w, p) {
      assert (pre + r)[p..p + |w|] == r[p - |pre|..p - |pre| + |w|];
    }
  }

  /**
   * Replacing `pat` by `rep` leaves no occurrence of `w`, when `w` is `pat`
   * itself or is absent beforehand, provided `rep` neither contains `w`'s first
   * character nor overlaps any proper suffix of `w`.
   */
  lemma {:induction false} ReplaceKeepsAbsent(s: string, pat: string, rep: string, w: string)
    requires |pat| > 0 && |w| > 0
    requires w == pat || !Contains(s, w)
    requires w[0] !in rep
    requires forall i :: 1 <= i < |w| ==> !Overlaps(w[i..], rep)
    ensures !Contains(Replace(s, pat, rep), w)
    decreases |s|
  {
    if |s| < |pat| {
    } else if s[..|pat|] == pat {
      ReplaceKeepsAbsentAtPattern(s, pat, rep, w);
    } else {
      ReplaceKeepsAbsentOtherwise(s, pat, rep, w);
    }
  }

  /** The case of `ReplaceKeepsAbsent` where `s` starts with `pat`. */
  lemma {:induction false} ReplaceKeepsAbsentAtPattern(s: string, pat: string, rep: string, w: string)
    requires |pat| > 0 && |w| > 0 && |s| >= |pat| && s[..|pat|] == pat
    requires w == pat || !Contains(s, w)
    requires w[0] !in rep
    requires forall i :: 1 <= i < |w| ==> !Overlaps(w[i..], rep)
    ensures !Contains(Replace(s, pat, rep), w)
    decreases |s|, 1
  {
    var rest := s[|pat|..];
    ContainsSuffix(s, |pat|, w);
    ReplaceKeepsAbsent(rest, pat, rep, w);
    var r := Replace(rest, pat, rep);
    var out := rep + r;
    assert Replace(s, pat, rep) == out;
    forall p | 0 <= p <= |out| - |w| ensures !OccursAt(out, w, p) {
      if p < |rep| {
        assert out[p] == rep[p];
      } else {
        OccursAfterPrefix(rep, r, w, p);
      }
    }
  }

  /** The case of `ReplaceKeepsAbsent` where `s` does not start with `pat`. */
  lemma {:induction false} ReplaceKeepsAbsentOtherwise(s: string, pat: string, rep: string, w: string)
    requires |pat| > 0 && |w| > 0 && |s| >= |pat| && s[..|pat|] != pat
    requires w == pat || !Contains(s, w)
    requires w[0] !in rep
    requires forall i :: 1 <= i < |w| ==> !Overlaps(w[i..], rep)
    ensures !Contains(Replace(s, pat, rep), w)
    decreases |s|, 1
  {
    var rest := s[1..];
    ContainsSuffix(s, 1, w);
    ReplaceKeepsAbsent(rest, pat, rep, w);
    var r := Replace(rest, pat, rep);
    var out := [s[0]] + r;
    assert Replace(s, pat, rep) == out;
    forall p | 0 <= p <= |out| - |w| ensures !OccursAt(out, w, p) {
      if p >= 1 {
        OccursAfterPrefix([s[0]], r, w, p);
      } else {
        PrefixThroughReplace(s, pat, rep, w);
        assert OccursAt(out, w, 0) ==> OccursAt(s, w, 0);
      }
    }
  }

  /** Replacing by something shorter never lengthens the text, and shortens it when `pat` occurs. */
  lemma {:induction false} ReplaceShrinks(s: string, pat: string, rep: string)
    requires |pat| > 0 && |rep| < |pat|
    ensures |Replace(s, pat, rep)| <= |s|
    ensures Contains(s, pat) ==> |Replace(s, pat, rep)| < |s|
    decreases |s|
  {
    if |s| < |pat| {
    } else if s[..|pat|] == pat {
      ReplaceShrinks(s[|pat|..], pat, rep);
    } else {
      ReplaceShrinks(s[1..], pat, rep);
      if Contains(s, pat) {
        var i :| 0 <= i <= |s| - |pat| && OccursAt(s, pat, i);
        if i == 0 {
          assert false;
        }
        assert s[1..][i - 1..i - 1 + |pat|] == s[i..i + |pat|];
        assert OccursAt(s[1..], pat, i - 1);
      }
    }
  }

  /** Replacing `pat` leaves the text unchanged when `pat` does not occur. */
  lemma {:induction false} ReplaceAbsent(s: string, pat: string, rep: string)
    requires |pat| > 0 && !Contains(s, pat)
    ensures Replace(s, pat, rep) == s
    decreases |s|
  {
    if |s| >= |pat| {
      assert !OccursAt(s, pat, 0);
      ContainsSuffix(s, 1, pat);
      ReplaceAbsent(s[1..], pat, rep);
    }
  }

  // ---------------------------------------------------------------------
  // split
  // ---------------------------------------------------------------------

  /** Index of the first `c` in `s`, or `|s|` when there is none. */
  function FirstIndexOf(s: string, c: char): (i: nat)
    ensures i <= |s|
    ensures i < |s| ==> s[i] == c
    ensures forall k :: 0 <= k < i ==> s[k] != c
  {
    if |s| == 0 then 0
    else if s[0] == c then 0
    else 1 + FirstIndexOf(s[1..], c)
  }

  /** Python's `s.rfind(c)`: the index of the last `c`, or -1 when there is none. */
  function LastIndexOf(s: string, c: char): (i: int)
    ensures -1 <= i < |s|
    ensures i >= 0 ==> s[i] == c
    ensures forall k :: i < k < |s| ==> s[k] != c
  {
    if |s| == 0 then -1
    else if s[|s| - 1] == c then |s| - 1
    else LastIndexOf(s[..|s| - 1], c)
  }

  /** Python's `s.split(c)` for a one-character separator. */
  function SplitOn(s: string, c: char): (parts: seq<string>)
    ensures |parts| >= 1
    ensures c !in s ==> parts == [s]
    decreases |s|
  {
    var i := FirstIndexOf(s, c);
    if i == |s| then [s] else [s[..i]] + SplitOn(s[i + 1..], c)
  }

  /** Python's `s.split()` with no argument: the maximal runs of non-whitespace. */
  function Words(s: string): seq<string>
  {
    WordsFrom(s, 0)
  }

  /** The words of `s[i..]`. */
  function WordsFrom(s: string, i: nat): seq<string>
    requires i <= |s|
    decreases |s| - i
  {
    if i == |s| then []
    else if IsSpace(s[i]) then WordsFrom(s, i + 1)
    else [s[i..WordEnd(s, i)]] + WordsFrom(s, WordEnd(s, i))
  }

  /** End of the run of non-whitespace that starts at `i`. */
  function WordEnd(s: string, i: nat): (e: nat)
    requires i <= |s|
    ensures i <= e <= |s|
    ensures i < |s| && !IsSpace(s[i]) ==> i < e
    decreases |s| - i
  {
    if i < |s| && !IsSpace(s[i]) then WordEnd(s, i + 1) else i
  }

  // ---------------------------------------------------------------------
  // Numbers as text
  // ---------------------------------------------------------------------

  function DigitChar(d: nat): char
    requires d < 10
  {
    "0123456789"[d]
  }

  /** Python's `str(n)` for a non-negative integer. */
  function NatToString(n: nat): (s: string)
    ensures |s| >= 1
    ensures forall k :: 0 <= k < |s| ==> '0' <= s[k] <= '9'
  {
    if n < 10 then [DigitChar(n)] else NatToString(n / 10) + [DigitChar(n % 10)]
  }
}

=== FILE: conversation_manager.dfy ===
/**
 * `ConversationManager`: the chat flow. Find or create the conversation,
 * start its assistant thread with two context messages when it has none,
 * store and post the user's message, run the assistant, and store its reply.
 *
 * The assistant service is a log of thread events; the thread id it hands
 * out, the clock, the run's statuses, the listed messages, `json.loads` and
 * Python's `str()` of the reply are parameters.
 */
module ConversationManager {
  import opened Common
  import opened OpenAiUtils
  import Assistant

  /** The assistant every new conversation is bound to. */
  const AssistantId := "asst_Quv8mSsNKh3wfx8GUJkX7yqx"

  /** What reading `user.profile` raises when the user has no profile. */
  const NoProfileError := "User has no profile."

  /**
   * The profile attributes the manager reads. The birth data, coordinates and
   * chart are held as the text Python's formatting gives them.
   */
  datatype ProfileInfo = ProfileInfo(
    dateOfBirth: string,
    timeOfBirth: string,
    placeOfBirth: string,
    latitude: string,
    longitude: string,
    preferredLanguage: Option<string>,
    birthChart: string)

  /** The language set in `__init__`: the profile's preferred language when it is set and non-empty, else "en". */
  function Language(profile: Option<ProfileInfo>): (language: string)
    ensures profile.Some? && profile.value.preferredLanguage.Some? && profile.value.preferredLanguage.value != ""
            ==> language == profile.value.preferredLanguage.value
    ensures profile.None? || profile.value.preferredLanguage.None? || profile.value.preferredLanguage.value == ""
            ==> language == "en"
  {
    if profile.Some? && profile.value.preferredLanguage.Some? && profile.value.preferredLanguage.value != ""
    then profile.value.preferredLanguage.value
    else "en"
  }

  /** How a missing language prints inside the context message. */
  function LanguageText(language: Option<string>): string
  {
    if language.Some? then language.value else "None"
  }

  /** The first context message: the user's birth data and the language to answer in. */
  function UserInfo(p: ProfileInfo): string
  {
    "This is the user's information: Birth Date: " + p.dateOfBirth
    + ", Birth Time: " + p.timeOfBirth
    + " UTC, Place of Birth: " + p.placeOfBirth
    + ", Latitude: " + p.latitude
    + ", Longitude: " + p.longitude
    + ". The responses in this thread should be strictly in " + LanguageText(p.preferredLanguage) + " language."
  }

  /** The second context message: the user's chart. */
  function ChartInfo(p: ProfileInfo): string
  {
    "This is the user's birth chart: " + p.birthChart
  }

  /** A conversation row. An empty `threadId` means no thread yet. */
  datatype Conversation = Conversation(
    id: nat,
    user: UserId,
    assistantId: string,
    sessionId: Option<string>,
    threadId: string)

  /** A stored chat message. */
  datatype StoredMessage = StoredMessage(conversation: nat, role: string, content: string)

  /** What the assistant service is asked to do, in order. */
  datatype ThreadEvent =
    | ThreadCreated(metadata: seq<(string, Json)>, threadId: string)
    | Posted(message: ThreadMessage)
    | RunStarted(threadId: string, assistantId: string)

  /** `if session_id:` — a session id that is given and non-empty. */
  predicate SessionGiven(sessionId: Option<string>)
  {
    sessionId.Some? && sessionId.value != ""
  }

  predicate Owned(c: Conversation, sessionId: Option<string>, user: UserId)
  {
    c.sessionId == sessionId && c.user == user
  }

  /** The first conversation with this session id belonging to this user. */
  function FirstOwned(cs: seq<Conversation>, sessionId: Option<string>, user: UserId, from: nat): (r: Option<nat>)
    requires from <= |cs|
    decreases |cs| - from
    ensures r.Some? ==> from <= r.value < |cs| && Owned(cs[r.value], sessionId, user)
    ensures r.Some? ==> forall j :: from <= j < r.value ==> !Owned(cs[j], sessionId, user)
    ensures r.None? ==> forall j :: from <= j < |cs| ==> !Owned(cs[j], sessionId, user)
  {
    if from == |cs| then None
    else if Owned(cs[from], sessionId, user) then Some(from)
    else FirstOwned(cs, sessionId, user, from + 1)
  }

  /** The conversation reused: only with a session id, and only one of this user's. */
  function FindConversation(cs: seq<Conversation>, sessionId: Option<string>, user: UserId): (r: Option<nat>)
    ensures r.Some? ==> SessionGiven(sessionId) && r.value < |cs| && Owned(cs[r.value], sessionId, user)
    ensures SessionGiven(sessionId) && (exists j :: 0 <= j < |cs| && Owned(cs[j], sessionId, user)) ==> r.Some?
  {
    if SessionGiven(sessionId) then FirstOwned(cs, sessionId, user, 0) else None
  }

  /** The conversation the chat uses, before its thread is set. */
  function Chosen(cs: seq<Conversation>, sessionId: Option<string>, user: UserId): (c: Conversation)
    requires forall i :: 0 <= i < |cs| ==> cs[i].id == i
    ensures c.user == user
    ensures c.id <= |cs|
    ensures c.id == |cs| <==> FindConversation(cs, sessionId, user).None?
  {
    var found := FindConversation(cs, sessionId, user);
    if found.Some? then cs[found.value] else Conversation(|cs|, user, AssistantId, sessionId, "")
  }

  /** The metadata the new thread is created with. */
  function ThreadMetadata(id: nat): seq<(string, Json)>
  {
    [("conversation_id", JStr(NatToString(id)))]
  }

  /** The conversation after the set-up step: its thread is the new one when it had none. */
  function Threaded(c: Conversation, newThreadId: string): Conversation
  {
    if c.threadId == "" then c.(threadId := newThreadId) else c
  }

  /** The conversation table after the set-up step: the chosen row added when new, then saved with its thread. */
  function ConversationsAfter(cs: seq<Conversation>, sessionId: Option<string>, user: UserId,
                              newThreadId: string): seq<Conversation>
    requires forall i :: 0 <= i < |cs| ==> cs[i].id == i
  {
    var c := Chosen(cs, sessionId, user);
    (if c.id < |cs| then cs else cs + [c])[c.id := Threaded(c, newThreadId)]
  }

  /** The two context messages posted to a new thread. */
  function ContextEvents(threadId: string, p: ProfileInfo, day: Date, now: Time): seq<ThreadEvent>
    requires 1 <= day.year <= 9999 && 1 <= day.month <= 12 && 1 <= day.day <= 31
    requires 0 <= now.hour < 24 && 0 <= now.minute < 60 && 0 <= now.second < 60
  {
    [Posted(ThreadMessageFor(threadId, UserInfo(p), [], day, now)),
     Posted(ThreadMessageFor(threadId, ChartInfo(p), [], day, now))]
  }

  /**
   * The thread events of the set-up step: none when the conversation has a
   * thread; otherwise the thread creation, then (when there is a profile)
   * the two context messages.
   */
  function SetupEvents(c: Conversation, profile: Option<ProfileInfo>, newThreadId: string,
                       day: Date, now: Time): (es: seq<ThreadEvent>)
    requires 1 <= day.year <= 9999 && 1 <= day.month <= 12 && 1 <= day.day <= 31
    requires 0 <= now.hour < 24 && 0 <= now.minute < 60 && 0 <= now.second < 60
  {
    if c.threadId != "" then []
    else if profile.None? then [ThreadCreated(ThreadMetadata(c.id), newThreadId)]
    else [ThreadCreated(ThreadMetadata(c.id), newThreadId)] + ContextEvents(newThreadId, profile.value, day, now)
  }

  /** A thread is created only for a conversation without one, and the context follows it only with a profile. */
  lemma SetupEventsShape(c: Conversation, profile: Option<ProfileInfo>, newThreadId: string, day: Date, now: Time)
    requires 1 <= day.year <= 9999 && 1 <= day.month <= 12 && 1 <= day.day <= 31
    requires 0 <= now.hour < 24 && 0 <= now.minute < 60 && 0 <= now.second < 60
    ensures var es := SetupEvents(c, profile, newThreadId, day, now);
            && (|es| > 0 <==> c.threadId == "")
            && (|es| > 0 ==> es[0] == ThreadCreated(ThreadMetadata(c.id), newThreadId))
            && (c.threadId == "" && profile.Some? ==>
                  |es| == 3
                  && es[1].Posted? && es[1].message.threadId == newThreadId
                  && es[1].message.content[21..] == UserInfo(profile.value)
                  && es[2].Posted? && es[2].message.threadId == newThreadId
                  && es[2].message.content[21..] == ChartInfo(profile.value))
            && (c.threadId == "" && profile.None? ==> |es| == 1)
  {
  }

  /** The user's message as posted, followed by the run it triggers. */
  function ExchangeEvents(threadId: string, assistantId: string, userInput: string, day: Date, now: Time): seq<ThreadEvent>
    requires 1 <= day.year <= 9999 && 1 <= day.month <= 12 && 1 <= day.day <= 31
    requires 0 <= now.hour < 24 && 0 <= now.minute < 60 && 0 <= now.second < 60
  {
    [Posted(ThreadMessageFor(threadId, userInput, [], day, now)), RunStarted(threadId, assistantId)]
  }

  /** The dict `chat` returns. */
  function ChatReply(reply: string, id: nat): (r: Json)
    ensures r.JObj? && KeysOf(r.fields) == ["reply", "conversation_id"]
    ensures r.fields[0].1 == JStr(reply) && r.fields[1].1 == JNum(id as real)
  {
    JObj([("reply", JStr(reply)), ("conversation_id", JNum(id as real))])
  }

  /** The conversations, the stored messages and the assistant service's event log. */
  class ChatStore {
    var conversations: seq<Conversation>
    var messages: seq<StoredMessage>
    var events: seq<ThreadEvent>

    /** Conversation ids are their positions. */
    ghost predicate Valid()
      reads this
    {
      forall i :: 0 <= i < |conversations| ==> conversations[i].id == i
    }

    constructor ()
      ensures Valid() && conversations == [] && messages == [] && events == []
    {
      conversations := [];
      messages := [];
      events := [];
    }
  }

  /**
   * The first half of `chat`: find or create the conversation and, when it
   * has no thread, create one and save it on the conversation.
   */
  method OpenConversation(store: ChatStore, user: UserId, sessionId: Option<string>, newThreadId: string)
    returns (conversation: Conversation, created: bool)
    requires store.Valid()
    modifies store
    ensures store.Valid()
    ensures var c := Chosen(old(store.conversations), sessionId, user);
            && conversation == Threaded(c, newThreadId)
            && (created <==> c.threadId == "")
            && store.conversations == ConversationsAfter(old(store.conversations), sessionId, user, newThreadId)
            && store.events == old(store.events) + (if created then [ThreadCreated(ThreadMetadata(c.id), newThreadId)] else [])
            && store.messages == old(store.messages)
  {
    var found := FindConversation(store.conversations, sessionId, user);
    if found.Some? {
      conversation := store.conversations[found.value];
    } else {
      conversation := Conversation(|store.conversations|, user, AssistantId, sessionId, "");
      store.conversations := store.conversations + [conversation];
    }
    created := conversation.threadId == "";
    if created {
      store.events := store.events + [ThreadCreated(ThreadMetadata(conversation.id), newThreadId)];
      conversation := conversation.(threadId := newThreadId);
    }
    store.conversations := store.conversations[conversation.id := conversation];
  }

  /**
   * `chat`. The clock reading (`day`, `now`) is taken once for every thread
   * message; `runStatus`, `status`, `listed` and `loads` are what
   * `get_assistant_response` sees.
   */
  method Chat(store: ChatStore, user: UserId, sessionId: Option<string>, userInput: string,
              profile: Option<ProfileInfo>, newThreadId: string, day: Date, now: Time,
              runStatus: string, status: nat -> string, listed: seq<seq<string>>,
              loads: string -> Option<Json>, pyStr: Json -> string) returns (r: Result<Json, string>)
    requires store.Valid()
    requires 1 <= day.year <= 9999 && 1 <= day.month <= 12 && 1 <= day.day <= 31
    requires 0 <= now.hour < 24 && 0 <= now.minute < 60 && 0 <= now.second < 60
    modifies store
    ensures store.Valid()
    ensures store.conversations == ConversationsAfter(old(store.conversations), sessionId, user, newThreadId)
    ensures var c := Chosen(old(store.conversations), sessionId, user);
            var setup := SetupEvents(c, profile, newThreadId, day, now);
            var t := Threaded(c, newThreadId);
            var reply := Assistant.AssistantReply(runStatus, status, listed, loads);
            if c.threadId == "" && profile.None? then
              && r == Err(NoProfileError)
              && store.events == old(store.events) + setup
              && store.messages == old(store.messages)
            else
              && store.events == old(store.events) + setup + ExchangeEvents(t.threadId, t.assistantId, userInput, day, now)
              && (reply.Err? ==>
                    r == Err(reply.error)
                    && store.messages == old(store.messages) + [StoredMessage(c.id, "user", userInput)])
              && (reply.Ok? ==>
                    r == Ok(ChatReply(pyStr(reply.value), c.id))
                    && store.messages == old(store.messages) + [StoredMessage(c.id, "user", userInput),
                                                                StoredMessage(c.id, "assistant", pyStr(reply.value))])
  {
    var conversation, ready := SetUpConversation(store, user, sessionId, profile, newThreadId, day, now);
    if !ready {
      return Err(NoProfileError);
    }
    r := Exchange(store, conversation, userInput, day, now, runStatus, status, listed, loads, pyStr);
  }

  /**
   * The first half of `chat`: open the conversation and, for a new thread,
   * post the two context messages; `ready` is false when a new thread has
   * no profile to describe.
   */
  method SetUpConversation(store: ChatStore, user: UserId, sessionId: Option<string>,
                           profile: Option<ProfileInfo>, newThreadId: string, day: Date, now: Time)
    returns (conversation: Conversation, ready: bool)
    requires store.Valid()
    requires 1 <= day.year <= 9999 && 1 <= day.month <= 12 && 1 <= day.day <= 31
    requires 0 <= now.hour < 24 && 0 <= now.minute < 60 && 0 <= now.second < 60
    modifies store
    ensures store.Valid()
    ensures var c := Chosen(old(store.conversations), sessionId, user);
            && conversation == Threaded(c, newThreadId)
            && (ready <==> !(c.threadId == "" && profile.None?))
            && store.conversations == ConversationsAfter(old(store.conversations), sessionId, user, newThreadId)
            && store.events == old(store.events) + SetupEvents(c, profile, newThreadId, day, now)
            && store.messages == old(store.messages)
  {
    ghost var c := Chosen(store.conversations, sessionId, user);
    ghost var events0 := store.events;
    ghost var setup := SetupEvents(c, profile, newThreadId, day, now);
    var created: bool;
    conversation, created := OpenConversation(store, user, sessionId, newThreadId);
    ready := true;
    if created {
      if profile.None? {
        assert setup == [ThreadCreated(ThreadMetadata(c.id), newThreadId)];
        ready := false;
        return;
      }
      var p := profile.value;
      store.events := store.events + ContextEvents(conversation.threadId, p, day, now);
      assert store.events == events0 + setup;
    } else {
      assert store.events == events0 + setup;
    }
  }

  /**
   * The second half of `chat`: store and post the user's message, run the
   * assistant, then store its reply as text.
   */
  method Exchange(store: ChatStore, conversation: Conversation, userInput: string, day: Date, now: Time,
                  runStatus: string, status: nat -> string, listed: seq<seq<string>>,
                  loads: string -> Option<Json>, pyStr: Json -> string) returns (r: Result<Json, string>)
    requires 1 <= day.year <= 9999 && 1 <= day.month <= 12 && 1 <= day.day <= 31
    requires 0 <= now.hour < 24 && 0 <= now.minute < 60 && 0 <= now.second < 60
    modifies store
    ensures store.conversations == old(store.conversations)
    ensures store.events == old(store.events)
              + ExchangeEvents(conversation.threadId, conversation.assistantId, userInput, day, now)
    ensures var reply := Assistant.AssistantReply(runStatus, status, listed, loads);
            && (reply.Err? ==>
                  r == Err(reply.error)
                  && store.messages == old(store.messages) + [StoredMessage(conversation.id, "user", userInput)])
            && (reply.Ok? ==>
                  r == Ok(ChatReply(pyStr(reply.value), conversation.id))
                  && store.messages == old(store.messages) + [StoredMessage(conversation.id, "user", userInput),
                                                              StoredMessage(conversation.id, "assistant", pyStr(reply.value))])
  {
    store.messages := store.messages + [StoredMessage(conversation.id, "user", userInput)];
    store.events := store.events + ExchangeEvents(conversation.threadId, conversation.assistantId, userInput, day, now);
    var response, _ := Assistant.GetAssistantResponse(runStatus, status, listed, loads);
    if response.Err? {
      return Err(response.error);
    }
    var assistantReply := pyStr(response.value);
    store.messages := store.messages + [StoredMessage(conversation.id, "assistant", assistantReply)];
    r := Ok(ChatReply(assistantReply, conversation.id));
  }

  /** The user's message is posted after every set-up event and immediately before the run starts. */
  lemma UserMessageBeforeRun(c: Conversation, profile: Option<ProfileInfo>, newThreadId: string,
                             threadId: string, userInput: string, day: Date, now: Time)
    requires 1 <= day.year <= 9999 && 1 <= day.month <= 12 && 1 <= day.day <= 31
    requires 0 <= now.hour < 24 && 0 <= now.minute < 60 && 0 <= now.second < 60
    ensures var es := SetupEvents(c, profile, newThreadId, day, now)
                      + ExchangeEvents(threadId, c.assistantId, userInput, day, now);
            var n := |es|;
            && n >= 2
            && es[n - 1] == RunStarted(threadId, c.assistantId)
            && es[n - 2].Posted? && es[n - 2].message.content[21..] == userInput
            && (forall k :: 0 <= k < n - 2 ==> !es[k].RunStarted?)
  {
  }
}

=== FILE: core_permissions.dfy ===
/**
 * `IsOrgMemberOrOwner`: an object is reachable by the superuser, by the
 * owner of the use case it belongs to, and by the members of that use
 * case's organisation. Which attributes the object has is its shape.
 */
module CorePermissions {
  import opened Common
  import opened Requests
  import opened Organizations

  /** A use case: its organisation and its owner (none when the column is null). */
  datatype UseCase = UseCase(organization: nat, owner: Option<UserId>)

  datatype Workflow = Workflow(useCase: Option<UseCase>)

  /**
   * The attributes the permission probes: `direct` when the object has both
   * `organization_id` and `owner`; `useCase` and `workflow` are None when the
   * attribute is absent, and Some(None) when it is present but null.
   */
  datatype ObjectShape = ObjectShape(
    direct: Option<UseCase>,
    useCase: Option<Option<UseCase>>,
    workflow: Option<Option<Workflow>>)

  /** Reading `organization_id` through a workflow whose `use_case` is null. */
  const NoUseCase := "'NoneType' object has no attribute 'organization_id'"

  /**
   * The organisation and owner the object resolves to, trying its own fields,
   * then its use case, then its workflow's use case; None when none applies.
   */
  function Resolve(shape: ObjectShape): (r: Result<Option<UseCase>, string>)
    ensures shape.direct.Some? ==> r == Ok(shape.direct)
    ensures shape.direct.None? && shape.useCase.Some? && shape.useCase.value.Some? ==> r == Ok(shape.useCase.value)
    ensures r.Err? <==> && shape.direct.None? && (shape.useCase.None? || shape.useCase.value.None?)
                        && shape.workflow.Some? && shape.workflow.value.Some?
                        && shape.workflow.value.value.useCase.None?
    ensures r == Ok(None) <==> && shape.direct.None? && (shape.useCase.None? || shape.useCase.value.None?)
                               && (shape.workflow.None? || shape.workflow.value.None?)
  {
    if shape.direct.Some? then Ok(shape.direct)
    else if shape.useCase.Some? && shape.useCase.value.Some? then Ok(shape.useCase.value)
    else if shape.workflow.Some? && shape.workflow.value.Some? then
      match shape.workflow.value.value.useCase
      case Some(useCase) => Ok(Some(useCase))
      case None => Err(NoUseCase)
    else Ok(None)
  }

  /** `has_permission`: exactly the authenticated requests. */
  function HasPermission(requester: Requester): (allowed: bool)
    ensures allowed <==> !requester.Anonymous?
  {
    requester.Authenticated?
  }

  /**
   * `has_object_permission`, reached only after `has_permission` let the
   * request through: an error when resolution raises.
   */
  function HasObjectPermission(s: State, requester: Requester, shape: ObjectShape): (r: Result<bool, string>)
    requires WellFormed(s) && requester.Authenticated?
    ensures requester.isSuperuser ==> r == Ok(true)
    ensures !requester.isSuperuser ==> (r.Err? <==> Resolve(shape).Err?)
    ensures !requester.isSuperuser && Resolve(shape) == Ok(None) ==> r == Ok(false)
  {
    if requester.isSuperuser then Ok(true)
    else match Resolve(shape)
      case Err(e) => Err(e)
      case Ok(None) => Ok(false)
      case Ok(Some(useCase)) =>
        if useCase.owner == Some(requester.id) then Ok(true)
        else Ok(useCase.organization in MembershipOrgs(s, requester.id))
  }

  /**
   * Once the object resolves to a use case, a plain user gets in exactly when
   * it owns that use case or holds a live membership in its organisation.
   */
  lemma ResolvedRule(s: State, id: UserId, shape: ObjectShape, useCase: UseCase)
    requires WellFormed(s) && Resolve(shape) == Ok(Some(useCase))
    ensures HasObjectPermission(s, Authenticated(id, false), shape)
            == Ok(useCase.owner == Some(id) || useCase.organization in MembershipOrgs(s, id))
  {
  }

  /** A member of the organisation's live teams is let through on every object of it. */
  lemma MemberAllowed(s: State, id: UserId, shape: ObjectShape, useCase: UseCase)
    requires WellFormed(s) && Resolve(shape) == Ok(Some(useCase))
    requires id in OrgUsers(s, useCase.organization)
    ensures HasObjectPermission(s, Authenticated(id, false), shape) == Ok(true)
  {
    OrgUsersAreMembers(s, useCase.organization, id);
  }

  /** The object's own fields take precedence over its use case and workflow. */
  lemma DirectWins(shape: ObjectShape, other: ObjectShape)
    requires shape.direct.Some? && other.direct == shape.direct
    ensures Resolve(shape) == Resolve(other)
  {
  }
}

=== FILE: geocoding.dfy ===
/**
 * `get_coordinates`: the place-of-birth lookup with its fallbacks.
 *
 * The Nominatim request is the parameter `fetch`: it answers `Some(c)` when
 * the service returns at least one hit for the query and `None` for an empty
 * answer, a non-200 status or any exception.
 */
module Geocoding {
  import opened Common

  /** A `{"latitude": …, "longitude": …}` dict. */
  datatype Coord = Coord(latitude: real, longitude: real)

  /** The coordinate returned when nothing is found. */
  const Unknown := Coord(0.0, 0.0)

  /** The answer and the queries sent to the lookup service, in order. */
  datatype Lookup = Lookup(coord: Coord, queries: seq<string>)

  /**
   * The pieces retried after the full text fails: the stripped comma pieces
   * when there is a comma, else the whitespace-separated words.
   */
  function Parts(place: string): seq<string>
  {
    if ',' in place then StripAll(SplitOn(place, ',')) else Words(place)
  }

  function StripAll(xs: seq<string>): (ys: seq<string>)
    ensures |ys| == |xs|
    ensures forall k :: 0 <= k < |xs| ==> ys[k] == Strip(xs[k])
  {
    if |xs| == 0 then [] else [Strip(xs[0])] + StripAll(xs[1..])
  }

  /** `get_coordinates(place)`: the full text first, then only the first part, then (0, 0). */
  function GetCoordinates(place: string, fetch: string -> Option<Coord>): Lookup
  {
    if |place| == 0 then Lookup(Unknown, [])
    else if fetch(place).Some? then Lookup(fetch(place).value, [place])
    else
      var parts := Parts(place);
      if |parts| == 0 then Lookup(Unknown, [place])
      else if fetch(parts[0]).Some? then Lookup(fetch(parts[0]).value, [place, parts[0]])
      else Lookup(Unknown, [place, parts[0]])
  }

  /** A missing place gives the sentinel without asking the service. */
  lemma EmptyPlaceSentinel(fetch: string -> Option<Coord>)
    ensures GetCoordinates("", fetch) == Lookup(Unknown, [])
  {
  }

  /** When the full text resolves, that answer is returned and no part is tried. */
  lemma FullPlaceWins(place: string, fetch: string -> Option<Coord>)
    requires |place| > 0 && fetch(place).Some?
    ensures GetCoordinates(place, fetch) == Lookup(fetch(place).value, [place])
  {
  }

  /**
   * After a failed full lookup only the first part is tried, and its failure
   * gives the sentinel; the first part is the stripped text before the first
   * comma, or the first word when there is no comma.
   */
  lemma FirstPartRetry(place: string, fetch: string -> Option<Coord>)
    requires |place| > 0 && fetch(place).None?
    ensures var r := GetCoordinates(place, fetch);
      && |r.queries| <= 2 && r.queries[0] == place
      && (|r.queries| == 1 <==> ',' !in place && forall k :: 0 <= k < |place| ==> IsSpace(place[k]))
      && (',' in place ==> r.queries == [place, Strip(place[..FirstIndexOf(place, ',')])])
      && (',' !in place && |r.queries| == 2 ==> r.queries[1] == Words(place)[0])
      && (|r.queries| == 2 ==>
            r.coord == if fetch(r.queries[1]).Some? then fetch(r.queries[1]).value else Unknown)
      && (|r.queries| == 1 ==> r.coord == Unknown)
  {
    if ',' in place {
      SplitOnHead(place, ',');
    } else {
      WordsEmpty(place);
    }
  }

  /** The first piece of `s.split(c)` is the text before the first `c`. */
  lemma SplitOnHead(s: string, c: char)
    ensures SplitOn(s, c)[0] == s[..FirstIndexOf(s, c)]
  {
    if FirstIndexOf(s, c) == |s| {
      assert s[..|s|] == s;
    }
  }

  /** `s.split()` is empty exactly when `s` is all whitespace. */
  lemma WordsEmpty(s: string)
    ensures |Words(s)| == 0 <==> forall k :: 0 <= k < |s| ==> IsSpace(s[k])
  {
    WordsFromEmpty(s, 0);
  }

  lemma {:induction false} WordsFromEmpty(s: string, i: nat)
    requires i <= |s|
    ensures |WordsFrom(s, i)| == 0 <==> forall k :: i <= k < |s| ==> IsSpace(s[k])
    decreases |s| - i
  {
    if i < |s| && IsSpace(s[i]) {
      WordsFromEmpty(s, i + 1);
    }
  }

  /**
   * The first word of `s.split()` is the maximal run of non-whitespace that
   * follows the leading whitespace.
   */
  lemma WordsHead(s: string)
    requires |Words(s)| > 0
    ensures exists k :: 0 <= k < |s| && WordAt(s, k, Words(s)[0])
  {
    var k := WordsFromHead(s, 0);
  }

  /** `w` is the run of non-whitespace at `k`, and only whitespace comes before it. */
  predicate WordAt(s: string, k: nat, w: string)
  {
    && |w| > 0 && OccursAt(s, w, k)
    && (forall x :: 0 <= x < k ==> IsSpace(s[x]))
    && (forall x :: 0 <= x < |w| ==> !IsSpace(w[x]))
    && (k + |w| == |s| || IsSpace(s[k + |w|]))
  }

  lemma {:induction false} WordsFromHead(s: string, i: nat) returns (k: nat)
    requires i <= |s| && |WordsFrom(s, i)| > 0
    requires forall x :: 0 <= x < i ==> IsSpace(s[x])
    ensures i <= k < |s| && WordAt(s, k, WordsFrom(s, i)[0])
    decreases |s| - i
  {
    if IsSpace(s[i]) {
      k := WordsFromHead(s, i + 1);
    } else {
      k := i;
      WordEndFacts(s, i);
    }
  }

  /** `WordEnd` covers non-whitespace only and stops at whitespace or the end. */
  lemma {:induction false} WordEndFacts(s: string, i: nat)
    requires i <= |s|
    ensures forall x :: i <= x < WordEnd(s, i) ==> !IsSpace(s[x])
    ensures WordEnd(s, i) == |s| || IsSpace(s[WordEnd(s, i)])
    decreases |s| - i
  {
    if i < |s| && !IsSpace(s[i]) {
      WordEndFacts(s, i + 1);
    }
  }
}

=== FILE: history.dfy ===
/**
 * The audit-history helpers: the name of a history model, the user recorded
 * with a change, the adjacent-pair walk over a record's history, and the
 * change list built from it.
 *
 * The history rows arrive in the order the history manager yields them
 * (newest first), so each pair is (newer, older). What `diff_against`
 * reports and how `str()` renders a field's value belong to the history
 * library and are the parameters `diff` and `render`.
 */
module History {
  import opened Common

  const HistoricalSuffix := "_Historical"

  /** `get_custom_history_model_name`. */
  function HistoryModelName(originalName: string): (name: string)
    ensures |name| == |originalName| + |HistoricalSuffix|
    ensures name[..|originalName|] == originalName && name[|originalName|..] == HistoricalSuffix
  {
    originalName + HistoricalSuffix
  }

  /** What the request context holds as its user. */
  datatype Principal = RegisteredUser(id: UserId) | AnonymousUser

  /** `get_current_user_for_simple_history`: the current user only when it is a `User`. */
  function CurrentUser(current: Option<Principal>): (user: Option<UserId>)
    ensures user.Some? <==> current.Some? && current.value.RegisteredUser?
    ensures user.Some? ==> user.value == current.value.id
  {
    match current
    case Some(RegisteredUser(id)) => Some(id)
    case _ => None
  }

  /** `pair_iterable_for_delta_changes`: each element with the one after it. */
  function Pairs<T>(xs: seq<T>): (pairs: seq<(T, T)>)
    ensures |pairs| == if |xs| <= 1 then 0 else |xs| - 1
    ensures forall i :: 0 <= i < |pairs| ==> pairs[i] == (xs[i], xs[i + 1])
  {
    if |xs| <= 1 then [] else [(xs[0], xs[1])] + Pairs(xs[1..])
  }

  /** A history row: who made the change (their email), when, and why. */
  datatype Record = Record(historyUser: Option<string>, historyDate: Instant, reason: Option<string>)

  datatype Change = Change(field: string, oldValue: string, newValue: string)

  datatype Entry = Entry(changedBy: string, historyDate: Instant, reason: Option<string>, changes: seq<Change>)

  const System := "System"

  /** The change records of one pair: one per changed field, in the order `diff` reports them. */
  function ChangesOf(newer: Record, older: Record, fields: seq<string>, render: (Record, string) -> string): (changes: seq<Change>)
    ensures |changes| == |fields|
    ensures forall k :: 0 <= k < |fields| ==> changes[k] == Change(fields[k], render(older, fields[k]), render(newer, fields[k]))
  {
    if |fields| == 0 then []
    else [Change(fields[0], render(older, fields[0]), render(newer, fields[0]))] + ChangesOf(newer, older, fields[1..], render)
  }

  /** The entry for one pair: attributed to the newer row's user, or to "System" when it has none. */
  function EntryOf(newer: Record, older: Record, diff: (Record, Record) -> seq<string>,
                   render: (Record, string) -> string): Entry
  {
    Entry(if newer.historyUser.Some? then newer.historyUser.value else System,
          newer.historyDate, newer.reason, ChangesOf(newer, older, diff(newer, older), render))
  }

  /** The history as the helper reports it: the entries of the pairs with at least one change, in order. */
  function HistoricalData(pairs: seq<(Record, Record)>, diff: (Record, Record) -> seq<string>,
                          render: (Record, string) -> string): seq<Entry>
  {
    if |pairs| == 0 then []
    else
      var (newer, older) := pairs[0];
      (if |diff(newer, older)| == 0 then [] else [EntryOf(newer, older, diff, render)])
      + HistoricalData(pairs[1..], diff, render)
  }

  /** The pairs up to `n` followed by pair `n` give the entries up to `n` and that pair's entry, if any. */
  lemma {:induction false} HistoricalDataSnoc(pairs: seq<(Record, Record)>, n: nat,
                                              diff: (Record, Record) -> seq<string>, render: (Record, string) -> string)
    requires n < |pairs|
    ensures HistoricalData(pairs[..n + 1], diff, render)
            == HistoricalData(pairs[..n], diff, render)
               + (if |diff(pairs[n].0, pairs[n].1)| == 0 then [] else [EntryOf(pairs[n].0, pairs[n].1, diff, render)])
  {
    if n > 0 {
      assert pairs[..n + 1][1..] == pairs[1..][..n];
      assert pairs[..n][1..] == pairs[1..][..n - 1];
      HistoricalDataSnoc(pairs[1..], n - 1, diff, render);
    } else {
      assert pairs[..1] == [pairs[0]];
    }
  }

  /**
   * `get_historical_data`: walk the adjacent pairs of the history, skip the
   * pairs without changes, and collect one entry per remaining pair.
   */
  method GetHistoricalData(records: seq<Record>, diff: (Record, Record) -> seq<string>,
                           render: (Record, string) -> string) returns (historicalData: seq<Entry>)
    ensures historicalData == HistoricalData(Pairs(records), diff, render)
  {
    var pairs := Pairs(records);
    historicalData := [];
    var i := 0;
    while i < |pairs|
      invariant 0 <= i <= |pairs|
      invariant historicalData == HistoricalData(pairs[..i], diff, render)
    {
      var (newRecord, oldRecord) := pairs[i];
      var delta := diff(newRecord, oldRecord);
      HistoricalDataSnoc(pairs, i, diff, render);
      if |delta| == 0 {
        i := i + 1;
        continue;
      }
      var changes := CollectChanges(newRecord, oldRecord, delta, render);
      var changedBy := if newRecord.historyUser.Some? then newRecord.historyUser.value else System;
      historicalData := historicalData + [Entry(changedBy, newRecord.historyDate, newRecord.reason, changes)];
      i := i + 1;
    }
    assert pairs[..i] == pairs;
  }

  /** The inner loop of `get_historical_data`: one change record per changed field. */
  method CollectChanges(newRecord: Record, oldRecord: Record, delta: seq<string>, render: (Record, string) -> string)
    returns (changes: seq<Change>)
    ensures changes == ChangesOf(newRecord, oldRecord, delta, render)
  {
    changes := [];
    var j := 0;
    while j < |delta|
      invariant 0 <= j <= |delta|
      invariant changes == ChangesOf(newRecord, oldRecord, delta[..j], render)
    {
      var field := delta[j];
      changes := changes + [Change(field, render(oldRecord, field), render(newRecord, field))];
      j := j + 1;
    }
    assert delta[..j] == delta;
  }

  /**
   * Every entry comes from one adjacent pair (newer, older) that has at least
   * one change, lists exactly that pair's changed fields, and is attributed
   * to the newer row's user, or to "System" when it has none; every pair
   * with a change has its entry.
   */
  lemma {:induction false} HistoricalDataEntries(pairs: seq<(Record, Record)>, diff: (Record, Record) -> seq<string>,
                                                 render: (Record, string) -> string)
    ensures var entries := HistoricalData(pairs, diff, render);
            && |entries| <= |pairs|
            && (forall k :: 0 <= k < |entries| ==>
                  exists i :: 0 <= i < |pairs| && |diff(pairs[i].0, pairs[i].1)| > 0
                              && entries[k] == EntryOf(pairs[i].0, pairs[i].1, diff, render))
            && (forall i :: 0 <= i < |pairs| && |diff(pairs[i].0, pairs[i].1)| > 0 ==>
                  EntryOf(pairs[i].0, pairs[i].1, diff, render) in entries)
  {
    if |pairs| > 0 {
      HistoricalDataEntries(pairs[1..], diff, render);
      var entries := HistoricalData(pairs, diff, render);
      var head := if |diff(pairs[0].0, pairs[0].1)| == 0 then [] else [EntryOf(pairs[0].0, pairs[0].1, diff, render)];
      var rest := HistoricalData(pairs[1..], diff, render);
      assert entries == head + rest;
      forall k | 0 <= k < |entries|
        ensures exists i :: 0 <= i < |pairs| && |diff(pairs[i].0, pairs[i].1)| > 0
                            && entries[k] == EntryOf(pairs[i].0, pairs[i].1, diff, render)
      {
        if k < |head| {
          assert entries[k] == EntryOf(pairs[0].0, pairs[0].1, diff, render);
        } else {
          var i :| 0 <= i < |pairs[1..]| && |diff(pairs[1..][i].0, pairs[1..][i].1)| > 0
                   && rest[k - |head|] == EntryOf(pairs[1..][i].0, pairs[1..][i].1, diff, render);
          assert entries[k] == rest[k - |head|];
          assert pairs[1..][i] == pairs[i + 1];
        }
      }
      forall i | 0 <= i < |pairs| && |diff(pairs[i].0, pairs[i].1)| > 0
        ensures EntryOf(pairs[i].0, pairs[i].1, diff, render) in entries
      {
        if i > 0 {
          assert pairs[1..][i - 1] == pairs[i];
        }
      }
    }
  }

  /** Each entry is attributed to an email or to "System" exactly when the newer row has no user, and lists its changes. */
  lemma EntryShape(newer: Record, older: Record, diff: (Record, Record) -> seq<string>, render: (Record, string) -> string)
    ensures var e := EntryOf(newer, older, diff, render);
            && (newer.historyUser.None? ==> e.changedBy == System)
            && (newer.historyUser.Some? ==> e.changedBy == newer.historyUser.value)
            && e.historyDate == newer.historyDate && e.reason == newer.reason
            && |e.changes| == |diff(newer, older)|
            && forall k :: 0 <= k < |e.changes| ==>
                 e.changes[k].field == diff(newer, older)[k]
                 && e.changes[k].oldValue == render(older, e.changes[k].field)
                 && e.changes[k].newValue == render(newer, e.changes[k].field)
  {
  }

  /** A history of zero or one rows has no pairs, and so no entries. */
  lemma ShortHistoryIsEmpty(records: seq<Record>, diff: (Record, Record) -> seq<string>, render: (Record, string) -> string)
    requires |records| <= 1
    ensures HistoricalData(Pairs(records), diff, render) == []
  {
  }
}

=== FILE: mixins.dfy ===
/**
 * Shared view and model behaviour: the pagination envelope, the file redirect
 * headers, and logical deletion of audited rows.
 */
module Mixins {
  import opened Common

  // ---------------------------------------------------------------------
  // Pagination
  // ---------------------------------------------------------------------

  /** `total_pages`: one more than the whole pages when the last one is partial. */
  function TotalPages(count: nat, limit: nat): nat
    requires limit > 0
  {
    if count % limit != 0 then count / limit + 1 else count / limit
  }

  /** `current_page`: the page that holds `offset`, counting from 1. */
  function CurrentPage(offset: nat, limit: nat): nat
    requires limit > 0
  {
    offset / limit + 1
  }

  /** `total_pages` is the ceiling of count / limit: the fewest pages of `limit` rows that hold `count` rows. */
  lemma TotalPagesIsCeiling(count: nat, limit: nat)
    requires limit > 0
    ensures TotalPages(count, limit) * limit >= count
    ensures TotalPages(count, limit) > 0 ==> (TotalPages(count, limit) - 1) * limit < count
    ensures TotalPages(count, limit) == 0 <==> count == 0
  {
    var q := count / limit;
    var r := count % limit;
    assert count == q * limit + r;
    if r != 0 {
      assert TotalPages(count, limit) * limit == q * limit + limit;
    } else {
      assert TotalPages(count, limit) * limit == count;
      if q > 0 {
        assert (q - 1) * limit == count - limit;
      }
    }
  }

  /** `current_page` is the page whose rows include the one at `offset`. */
  lemma CurrentPageHoldsOffset(offset: nat, limit: nat)
    requires limit > 0
    ensures (CurrentPage(offset, limit) - 1) * limit <= offset < CurrentPage(offset, limit) * limit
  {
    var q := offset / limit;
    assert offset == q * limit + offset % limit;
    assert CurrentPage(offset, limit) * limit == q * limit + limit;
  }

  /** A link, or JSON null when there is none. */
  function LinkJson(link: Option<string>): Json
  {
    if link.Some? then JStr(link.value) else JNull
  }

  /** `get_paginated_response`: the page envelope, in this key order. */
  function PaginatedResponse(count: nat, next: Option<string>, previous: Option<string>,
                             offset: nat, limit: nat, results: seq<Json>): (r: Json)
    requires limit > 0
    ensures r.JObj?
    ensures KeysOf(r.fields) == ["count", "next", "previous", "total_pages", "current_page", "results"]
    ensures r.fields[3].1 == JNum(TotalPages(count, limit) as real)
    ensures r.fields[4].1 == JNum(CurrentPage(offset, limit) as real)
    ensures r.fields[5].1 == JArr(results)
  {
    JObj([("count", JNum(count as real)),
          ("next", LinkJson(next)),
          ("previous", LinkJson(previous)),
          ("total_pages", JNum(TotalPages(count, limit) as real)),
          ("current_page", JNum(CurrentPage(offset, limit) as real)),
          ("results", JArr(results))])
  }

  // ---------------------------------------------------------------------
  // File redirect
  // ---------------------------------------------------------------------

  /**
   * The last "/"-separated segment of a URL, `url.split("/")[-1]`: the text
   * after the last '/', or the whole URL when it has none.
   */
  function FileName(url: string): string
  {
    url[LastIndexOf(url, '/') + 1..]
  }

  /**
   * The file name holds no '/', ends the URL, and is either the whole URL or
   * comes right after a '/'.
   */
  lemma FileNameIsLastSegment(url: string)
    ensures '/' !in FileName(url)
    ensures |FileName(url)| <= |url| && FileName(url) == url[|url| - |FileName(url)|..]
    ensures |FileName(url)| < |url| ==> url[|url| - |FileName(url)| - 1] == '/'
    ensures '/' !in url ==> FileName(url) == url
  {
    var k := LastIndexOf(url, '/') + 1;
    forall x | 0 <= x < |url[k..]| ensures url[k..][x] != '/' {
      assert url[k..][x] == url[k + x];
    }
    if '/' !in url {
      assert k == 0;
    }
  }

  /** A response: its status code and its headers, in the order they were set. */
  datatype Response = Response(status: nat, headers: seq<(string, string)>)

  /** `Content-Disposition`: "attachment" only when the `download` query parameter is exactly "true". */
  function Disposition(download: Option<string>): (d: string)
    ensures d == "attachment" <==> download == Some("true")
    ensures d != "attachment" ==> d == "inline"
  {
    if download == Some("true") then "attachment" else "inline"
  }

  /**
   * `render_file_redirect_response`. `download` is the query parameter (None
   * when there is no request or no such parameter); `guessType` is the MIME
   * type guess from the URL, used only when no content type is given.
   */
  function FileRedirect(url: string, contentType: Option<string>, download: Option<string>,
                        status: nat, guessType: string -> Option<string>): Response
  {
    var ct := if contentType.Some? && contentType.value != "" then contentType else guessType(url);
    var typeHeader := if ct.Some? && ct.value != "" then [("Content-Type", ct.value)] else [];
    Response(status, typeHeader + [("Location", url),
                                   ("Content-Disposition",
                                    Disposition(download) + "; filename=\"" + FileName(url) + "\"")])
  }

  /** The redirect always ends with Location = url and the disposition; a given content type is used as is. */
  lemma FileRedirectHeaders(url: string, contentType: Option<string>, download: Option<string>,
                            status: nat, guessType: string -> Option<string>)
    ensures var r := FileRedirect(url, contentType, download, status, guessType);
            var h := r.headers;
            r.status == status
            && 2 <= |h| <= 3
            && h[|h| - 2] == ("Location", url)
            && h[|h| - 1].0 == "Content-Disposition"
            && (download == Some("true") ==> h[|h| - 1].1[..10] == "attachment")
            && (download != Some("true") ==> h[|h| - 1].1[..6] == "inline")
            && (contentType.Some? && contentType.value != "" ==> h[0] == ("Content-Type", contentType.value))
            && (|h| == 3 <==> h[0].0 == "Content-Type")
  {
  }

  // ---------------------------------------------------------------------
  // Logical deletion
  // ---------------------------------------------------------------------

  /** A row of an audited model: primary key, deletion flag, creation moment and the model's own fields. */
  datatype Row<T> = Row(pk: nat, isDeleted: bool, createdAt: Instant, fields: T)

  /** `IsDeletedManager`: the rows the default manager yields, in table order. */
  function Live<T>(rows: seq<Row<T>>): (live: seq<Row<T>>)
    ensures |live| <= |rows|
    ensures forall k :: 0 <= k < |live| ==> live[k] in rows && !live[k].isDeleted
    ensures forall k :: 0 <= k < |rows| && !rows[k].isDeleted ==> rows[k] in live
  {
    if |rows| == 0 then []
    else if rows[0].isDeleted then Live(rows[1..])
    else [rows[0]] + Live(rows[1..])
  }

  /** The default manager keeps table order and multiplicity: a row added at the end shows up at the end exactly when it is live. */
  lemma {:induction false} LiveAppend<T>(rows: seq<Row<T>>, r: Row<T>)
    ensures Live(rows + [r]) == Live(rows) + (if r.isDeleted then [] else [r])
  {
    if |rows| > 0 {
      assert (rows + [r])[1..] == rows[1..] + [r];
      LiveAppend(rows[1..], r);
    } else {
      assert rows + [r] == [r];
    }
  }

  /** The stored rows of one audited model. */
  class Table<T> {
    var rows: seq<Row<T>>
    var nextPk: nat

    /** Primary keys are distinct and below the next one to be handed out. */
    ghost predicate Valid()
      reads this
    {
      (forall i :: 0 <= i < |rows| ==> rows[i].pk < nextPk)
      && (forall i, j :: 0 <= i < j < |rows| ==> rows[i].pk != rows[j].pk)
    }

    constructor ()
      ensures rows == [] && nextPk == 0 && Valid()
    {
      rows := [];
      nextPk := 0;
    }

    /** `objects.create(...)`: a new live row with a fresh key, stamped `now`. */
    method Create(fields: T, now: Instant) returns (row: Row<T>)
      requires Valid()
      modifies this
      ensures Valid()
      ensures row == Row(old(nextPk), false, now, fields)
      ensures rows == old(rows) + [row]
      ensures nextPk == old(nextPk) + 1
    {
      row := Row(nextPk, false, now, fields);
      rows := rows + [row];
      nextPk := nextPk + 1;
    }

    /**
     * `soft_delete`: mark the instance deleted and save only `is_deleted`.
     * The stored row keeps its stored fields even when the in-memory instance
     * differs; `saved` is false when no stored row has the instance's key.
     */
    method SoftDelete(instance: Row<T>) returns (updated: Row<T>, saved: bool)
      requires Valid()
      modifies this
      ensures Valid() && nextPk == old(nextPk)
      ensures updated == instance.(isDeleted := true)
      ensures saved <==> exists i :: 0 <= i < |old(rows)| && old(rows)[i].pk == instance.pk
      ensures |rows| == |old(rows)|
      ensures forall i :: 0 <= i < |rows| ==>
                rows[i] == if old(rows)[i].pk == instance.pk then old(rows)[i].(isDeleted := true) else old(rows)[i]
    {
      updated := instance.(isDeleted := true);
      var before := rows;
      saved := exists i :: 0 <= i < |before| && before[i].pk == instance.pk;
      rows := seq(|before|, i requires 0 <= i < |before| =>
                    if before[i].pk == instance.pk then before[i].(isDeleted := true) else before[i]);
    }

    /** `objects.filter(...).update(is_deleted=True)` through the default manager. */
    method DeleteWhere(selected: T -> bool)
      requires Valid()
      modifies this
      ensures Valid() && nextPk == old(nextPk)
      ensures |rows| == |old(rows)|
      ensures forall i :: 0 <= i < |rows| ==>
                rows[i] == old(rows)[i].(isDeleted := old(rows)[i].isDeleted || selected(old(rows)[i].fields))
    {
      var before := rows;
      rows := seq(|before|, i requires 0 <= i < |before| =>
                    before[i].(isDeleted := before[i].isDeleted || selected(before[i].fields)));
    }
  }
}

=== FILE: openai_utils.dfy ===
/**
 * The completion gateway: cleaning the user content, building the two-message
 * request, and wrapping the provider's answer as a SUCCESS or FAILED dict.
 *
 * The provider call is the parameter `complete`: it receives the request and
 * yields either a completion or the text of the exception it raised.
 */
module OpenAiUtils {
  import opened Common
  import opened ResponseNormalizer

  /** The model used when the caller names none. */
  const DefaultModel := "gpt-4o"

  /** The response format every request asks for. */
  const JsonObjectFormat := "json_object"

  /** `str(e)` of the exceptions raised while reading the first choice. */
  const NoChoiceError := "list index out of range"
  const MissingContentError := "'content'"
  const NoneContentError := "'NoneType' object has no attribute 'strip'"

  /** A chat message `{"role": ..., "content": ...}`. */
  datatype Message = Message(role: string, content: string)

  /** The keyword arguments of the completion call. */
  datatype Request = Request(model: string, messages: seq<Message>, responseFormat: string)

  /**
   * The `message` of a completion choice: a plain dict, or an SDK object whose
   * `content` attribute may be None.
   */
  datatype ChoiceMessage =
    | DictMessage(fields: map<string, Option<string>>)
    | ObjectMessage(content: Option<string>)

  datatype Completion = Completion(choices: seq<ChoiceMessage>)

  /** The Python value the normaliser returns: the parsed object, or the text. */
  function AsJson(n: Normalized): (v: Json)
    ensures n.Raw? ==> v == JStr(n.text)
    ensures n.Parsed? ==> v == n.value
  {
    match n
    case Parsed(value) => value
    case Raw(text) => JStr(text)
  }

  // ---------------------------------------------------------------------
  // Cleaning the user content
  // ---------------------------------------------------------------------

  /** The `while "  " in content` loop: halve space runs until none is left. */
  function CollapseSpaces(s: string): (r: string)
    ensures !Contains(r, "  ")
    decreases |s|
  {
    if Contains(s, "  ") then
      ReplaceShrinks(s, "  ", " ");
      CollapseSpaces(Replace(s, "  ", " "))
    else s
  }

  /** The three one-shot replacements that precede the loop. */
  function Replacements(content: string): string
  {
    Replace(Replace(Replace(content, "  ", " "), "NaN", " "), "NaT", " ")
  }

  /** The content `generate_info` sends. */
  function CleanedContent(content: string): string
  {
    CollapseSpaces(Replacements(content))
  }

  /** Halving space runs never creates a word that starts with a non-space. */
  lemma {:induction false} CollapseKeepsAbsent(s: string, w: string)
    requires |w| > 0 && w[0] != ' ' && !Contains(s, w)
    requires forall i :: 1 <= i < |w| ==> !Overlaps(w[i..], " ")
    ensures !Contains(CollapseSpaces(s), w)
    decreases |s|
  {
    if Contains(s, "  ") {
      ReplaceShrinks(s, "  ", " ");
      ReplaceKeepsAbsent(s, "  ", " ", w);
      CollapseKeepsAbsent(Replace(s, "  ", " "), w);
    }
  }

  /** No proper suffix of "NaN" or "NaT" is a prefix of " " or the other way round. */
  lemma NaSuffixes(w: string)
    requires w == "NaN" || w == "NaT"
    ensures forall i :: 1 <= i < |w| ==> !Overlaps(w[i..], " ")
  {
    forall i | 1 <= i < |w| ensures !Overlaps(w[i..], " ") {
      NoOverlapAt(w[i..], " ", 0);
    }
  }

  /** After cleaning there is no double space, no "NaN" and no "NaT". */
  lemma CleanedContentFacts(content: string)
    ensures !Contains(CleanedContent(content), "  ")
    ensures !Contains(CleanedContent(content), "NaN")
    ensures !Contains(CleanedContent(content), "NaT")
  {
    var s1 := Replace(content, "  ", " ");
    var s2 := Replace(s1, "NaN", " ");
    var s3 := Replace(s2, "NaT", " ");
    NaSuffixes("NaN");
    NaSuffixes("NaT");
    ReplaceKeepsAbsent(s1, "NaN", " ", "NaN");
    ReplaceKeepsAbsent(s2, "NaT", " ", "NaN");
    ReplaceKeepsAbsent(s2, "NaT", " ", "NaT");
    CollapseKeepsAbsent(s3, "NaN");
    CollapseKeepsAbsent(s3, "NaT");
  }

  /** Content with none of the three patterns is sent unchanged. */
  lemma CleanContentKeepsClean(content: string)
    requires !Contains(content, "  ") && !Contains(content, "NaN") && !Contains(content, "NaT")
    ensures CleanedContent(content) == content
  {
    ReplaceAbsent(content, "  ", " ");
    ReplaceAbsent(content, "NaN", " ");
    ReplaceAbsent(content, "NaT", " ");
  }

  /** Cleaning twice is cleaning once. */
  lemma CleanedContentIdempotent(content: string)
    ensures CleanedContent(CleanedContent(content)) == CleanedContent(content)
  {
    CleanedContentFacts(content);
    CleanContentKeepsClean(CleanedContent(content));
  }

  /** Lines 64-66 of `generate_info`, loop included. */
  method CleanContent(content: string) returns (r: string)
    ensures r == CleanedContent(content)
    ensures !Contains(r, "  ") && !Contains(r, "NaN") && !Contains(r, "NaT")
  {
    r := Replace(Replace(Replace(content, "  ", " "), "NaN", " "), "NaT", " ");
    while Contains(r, "  ")
      invariant CollapseSpaces(r) == CleanedContent(content)
      decreases |r|
    {
      ReplaceShrinks(r, "  ", " ");
      r := Replace(r, "  ", " ");
    }
    CleanedContentFacts(content);
  }

  // ---------------------------------------------------------------------
  // The request and its result
  // ---------------------------------------------------------------------

  /** The message list: the prompt as system message, then the content as user message. */
  function Messages(prompt: string, content: string): (m: seq<Message>)
    ensures |m| == 2
    ensures m[0].role == "system" && m[0].content == prompt
    ensures m[1].role == "user" && m[1].content == content
  {
    [Message("system", prompt), Message("user", content)]
  }

  /** The text content of a choice's message, or the text of the exception reading it raises. */
  function ContentOf(m: ChoiceMessage): (r: Result<string, string>)
    ensures m.ObjectMessage? ==> (r.Ok? <==> m.content.Some?)
    ensures m.DictMessage? ==> (r.Ok? <==> "content" in m.fields && m.fields["content"].Some?)
    ensures m.DictMessage? && "content" !in m.fields ==> r == Err(MissingContentError)
  {
    match m
    case DictMessage(fields) =>
      if "content" !in fields then Err(MissingContentError)
      else if fields["content"].None? then Err(NoneContentError)
      else Ok(fields["content"].value)
    case ObjectMessage(content) =>
      if content.None? then Err(NoneContentError) else Ok(content.value)
  }

  /** `extract_ai_response`: the normalised content of the first choice. */
  function ExtractAiResponse(c: Completion, loads: string -> Option<Json>): (r: Result<Normalized, string>)
    ensures |c.choices| == 0 ==> r == Err(NoChoiceError)
    ensures |c.choices| > 0 && ContentOf(c.choices[0]).Ok? ==>
              r == Ok(Normalize(ContentOf(c.choices[0]).value, loads))
    ensures |c.choices| > 0 && ContentOf(c.choices[0]).Err? ==>
              r == Err(ContentOf(c.choices[0]).error)
  {
    if |c.choices| == 0 then Err(NoChoiceError)
    else
      match ContentOf(c.choices[0])
      case Err(e) => Err(e)
      case Ok(text) => Ok(Normalize(text, loads))
  }

  /** `{"status": "SUCCESS", "response": ...}` */
  function SuccessResult(response: Json): Json
  {
    JObj([("status", JStr("SUCCESS")), ("response", response)])
  }

  /** `{"status": "FAILED", "response": {}, "error_description": ...}` */
  function FailedResult(error: string): Json
  {
    JObj([("status", JStr("FAILED")), ("response", JObj([])), ("error_description", JStr(error))])
  }

  /** The request `generate_extracted_info` sends. */
  function CompletionRequest(messages: seq<Message>, model: string): Request
  {
    Request(model, messages, JsonObjectFormat)
  }

  /** `generate_extracted_info`: every exception in the call or the extraction becomes FAILED. */
  function ExtractedInfo(messages: seq<Message>, model: string,
                         complete: Request -> Result<Completion, string>,
                         loads: string -> Option<Json>): Json
  {
    match complete(CompletionRequest(messages, model))
    case Err(e) => FailedResult(e)
    case Ok(c) =>
      match ExtractAiResponse(c, loads)
      case Err(e) => FailedResult(e)
      case Ok(n) => SuccessResult(AsJson(n))
  }

  /** `generate_info`'s result: the extracted info, with the prompt appended on request. */
  function InfoResult(result: Json, prompt: string, returnPrompt: bool): Json
    requires result.JObj?
  {
    if returnPrompt then JObj(result.fields + [("prompt", JStr(prompt))]) else result
  }

  /**
   * Outcome of a call: SUCCESS exactly when the call returned and its first
   * choice had text; otherwise FAILED with the error the call, the missing
   * choice or the missing content raised.
   */
  lemma ExtractedInfoOutcome(messages: seq<Message>, model: string,
                             complete: Request -> Result<Completion, string>,
                             loads: string -> Option<Json>)
    ensures var r := ExtractedInfo(messages, model, complete, loads);
            var call := complete(Request(model, messages, "json_object"));
            (call.Ok? && |call.value.choices| > 0 && ContentOf(call.value.choices[0]).Ok? ==>
               r == JObj([("status", JStr("SUCCESS")),
                          ("response", AsJson(Normalize(ContentOf(call.value.choices[0]).value, loads)))]))
            && (call.Err? ==>
                 r == JObj([("status", JStr("FAILED")), ("response", JObj([])),
                            ("error_description", JStr(call.error))]))
            && (call.Ok? && |call.value.choices| == 0 ==>
                 r == JObj([("status", JStr("FAILED")), ("response", JObj([])),
                            ("error_description", JStr("list index out of range"))]))
            && (call.Ok? && |call.value.choices| > 0 && ContentOf(call.value.choices[0]).Err? ==>
                 r == JObj([("status", JStr("FAILED")), ("response", JObj([])),
                            ("error_description", JStr(ContentOf(call.value.choices[0]).error))]))
  {
  }

  /** Whatever happens, the result carries a status, a response and nothing about the prompt. */
  lemma ExtractedInfoShape(messages: seq<Message>, model: string,
                           complete: Request -> Result<Completion, string>,
                           loads: string -> Option<Json>)
    ensures var r := ExtractedInfo(messages, model, complete, loads);
            r.JObj?
            && (KeysOf(r.fields) == ["status", "response"]
                || KeysOf(r.fields) == ["status", "response", "error_description"])
            && (r.fields[0].1 == JStr("SUCCESS") <==> |r.fields| == 2)
            && (r.fields[0].1 != JStr("SUCCESS") ==> r.fields[0].1 == JStr("FAILED") && r.fields[1].1 == JObj([]))
  {
  }

  /** The result has a "prompt" key exactly when the prompt was asked for, and then it is last. */
  lemma PromptKeyIff(messages: seq<Message>, model: string,
                     complete: Request -> Result<Completion, string>,
                     loads: string -> Option<Json>, prompt: string, returnPrompt: bool)
    ensures var base := ExtractedInfo(messages, model, complete, loads);
            var r := InfoResult(base, prompt, returnPrompt);
            r.JObj?
            && ("prompt" in KeysOf(r.fields) <==> returnPrompt)
            && (returnPrompt ==> r.fields[|r.fields| - 1] == ("prompt", JStr(prompt)))
            && r.fields[..|base.fields|] == base.fields
  {
    ExtractedInfoShape(messages, model, complete, loads);
    var base := ExtractedInfo(messages, model, complete, loads);
    var r := InfoResult(base, prompt, returnPrompt);
    if returnPrompt {
      assert KeysOf(r.fields)[|r.fields| - 1] == "prompt";
    } else {
      assert KeysOf(r.fields) == KeysOf(base.fields);
    }
  }

  /**
   * `generate_info`: clean the content, send [system: prompt, user: content]
   * with the given model ("gpt-4o" when none is named), and add the prompt
   * when asked to (not by default). The provider and `json.loads` come first.
   */
  method GenerateInfo(complete: Request -> Result<Completion, string>,
                      loads: string -> Option<Json>,
                      prompt: string, content: string,
                      model: string := DefaultModel, returnPrompt: bool := false) returns (result: Json)
    ensures result == InfoResult(ExtractedInfo(Messages(prompt, CleanedContent(content)), model, complete, loads),
                                 prompt, returnPrompt)
  {
    var cleaned := CleanContent(content);
    var messages := [Message("system", prompt), Message("user", cleaned)];
    result := ExtractedInfo(messages, model, complete, loads);
    if returnPrompt {
      result := JObj(result.fields + [("prompt", JStr(prompt))]);
    }
  }

  /** A call with the defaults asks "gpt-4o" and returns the wrapped answer alone, without a "prompt" key. */
  lemma DefaultCall(prompt: string, content: string, complete: Request -> Result<Completion, string>,
                    loads: string -> Option<Json>)
    ensures var messages := Messages(prompt, CleanedContent(content));
            var base := ExtractedInfo(messages, DefaultModel, complete, loads);
            && CompletionRequest(messages, DefaultModel).model == "gpt-4o"
            && base.JObj?
            && InfoResult(base, prompt, false) == base
            && "prompt" !in KeysOf(base.fields)
  {
    ExtractedInfoShape(Messages(prompt, CleanedContent(content)), DefaultModel, complete, loads);
  }

  /** The user message `generate_info` sends holds the cleaned content. */
  lemma SentMessages(prompt: string, content: string, model: string)
    ensures var q := CompletionRequest(Messages(prompt, CleanedContent(content)), model);
            q.model == model && q.responseFormat == "json_object"
            && q.messages == [Message("system", prompt), Message("user", CleanedContent(content))]
            && !Contains(q.messages[1].content, "  ")
            && !Contains(q.messages[1].content, "NaN")
            && !Contains(q.messages[1].content, "NaT")
  {
    CleanedContentFacts(content);
  }

  // ---------------------------------------------------------------------
  // Thread messages
  // ---------------------------------------------------------------------

  /** The last `width` decimal digits of `n`, zero-padded. */
  function Digits(n: nat, width: nat): (s: string)
    ensures |s| == width
    ensures forall k :: 0 <= k < width ==> '0' <= s[k] <= '9'
  {
    if width == 0 then "" else Digits(n / 10, width - 1) + [DigitChar(n % 10)]
  }

  /** `strftime("%Y-%m-%d %H:%M:%S")` of a clock reading (datetime keeps every field within its width). */
  function Timestamp(d: Date, t: Time): (s: string)
    requires 1 <= d.year <= 9999 && 1 <= d.month <= 12 && 1 <= d.day <= 31
    requires 0 <= t.hour < 24 && 0 <= t.minute < 60 && 0 <= t.second < 60
    ensures |s| == 19
    ensures s[4] == '-' && s[7] == '-' && s[10] == ' ' && s[13] == ':' && s[16] == ':'
  {
    Digits(d.year, 4) + "-" + Digits(d.month, 2) + "-" + Digits(d.day, 2) + " "
    + Digits(t.hour, 2) + ":" + Digits(t.minute, 2) + ":" + Digits(t.second, 2)
  }

  /** The message `add_message_to_thread` posts. */
  datatype ThreadMessage = ThreadMessage(threadId: string, role: string, content: string, metadata: seq<(string, Json)>)

  /** `add_message_to_thread`: a user message prefixed by the clock reading `now` and ": ". */
  function ThreadMessageFor(threadId: string, content: string, metadata: seq<(string, Json)>,
                            day: Date, now: Time): (m: ThreadMessage)
    requires 1 <= day.year <= 9999 && 1 <= day.month <= 12 && 1 <= day.day <= 31
    requires 0 <= now.hour < 24 && 0 <= now.minute < 60 && 0 <= now.second < 60
    ensures m.role == "user" && m.threadId == threadId && m.metadata == metadata
    ensures |m.content| == 21 + |content|
    ensures m.content[..19] == Timestamp(day, now)
    ensures m.content[19..21] == ": " && m.content[21..] == content
  {
    ThreadMessage(threadId, "user", Timestamp(day, now) + ": " + content, metadata)
  }
}

=== FILE: organization_permissions.dfy ===
/**
 * The organisation permission classes: reads are open to everyone, writes
 * to the superuser and the organisation's owners, and for teams and
 * memberships also to the team's live "admin" members.
 */
module OrganizationPermissions {
  import opened Common
  import opened Requests
  import opened Organizations

  /** `IsOrganizationOwnerOrReadOnly.has_object_permission` on organisation `org`. */
  function OrganizationPermission(s: State, requester: Requester, httpMethod: string, org: nat): (allowed: bool)
    requires org < |s.orgs|
    ensures IsSafe(httpMethod) ==> allowed
    ensures !IsSafe(httpMethod) ==>
              (allowed <==> requester.Authenticated? && (requester.isSuperuser || requester.id in s.orgs[org].owners))
  {
    if IsSafe(httpMethod) then true
    else if requester.Authenticated? then
      if requester.isSuperuser then true
      else requester.id in s.orgs[org].owners
    else false
  }

  /** The object a team permission is asked about. */
  datatype TeamObject = TeamObj(team: nat) | MembershipObj(membership: nat) | OtherObj

  /** A live membership of `user` in `team` with role "admin". */
  predicate IsTeamAdmin(s: State, team: nat, user: UserId)
  {
    exists i :: 0 <= i < |s.memberships| && !s.memberships[i].isDeleted
                && s.memberships[i].team == team && s.memberships[i].user == user && s.memberships[i].role == "admin"
  }

  /** The write rule for one team: an owner of its organisation, or one of its admins. */
  predicate MayManageTeam(s: State, team: nat, user: UserId)
    requires WellFormed(s) && team < |s.teams|
  {
    user in s.orgs[s.teams[team].organization].owners || IsTeamAdmin(s, team, user)
  }

  /** Every object a team permission can be asked about exists. */
  predicate Exists(s: State, obj: TeamObject)
  {
    match obj
    case TeamObj(t) => t < |s.teams|
    case MembershipObj(m) => m < |s.memberships|
    case OtherObj => true
  }

  /** `IsTeamAdminOrReadOnly.has_object_permission`. */
  function TeamPermission(s: State, requester: Requester, httpMethod: string, obj: TeamObject): (allowed: bool)
    requires WellFormed(s) && Exists(s, obj)
    ensures IsSafe(httpMethod) ==> allowed
    ensures !IsSafe(httpMethod) && requester.Anonymous? ==> !allowed
    ensures !IsSafe(httpMethod) && IsSuperuser(requester) ==> allowed
    ensures !IsSafe(httpMethod) && requester.Authenticated? && !requester.isSuperuser && obj.TeamObj? ==>
              (allowed <==> MayManageTeam(s, obj.team, requester.id))
    ensures !IsSafe(httpMethod) && !IsSuperuser(requester) && obj.OtherObj? ==> !allowed
  {
    if IsSafe(httpMethod) then true
    else if !requester.Authenticated? then false
    else if requester.isSuperuser then true
    else match obj
      case TeamObj(team) =>
        var org := s.teams[team].organization;
        if requester.id in s.orgs[org].owners then true
        else IsTeamAdmin(s, team, requester.id)
      case MembershipObj(m) =>
        var team := s.memberships[m].team;
        var org := s.teams[team].organization;
        if requester.id in s.orgs[org].owners then true
        else IsTeamAdmin(s, team, requester.id)
      case OtherObj => false
  }

  /** A membership is governed exactly as the team it belongs to. */
  lemma MembershipFollowsTeam(s: State, requester: Requester, httpMethod: string, m: nat)
    requires WellFormed(s) && m < |s.memberships|
    ensures TeamPermission(s, requester, httpMethod, MembershipObj(m))
            == TeamPermission(s, requester, httpMethod, TeamObj(s.memberships[m].team))
  {
  }

  /** An organisation owner may change every team of that organisation, and every membership in one. */
  lemma OwnerManagesTeams(s: State, id: UserId, httpMethod: string, team: nat)
    requires WellFormed(s) && team < |s.teams| && id in s.orgs[s.teams[team].organization].owners
    ensures TeamPermission(s, Authenticated(id, false), httpMethod, TeamObj(team))
  {
  }
}

=== FILE: organization_serializers.dfy ===
/**
 * The organisation serializers: the representation with its computed seat
 * usage, and the membership validation's seat check.
 */
module OrganizationSerializers {
  import opened Common
  import opened Organizations

  /** The serializer's declared fields, in order. */
  const OrganizationFields: seq<string> :=
    ["id", "name", "subscription_plan", "seats", "owners", "created_at", "updated_at", "is_deleted"]

  /**
   * `OrganizationSerializer.to_representation`: the declared fields, whose
   * rendered values are `values`, then `current_seat_usage`.
   */
  function OrganizationRepresentation(s: State, org: nat, values: seq<Json>): (data: Json)
    requires |values| == |OrganizationFields|
    ensures data.JObj? && KeysOf(data.fields) == OrganizationFields + ["current_seat_usage"]
    ensures forall k :: 0 <= k < |OrganizationFields| ==> data.fields[k].1 == values[k]
    ensures data.fields[|OrganizationFields|].1 == JNum(SeatUsage(s, org) as real)
  {
    var declared := seq(|OrganizationFields|, k requires 0 <= k < |OrganizationFields| => (OrganizationFields[k], values[k]));
    assert KeysOf(declared) == OrganizationFields;
    JObj(declared + [("current_seat_usage", JNum(SeatUsage(s, org) as real))])
  }

  /** The incoming membership attributes; a missing team or user is `None`. */
  datatype MembershipAttrs = MembershipAttrs(team: Option<nat>, user: Option<UserId>, role: string)

  /**
   * `TeamMembershipSerializer.validate`: with both a team and a user, the
   * team's organisation must have a seat for the user; the attributes are
   * returned unchanged.
   */
  function ValidateMembership(s: State, attrs: MembershipAttrs): (r: Result<MembershipAttrs, string>)
    requires WellFormed(s)
    requires attrs.team.Some? ==> attrs.team.value < |s.teams|
  {
    if attrs.team.Some? && attrs.user.Some? then
      var org := s.teams[attrs.team.value].organization;
      if !HasAvailableSeatFor(s, org, attrs.user.value) then Err(NoSeatMessage(s.orgs[org].name))
      else Ok(attrs)
    else Ok(attrs)
  }

  /**
   * Validation passes the attributes through or refuses with the seat
   * message, and it refuses exactly when `add_user` on the team's
   * organisation would refuse the user for want of a seat.
   */
  lemma ValidateAgreesWithAddUser(s: State, attrs: MembershipAttrs, role: string)
    requires WellFormed(s)
    requires attrs.team.Some? ==> attrs.team.value < |s.teams|
    ensures ValidateMembership(s, attrs).Ok? ==> ValidateMembership(s, attrs).value == attrs
    ensures attrs.team.None? || attrs.user.None? ==> ValidateMembership(s, attrs) == Ok(attrs)
    ensures attrs.team.Some? && attrs.user.Some? ==>
              var org := s.teams[attrs.team.value].organization;
              var added := AfterAddUser(s, org, attrs.user.value, role);
              (ValidateMembership(s, attrs).Err? <==> added == (s, Err(NoSeatMessage(s.orgs[org].name))))
              && (ValidateMembership(s, attrs).Err? ==> ValidateMembership(s, attrs).error == added.1.error)
  {
    if attrs.team.Some? && attrs.user.Some? {
      var org := s.teams[attrs.team.value].organization;
      var added := AfterAddUser(s, org, attrs.user.value, role);
      if HasAvailableSeatFor(s, org, attrs.user.value) {
        if added.1.Err? {
          NoSeatMessageIsNotGetError(s.orgs[org].name, added.1.error);
        }
      }
    }
  }

  /** The seat message is not one of the `get()` errors, so `add_user` cannot raise it past the seat check. */
  lemma NoSeatMessageIsNotGetError(name: string, e: string)
    requires exists model: string, n: nat :: e == MultipleReturned(model, n)
    ensures e != NoSeatMessage(name)
  {
    var model: string, n: nat :| e == MultipleReturned(model, n);
    assert e[0] == 'g';
    assert NoSeatMessage(name)[0] == 'N';
  }
}

=== FILE: organizations.dfy ===
/**
 * Organisations, their teams and team memberships, and seat accounting:
 * an organisation's seat usage is the number of distinct users with a live
 * membership in one of its live teams, and `add_user` admits a user only
 * when that user already holds a seat or one is free.
 *
 * Rows are held by position: an organisation's or team's id is its index.
 * The default managers only see rows whose `is_deleted` is false, so every
 * lookup here skips deleted rows.
 */
module Organizations {
  import opened Common

  datatype Organization = Organization(
    name: string,
    subscriptionPlan: string,
    seats: nat,
    owners: set<UserId>,
    isDeleted: bool)

  datatype Team = Team(name: string, organization: nat, isDeleted: bool)

  datatype Membership = Membership(team: nat, user: UserId, role: string, isDeleted: bool)

  /** The three tables together. */
  datatype State = State(orgs: seq<Organization>, teams: seq<Team>, memberships: seq<Membership>)

  /** Every team points at an organisation and every membership at a team. */
  predicate WellFormed(s: State)
  {
    && (forall t :: 0 <= t < |s.teams| ==> s.teams[t].organization < |s.orgs|)
    && (forall i :: 0 <= i < |s.memberships| ==> s.memberships[i].team < |s.teams|)
  }

  /** A live membership of a live team of `org`. */
  predicate InOrg(teams: seq<Team>, m: Membership, org: nat)
  {
    !m.isDeleted && m.team < |teams| && !teams[m.team].isDeleted && teams[m.team].organization == org
  }

  /** The distinct users across all memberships of the organisation's teams. */
  function OrgUsers(s: State, org: nat): set<UserId>
  {
    set i | 0 <= i < |s.memberships| && InOrg(s.teams, s.memberships[i], org) :: s.memberships[i].user
  }

  /** `current_seat_usage`. */
  function SeatUsage(s: State, org: nat): nat
  {
    |OrgUsers(s, org)|
  }

  /** The user has a membership in one of the organisation's teams. */
  predicate UserExists(s: State, org: nat, user: UserId)
  {
    exists i :: 0 <= i < |s.memberships| && InOrg(s.teams, s.memberships[i], org) && s.memberships[i].user == user
  }

  /** `has_available_seat_for`. */
  predicate HasAvailableSeatFor(s: State, org: nat, user: UserId)
    requires org < |s.orgs|
  {
    UserExists(s, org, user) || SeatUsage(s, org) < s.orgs[org].seats
  }

  /** A user already in the organisation always has a seat; a new user has one iff usage < seats. */
  lemma SeatRule(s: State, org: nat, user: UserId)
    requires org < |s.orgs|
    ensures user in OrgUsers(s, org) ==> HasAvailableSeatFor(s, org, user)
    ensures user !in OrgUsers(s, org) ==> (HasAvailableSeatFor(s, org, user) <==> SeatUsage(s, org) < s.orgs[org].seats)
  {
    if user in OrgUsers(s, org) {
      var i :| 0 <= i < |s.memberships| && InOrg(s.teams, s.memberships[i], org) && s.memberships[i].user == user;
      assert UserExists(s, org, user);
    }
  }

  /**
   * The organisations of the teams the user has a live membership in
   * (`user.team_memberships.values_list("team__organization_id")`): the
   * team's own deletion flag is not consulted.
   */
  function MembershipOrgs(s: State, user: UserId): set<nat>
    requires WellFormed(s)
  {
    set i | 0 <= i < |s.memberships| && !s.memberships[i].isDeleted && s.memberships[i].user == user
      :: s.teams[s.memberships[i].team].organization
  }

  /** A live membership of a live team in `org` puts `org` among the user's organisations. */
  lemma OrgUsersAreMembers(s: State, org: nat, user: UserId)
    requires WellFormed(s)
    ensures user in OrgUsers(s, org) ==> org in MembershipOrgs(s, user)
  {
    if user in OrgUsers(s, org) {
      var i :| 0 <= i < |s.memberships| && InOrg(s.teams, s.memberships[i], org) && s.memberships[i].user == user;
      assert s.teams[s.memberships[i].team].organization == org;
    }
  }

  /** The ids of the live teams of `org` named `name`, from index `from` on. */
  function LiveTeamsNamed(teams: seq<Team>, org: nat, name: string, from: nat): (ids: seq<nat>)
    requires from <= |teams|
    decreases |teams| - from
    ensures forall k :: 0 <= k < |ids| ==> from <= ids[k] < |teams| && teams[ids[k]] == Team(name, org, false)
    ensures forall t :: from <= t < |teams| && teams[t] == Team(name, org, false) ==> t in ids
  {
    if from == |teams| then []
    else (if teams[from] == Team(name, org, false) then [from] else []) + LiveTeamsNamed(teams, org, name, from + 1)
  }

  /** The positions of the live memberships of `user` in `team`, from index `from` on. */
  function LiveMembershipsOf(ms: seq<Membership>, team: nat, user: UserId, from: nat): (ids: seq<nat>)
    requires from <= |ms|
    decreases |ms| - from
    ensures forall k :: 0 <= k < |ids| ==>
              from <= ids[k] < |ms| && !ms[ids[k]].isDeleted && ms[ids[k]].team == team && ms[ids[k]].user == user
    ensures forall i :: from <= i < |ms| && !ms[i].isDeleted && ms[i].team == team && ms[i].user == user ==> i in ids
  {
    if from == |ms| then []
    else (if !ms[from].isDeleted && ms[from].team == team && ms[from].user == user then [from] else [])
         + LiveMembershipsOf(ms, team, user, from + 1)
  }

  function NoSeatMessage(name: string): string
  {
    "No available seats in the organization '" + name + "'."
  }

  /** What `get()` (and so `get_or_create`) raises when `n` rows match. */
  function MultipleReturned(model: string, n: nat): string
  {
    "get() returned more than one " + model + " -- it returned "
    + (if n < 21 then NatToString(n) else "more than 20") + "!"
  }

  const General := "General"

  /**
   * `self.teams.get_or_create(name="General")`: the team table afterwards
   * and the team's id, or the error when several such teams exist.
   */
  function GeneralTeam(s: State, org: nat): (r: Result<(seq<Team>, nat), string>)
    requires WellFormed(s) && org < |s.orgs|
    ensures r.Ok? ==> WellFormed(s.(teams := r.value.0))
    ensures r.Ok? ==> var (teams, team) := r.value;
              && team < |teams| && teams[team] == Team(General, org, false)
              && (teams == s.teams || teams == s.teams + [Team(General, org, false)])
    ensures var g := LiveTeamsNamed(s.teams, org, General, 0);
            && (|g| > 1 ==> r == Err(MultipleReturned("Team", |g|)))
            && (|g| == 1 ==> r == Ok((s.teams, g[0])))
            && (|g| == 0 ==> r.Ok? && r.value.0 == s.teams + [Team(General, org, false)])
  {
    var general := LiveTeamsNamed(s.teams, org, General, 0);
    if |general| > 1 then Err(MultipleReturned("Team", |general|))
    else if |general| == 1 then Ok((s.teams, general[0]))
    else
      var teams := s.teams + [Team(General, org, false)];
      assert forall t :: 0 <= t < |s.teams| ==> teams[t] == s.teams[t];
      Ok((teams, |s.teams|))
  }

  /**
   * The rest of `add_user` once the team is known: get or create the
   * membership (an existing one keeps its role), then add the user to the
   * owners when the role is "owner".
   */
  function JoinTeam(s: State, org: nat, team: nat, user: UserId, role: string): (res: (State, Result<Membership, string>))
    requires WellFormed(s) && org < |s.orgs| && team < |s.teams|
    ensures WellFormed(res.0) && |res.0.orgs| == |s.orgs|
    ensures forall o :: 0 <= o < |s.orgs| ==> res.0.orgs[o].seats == s.orgs[o].seats
    ensures res.1.Err? ==> res.0 == s
    ensures res.1.Ok? ==>
              var m := res.1.value;
              && m.team == team && m.user == user && !m.isDeleted
              && (m in s.memberships || m == Membership(team, user, role, false))
              && res.0.teams == s.teams
    ensures var e := LiveMembershipsOf(s.memberships, team, user, 0);
            && (|e| > 1 ==> res == (s, Err(MultipleReturned("TeamMembership", |e|))))
            && (|e| == 1 ==> res.1 == Ok(s.memberships[e[0]]) && res.0.memberships == s.memberships)
            && (|e| == 0 ==> res.1 == Ok(Membership(team, user, role, false))
                             && res.0.memberships == s.memberships + [Membership(team, user, role, false)])
  {
    var existing := LiveMembershipsOf(s.memberships, team, user, 0);
    if |existing| > 1 then (s, Err(MultipleReturned("TeamMembership", |existing|)))
    else
      var membership := if |existing| == 1 then s.memberships[existing[0]] else Membership(team, user, role, false);
      var memberships := if |existing| == 1 then s.memberships else s.memberships + [membership];
      var orgs := if role == "owner" then s.orgs[org := s.orgs[org].(owners := s.orgs[org].owners + {user})]
                  else s.orgs;
      (State(orgs, s.teams, memberships), Ok(membership))
  }

  /**
   * With the single General team `team` reused: the team table is unchanged,
   * and an existing live membership of `user` in it is returned as it is
   * (its role too) with no row added.
   */
  predicate ReusesGeneralTeam(s: State, res: (State, Result<Membership, string>), team: nat, user: UserId, role: string)
    requires WellFormed(s) && team < |s.teams|
  {
    var e := LiveMembershipsOf(s.memberships, team, user, 0);
    && res.0.teams == s.teams
    && (|e| > 1 ==> res == (s, Err(MultipleReturned("TeamMembership", |e|))))
    && (|e| == 1 ==> res.1 == Ok(s.memberships[e[0]]) && res.0.memberships == s.memberships)
    && (|e| == 0 ==> res.1 == Ok(Membership(team, user, role, false))
                     && res.0.memberships == s.memberships + [Membership(team, user, role, false)])
  }

  /** A team no membership from `from` on points at has no memberships there. */
  lemma {:induction false} NewTeamHasNoMembers(ms: seq<Membership>, team: nat, user: UserId, from: nat)
    requires from <= |ms|
    requires forall i :: from <= i < |ms| ==> ms[i].team < team
    ensures LiveMembershipsOf(ms, team, user, from) == []
    decreases |ms| - from
  {
    if from < |ms| {
      NewTeamHasNoMembers(ms, team, user, from + 1);
    }
  }

  /**
   * `add_user`, as a function of the tables: the new tables and the
   * membership returned, or the error raised (a team created before the
   * error stays created).
   */
  function AfterAddUser(s: State, org: nat, user: UserId, role: string): (res: (State, Result<Membership, string>))
    requires WellFormed(s) && org < |s.orgs|
    ensures WellFormed(res.0)
    ensures |res.0.orgs| == |s.orgs|
    ensures forall o :: 0 <= o < |s.orgs| ==> res.0.orgs[o].seats == s.orgs[o].seats
    ensures !HasAvailableSeatFor(s, org, user) ==> res == (s, Err(NoSeatMessage(s.orgs[org].name)))
    ensures res.1.Ok? ==> HasAvailableSeatFor(s, org, user)
    ensures res.1.Ok? ==>
              var m := res.1.value;
              && m.user == user && !m.isDeleted
              && m.team < |res.0.teams| && res.0.teams[m.team] == Team(General, org, false)
              && (m in s.memberships || m == Membership(m.team, user, role, false))
    ensures HasAvailableSeatFor(s, org, user) ==>
              var g := LiveTeamsNamed(s.teams, org, General, 0);
              && (|g| > 1 ==> res == (s, Err(MultipleReturned("Team", |g|))))
              && (|g| == 1 ==> ReusesGeneralTeam(s, res, g[0], user, role))
              && (|g| == 0 ==> res.0.teams == s.teams + [Team(General, org, false)]
                               && res.1 == Ok(Membership(|s.teams|, user, role, false))
                               && res.0.memberships == s.memberships + [Membership(|s.teams|, user, role, false)])
  {
    if !HasAvailableSeatFor(s, org, user) then (s, Err(NoSeatMessage(s.orgs[org].name)))
    else match GeneralTeam(s, org)
      case Err(e) => (s, Err(e))
      case Ok((teams, team)) =>
        NewTeamHasNoMembers(s.memberships, |s.teams|, user, 0);
        JoinTeam(s.(teams := teams), org, team, user, role)
  }

  /** Adding a team changes no organisation's users: every membership points at an older team. */
  lemma {:induction false} TeamAppendKeepsUsers(s: State, t: Team, o: nat)
    requires WellFormed(s)
    ensures OrgUsers(s.(teams := s.teams + [t]), o) == OrgUsers(s, o)
  {
    var s' := s.(teams := s.teams + [t]);
    forall i | 0 <= i < |s.memberships|
      ensures InOrg(s'.teams, s.memberships[i], o) == InOrg(s.teams, s.memberships[i], o)
    {
      assert s.memberships[i].team < |s.teams|;
      assert s'.teams[s.memberships[i].team] == s.teams[s.memberships[i].team];
    }
  }

  /** Adding a membership adds its user to its team's organisation, and to no other. */
  lemma {:induction false} MembershipAppendUsers(s: State, m: Membership, o: nat)
    ensures OrgUsers(s.(memberships := s.memberships + [m]), o)
            == OrgUsers(s, o) + (if InOrg(s.teams, m, o) then {m.user} else {})
  {
    var s' := s.(memberships := s.memberships + [m]);
    var n := |s.memberships|;
    forall u | u in OrgUsers(s', o)
      ensures u in OrgUsers(s, o) + (if InOrg(s.teams, m, o) then {m.user} else {})
    {
      var i :| 0 <= i < |s'.memberships| && InOrg(s'.teams, s'.memberships[i], o) && s'.memberships[i].user == u;
      if i < n {
        assert s.memberships[i] == s'.memberships[i];
      }
    }
    forall u | u in OrgUsers(s, o)
      ensures u in OrgUsers(s', o)
    {
      var i :| 0 <= i < n && InOrg(s.teams, s.memberships[i], o) && s.memberships[i].user == u;
      assert s'.memberships[i] == s.memberships[i];
    }
    if InOrg(s.teams, m, o) {
      assert s'.memberships[n] == m;
    }
  }

  /** The membership step adds exactly the user to the team's organisation on success, and otherwise no one. */
  lemma JoinTeamUsers(s: State, org: nat, team: nat, user: UserId, role: string, o: nat)
    requires WellFormed(s) && org < |s.orgs| && team < |s.teams| && s.teams[team] == Team(General, org, false)
    ensures var res := JoinTeam(s, org, team, user, role);
            OrgUsers(res.0, o) == OrgUsers(s, o) + (if res.1.Ok? && o == org then {user} else {})
  {
    var existing := LiveMembershipsOf(s.memberships, team, user, 0);
    if |existing| == 1 {
      assert InOrg(s.teams, s.memberships[existing[0]], org);
      if o == org {
        assert user in OrgUsers(s, o);
      }
    } else if |existing| == 0 {
      var m := Membership(team, user, role, false);
      MembershipAppendUsers(s, m, o);
      assert InOrg(s.teams, m, o) <==> o == org;
    }
  }

  /** `add_user` adds exactly the user to exactly the organisation, when it succeeds, and otherwise no one. */
  lemma AddUserUsers(s: State, org: nat, user: UserId, role: string, o: nat)
    requires WellFormed(s) && org < |s.orgs|
    ensures var res := AfterAddUser(s, org, user, role);
            OrgUsers(res.0, o) == OrgUsers(s, o) + (if res.1.Ok? && o == org then {user} else {})
  {
    if HasAvailableSeatFor(s, org, user) && GeneralTeam(s, org).Ok? {
      var (teams, team) := GeneralTeam(s, org).value;
      if teams != s.teams {
        TeamAppendKeepsUsers(s, Team(General, org, false), o);
      }
      JoinTeamUsers(s.(teams := teams), org, team, user, role, o);
    }
  }

  /** The seat invariant: when every organisation is within its seats, it stays so after `add_user`. */
  lemma SeatInvariant(s: State, org: nat, user: UserId, role: string)
    requires WellFormed(s) && org < |s.orgs|
    requires forall o :: 0 <= o < |s.orgs| ==> SeatUsage(s, o) <= s.orgs[o].seats
    ensures var res := AfterAddUser(s, org, user, role);
            forall o :: 0 <= o < |res.0.orgs| ==> SeatUsage(res.0, o) <= res.0.orgs[o].seats
  {
    var res := AfterAddUser(s, org, user, role);
    forall o | 0 <= o < |res.0.orgs|
      ensures SeatUsage(res.0, o) <= res.0.orgs[o].seats
    {
      AddUserUsers(s, org, user, role, o);
      assert res.0.orgs[o].seats == s.orgs[o].seats;
      if res.1.Ok? && o == org && user !in OrgUsers(s, o) {
        SeatRule(s, org, user);
        assert |OrgUsers(s, o) + {user}| == |OrgUsers(s, o)| + 1;
      }
    }
  }

  /** Only the role "owner" adds the user to the owners, and only on success; nothing else about an organisation changes. */
  lemma AddUserOwners(s: State, org: nat, user: UserId, role: string, o: nat)
    requires WellFormed(s) && org < |s.orgs| && o < |s.orgs|
    ensures var res := AfterAddUser(s, org, user, role);
            && res.0.orgs[o].owners
               == s.orgs[o].owners + (if role == "owner" && res.1.Ok? && o == org then {user} else {})
            && res.0.orgs[o].(owners := s.orgs[o].owners) == s.orgs[o]
  {
    if HasAvailableSeatFor(s, org, user) {
      match GeneralTeam(s, org)
      case Err(_) =>
      case Ok((teams, team)) => JoinTeamOwners(s.(teams := teams), org, team, user, role, o);
    }
  }

  /** The membership step adds the user to the owners only for the role "owner", and only on success. */
  lemma JoinTeamOwners(s: State, org: nat, team: nat, user: UserId, role: string, o: nat)
    requires WellFormed(s) && org < |s.orgs| && team < |s.teams| && o < |s.orgs|
    ensures var res := JoinTeam(s, org, team, user, role);
            && res.0.orgs[o].owners
               == s.orgs[o].owners + (if role == "owner" && res.1.Ok? && o == org then {user} else {})
            && res.0.orgs[o].(owners := s.orgs[o].owners) == s.orgs[o]
  {
  }

  /** The organisation, team and membership tables, updated in place. */
  class Directory {
    var orgs: seq<Organization>
    var teams: seq<Team>
    var memberships: seq<Membership>

    function Snapshot(): State
      reads this
    {
      State(orgs, teams, memberships)
    }

    ghost predicate Valid()
      reads this
    {
      WellFormed(Snapshot())
    }

    constructor ()
      ensures Valid() && Snapshot() == State([], [], [])
    {
      orgs := [];
      teams := [];
      memberships := [];
    }

    /** `add_user`. */
    method AddUser(org: nat, user: UserId, role: string) returns (r: Result<Membership, string>)
      requires Valid() && org < |orgs|
      modifies this
      ensures Valid()
      ensures (Snapshot(), r) == AfterAddUser(old(Snapshot()), org, user, role)
    {
      if !HasAvailableSeatFor(Snapshot(), org, user) {
        return Err(NoSeatMessage(orgs[org].name));
      }
      var team := GetOrCreateGeneralTeam(org);
      if team.Err? {
        return Err(team.error);
      }
      r := GetOrCreateMembership(org, team.value, user, role);
    }

    /** `self.teams.get_or_create(name="General")`. */
    method GetOrCreateGeneralTeam(org: nat) returns (r: Result<nat, string>)
      requires Valid() && org < |orgs|
      modifies this
      ensures Valid()
      ensures orgs == old(orgs) && memberships == old(memberships)
      ensures var spec := GeneralTeam(old(Snapshot()), org);
              && (spec.Err? ==> r == Err(spec.error) && teams == old(teams))
              && (spec.Ok? ==> r == Ok(spec.value.1) && teams == spec.value.0)
    {
      var general := LiveTeamsNamed(teams, org, General, 0);
      if |general| > 1 {
        return Err(MultipleReturned("Team", |general|));
      } else if |general| == 1 {
        return Ok(general[0]);
      }
      r := Ok(|teams|);
      teams := teams + [Team(General, org, false)];
    }

    /** `TeamMembership.objects.get_or_create(team=..., user=..., defaults={"role": role})`, then the owners. */
    method GetOrCreateMembership(org: nat, team: nat, user: UserId, role: string) returns (r: Result<Membership, string>)
      requires Valid() && org < |orgs| && team < |teams|
      modifies this
      ensures Valid()
      ensures (Snapshot(), r) == JoinTeam(old(Snapshot()), org, team, user, role)
    {
      var existing := LiveMembershipsOf(memberships, team, user, 0);
      if |existing| > 1 {
        return Err(MultipleReturned("TeamMembership", |existing|));
      }
      var membership: Membership;
      if |existing| == 1 {
        membership := memberships[existing[0]];
      } else {
        membership := Membership(team, user, role, false);
        memberships := memberships + [membership];
      }
      if role == "owner" {
        orgs := orgs[org := orgs[org].(owners := orgs[org].owners + {user})];
      }
      return Ok(membership);
    }

    /**
     * `Organization.objects.create`: the name column is unique over every
     * row, deleted ones included, so a taken name is an integrity error.
     */
    method CreateOrganization(name: string, plan: string, seats: nat) returns (r: Result<nat, string>)
      requires Valid()
      modifies this
      ensures Valid()
      ensures (Snapshot(), r) == AfterCreateOrganization(old(Snapshot()), name, plan, seats)
    {
      if NameInUse(orgs, name) {
        return Err(NameNotUnique);
      }
      r := Ok(|orgs|);
      orgs := orgs + [Organization(name, plan, seats, {}, false)];
    }
  }

  /** Some row, live or deleted, has this name. */
  predicate NameInUse(orgs: seq<Organization>, name: string)
  {
    exists i :: 0 <= i < |orgs| && orgs[i].name == name
  }

  /** Some live row has this name: what `Organization.objects.filter(name=...)` sees. */
  predicate LiveNameInUse(orgs: seq<Organization>, name: string)
  {
    exists i :: 0 <= i < |orgs| && orgs[i].name == name && !orgs[i].isDeleted
  }

  /** The database's refusal of a duplicate name. */
  const NameNotUnique := "IntegrityError: duplicate organization name"

  /**
   * `Organization.objects.create(...)`, as a function of the tables: a new
   * organisation with no owners, or the unique-name error and no change.
   */
  function AfterCreateOrganization(s: State, name: string, plan: string, seats: nat): (res: (State, Result<nat, string>))
    requires WellFormed(s)
    ensures WellFormed(res.0) && res.0.teams == s.teams && res.0.memberships == s.memberships
    ensures res.1.Err? <==> NameInUse(s.orgs, name)
    ensures res.1.Err? ==> res == (s, Err(NameNotUnique))
    ensures res.1.Ok? ==> res.1.value == |s.orgs| && res.0.orgs == s.orgs + [Organization(name, plan, seats, {}, false)]
  {
    if NameInUse(s.orgs, name) then (s, Err(NameNotUnique))
    else (s.(orgs := s.orgs + [Organization(name, plan, seats, {}, false)]), Ok(|s.orgs|))
  }

  /**
   * A new organisation starts with no users, and the users of the existing
   * ones do not change.
   */
  lemma CreatedOrganizationIsEmpty(s: State, name: string, plan: string, seats: nat, o: nat)
    requires WellFormed(s)
    ensures var res := AfterCreateOrganization(s, name, plan, seats);
            && OrgUsers(res.0, o) == OrgUsers(s, o)
            && (res.1.Ok? ==> OrgUsers(res.0, res.1.value) == {})
  {
    var res := AfterCreateOrganization(s, name, plan, seats);
    forall i | 0 <= i < |s.memberships|
      ensures !InOrg(s.teams, s.memberships[i], |s.orgs|)
    {
    }
  }
}

=== FILE: prediction_serializers.dfy ===
/**
 * The prediction serializers: creation with the requesting user, the daily
 * same-day reuse rule, the long-term create, and the missing-readings job.
 *
 * The DRF rendering of a stored row is not modelled: a reused row is shown
 * as the row itself. A regenerated reading is a plain dict, and DRF reads
 * each declared field off it by key; that lookup is modelled.
 */
module PredictionSerializers {
  import opened Common
  import opened Mixins
  import opened Records
  import opened ReadingService
  import opened Tasks

  /** `PredictionSerializer.create`: the row gets the requesting user, whatever the payload says. */
  method Create(predictions: Table<Prediction>, requestUser: UserId, predictionType: string, content: Json,
                now: Instant) returns (prediction: Row<Prediction>)
    requires predictions.Valid()
    modifies predictions
    ensures predictions.Valid()
    ensures prediction.fields == Prediction(requestUser, predictionType, content) && !prediction.isDeleted
    ensures predictions.rows == old(predictions.rows) + [prediction]
  {
    prediction := predictions.Create(Prediction(requestUser, predictionType, content), now);
  }

  /** The daily row is shown as stored exactly when it was created today and its content is truthy. */
  predicate Reuse(instance: Row<Prediction>, today: Date)
  {
    instance.createdAt.day == today && Truthy(instance.fields.content)
  }

  /**
   * What the serializer shows: the stored row, or the two required fields
   * DRF reads off a regenerated dict. The read-only fields (`id`,
   * `created_at`, `updated_at`) are not required and are skipped when the
   * dict lacks them.
   */
  datatype Representation = Stored(row: Row<Prediction>) | Rendered(predictionType: Option<string>, content: Json)

  /** DRF's error when a required field is missing from a dict instance (its wording paraphrased). */
  function MissingFieldError(field: string): string
  {
    "KeyError: '" + field + "'"
  }

  /** `d[key]` on a dict given as its pairs: the value of the first pair with that key. */
  function FieldValue(fields: seq<(string, Json)>, key: string): (v: Option<Json>)
    ensures v.None? <==> forall i :: 0 <= i < |fields| ==> fields[i].0 != key
    ensures v.Some? ==> (key, v.value) in fields
  {
    if |fields| == 0 then None
    else if fields[0].0 == key then Some(fields[0].1)
    else FieldValue(fields[1..], key)
  }

  /**
   * A `CharField` in `to_representation`: a `None` value is shown as `None`
   * (DRF skips the field's own conversion), anything else as `str(value)`,
   * which is the text itself for a string.
   */
  function CharShown(v: Json, pyStr: Json -> string): (r: Option<string>)
    ensures r.None? <==> v.JNull?
    ensures v.JStr? ==> r == Some(v.s)
  {
    if v.JNull? then None else if v.JStr? then Some(v.s) else Some(pyStr(v))
  }

  /**
   * `super().to_representation(prediction)` on the dict `generate_reading`
   * returns: `prediction_type` and then `content` are looked up by key, and
   * the first one missing raises.
   */
  function RenderReading(reading: Json, pyStr: Json -> string): (r: Result<Representation, string>)
    ensures r.Ok? <==> reading.JObj? && "prediction_type" in KeysOf(reading.fields) && "content" in KeysOf(reading.fields)
    ensures r.Ok? ==> r.value.Rendered?
                      && (exists v :: ("prediction_type", v) in reading.fields && r.value.predictionType == CharShown(v, pyStr))
                      && ("content", r.value.content) in reading.fields
    ensures r.Err? && reading.JObj? && "prediction_type" in KeysOf(reading.fields) ==> r.error == MissingFieldError("content")
    ensures r.Err? && (!reading.JObj? || "prediction_type" !in KeysOf(reading.fields)) ==> r.error == MissingFieldError("prediction_type")
  {
    var fields := if reading.JObj? then reading.fields else [];
    var pt := FieldValue(fields, "prediction_type");
    var content := FieldValue(fields, "content");
    if pt.None? then
      assert reading.JObj? ==> "prediction_type" !in KeysOf(reading.fields);
      Err(MissingFieldError("prediction_type"))
    else if content.None? then
      assert "content" !in KeysOf(reading.fields);
      Err(MissingFieldError("content"))
    else
      assert KeysOf(fields)[IndexOfPair(fields, ("prediction_type", pt.value))] == "prediction_type";
      assert KeysOf(fields)[IndexOfPair(fields, ("content", content.value))] == "content";
      Ok(Rendered(CharShown(pt.value, pyStr), content.value))
  }

  /** The position of a pair known to be in the dict. */
  function IndexOfPair(fields: seq<(string, Json)>, pair: (string, Json)): (i: nat)
    requires pair in fields
    ensures i < |fields| && fields[i] == pair
  {
    if fields[0] == pair then 0 else 1 + IndexOfPair(fields[1..], pair)
  }

  /** A reply that was not a dict is stored as `{"raw": ...}`, which has no `prediction_type`: rendering it always raises. */
  lemma RawReplyCannotRender(response: Json, pyStr: Json -> string)
    requires !response.JObj?
    ensures RenderReading(StoredContent(response, pyStr), pyStr) == Err(MissingFieldError("prediction_type"))
  {
    StoredContentIsDict(response, pyStr);
  }

  /**
   * A reply carrying both fields renders as their values, whatever else it
   * holds: a text type as itself, a null type as `None`.
   */
  lemma FieldsRender(t: Json, v: Json, rest: seq<(string, Json)>, pyStr: Json -> string)
    ensures RenderReading(JObj([("prediction_type", t), ("content", v)] + rest), pyStr)
            == Ok(Rendered(CharShown(t, pyStr), v))
    ensures t.JStr? ==> RenderReading(JObj([("prediction_type", t), ("content", v)] + rest), pyStr)
                        == Ok(Rendered(Some(t.s), v))
    ensures t.JNull? ==> RenderReading(JObj([("prediction_type", t), ("content", v)] + rest), pyStr)
                         == Ok(Rendered(None, v))
  {
    var fields := [("prediction_type", t), ("content", v)] + rest;
    assert fields[1..] == [("content", v)] + rest;
    assert "prediction_type"[0] != "content"[0];
    assert FieldValue(fields, "prediction_type") == Some(t);
    assert FieldValue(fields, "content") == FieldValue(fields[1..], "content") == Some(v);
  }

  /**
   * `DailyPredictionSerializer.to_representation`: the stored row when it
   * may be reused; else a fresh "today_reading" for the row's user is
   * written to the reading table (never back into the prediction row) and
   * the dict it returns is rendered, which raises unless the model's reply
   * carried `prediction_type` and `content`. `owner` is what the reading
   * service sees of that user.
   */
  method DailyRepresentation(instance: Row<Prediction>, owner: ReadingUser, readings: Table<UserReading>,
                             now: Instant, o: Oracles) returns (shown: Result<Representation, string>)
    requires readings.Valid()
    requires owner.id == instance.fields.user
    modifies readings
    ensures readings.Valid()
    ensures Reuse(instance, now.day) ==> shown == Ok(Stored(instance)) && readings.rows == old(readings.rows)
    ensures !Reuse(instance, now.day) ==>
              && shown == RenderReading(Content(owner, "today_reading", o), o.pyStr)
              && readings.rows == old(readings.rows)
                 + [Row(old(readings.nextPk), false, now,
                        UserReading(instance.fields.user, "today_reading", Content(owner, "today_reading", o)))]
  {
    var today := now.day;
    if instance.createdAt.day == today && Truthy(instance.fields.content) {
      return Ok(Stored(instance));
    }
    var prediction := GenerateReading(readings, owner, "today_reading", now,
                                      o.promptText, o.chat, o.pyStr, o.parseFloat, o.sky);
    shown := RenderReading(prediction, o.pyStr);
  }

  /**
   * The row the daily list creates has content {} and so is never reused:
   * since the fresh reading is not written back, every later daily request
   * for it generates again.
   */
  lemma EmptyRowAlwaysRegenerates(instance: Row<Prediction>, today: Date)
    requires instance.fields.content == JObj([])
    ensures !Reuse(instance, today)
  {
  }

  /** A row from an earlier day is regenerated, whatever its content. */
  lemma OldRowRegenerates(instance: Row<Prediction>, today: Date)
    requires instance.createdAt.day != today
    ensures !Reuse(instance, today)
  {
  }

  /** What accessing `.content` on the dict the reading service returns raises. */
  const DictHasNoContent := "'dict' object has no attribute 'content'"

  /**
   * `LongTermPredictionSerializer.create`: the reading for the requested
   * type is generated and stored, then reading `.content` off the returned
   * dict raises, so no prediction row is ever created.
   */
  method LongTermCreate(readings: Table<UserReading>, requestUser: ReadingUser, predictionType: string,
                        now: Instant, o: Oracles) returns (r: Result<Row<Prediction>, string>)
    requires readings.Valid()
    modifies readings
    ensures readings.Valid()
    ensures r == Err(DictHasNoContent)
    ensures readings.rows == old(readings.rows)
              + [Row(old(readings.nextPk), false, now,
                     UserReading(requestUser.id, predictionType, Content(requestUser, predictionType, o)))]
  {
    var prediction := GenerateReading(readings, requestUser, predictionType, now,
                                      o.promptText, o.chat, o.pyStr, o.parseFloat, o.sky);
    // `prediction` is a dict: it has no `content` attribute.
    return Err(DictHasNoContent);
  }

  /** `create_missing_predictions`: exactly one job for the user, nothing else. */
  method CreateMissingPredictions(jobs: JobLog, user: UserId)
    modifies jobs
    ensures jobs.jobs == old(jobs.jobs) + [Job(GenerateMissingTask, user)]
  {
    jobs.Delay(GenerateMissingTask, user);
  }
}

=== FILE: prediction_views.dfy ===
/**
 * The prediction endpoints: the daily reading (newest live "today_reading"
 * row, created empty when there is none) and the long-term readings (with a
 * regeneration job queued when the profile's status is "completed").
 */
module PredictionViews {
  import opened Common
  import opened Mixins
  import opened Records
  import PredictionSerializers

  /** A live "today_reading" row of `user`. */
  predicate IsDaily(user: UserId, r: Row<Prediction>)
  {
    !r.isDeleted && r.fields.user == user && r.fields.predictionType == "today_reading"
  }

  /** The daily queryset before ordering: this user's live "today_reading" rows, in table order. */
  function DailyRows(rows: seq<Row<Prediction>>, user: UserId): (q: seq<Row<Prediction>>)
    ensures forall k :: 0 <= k < |q| ==> q[k] in rows && IsDaily(user, q[k])
    ensures forall k :: 0 <= k < |rows| && IsDaily(user, rows[k]) ==> rows[k] in q
  {
    if |rows| == 0 then []
    else if IsDaily(user, rows[0]) then [rows[0]] + DailyRows(rows[1..], user)
    else DailyRows(rows[1..], user)
  }

  /** The first row of a queryset ordered newest first: one with the latest creation tick. */
  function Newest(q: seq<Row<Prediction>>): (r: Row<Prediction>)
    requires |q| > 0
    ensures r in q
    ensures forall k :: 0 <= k < |q| ==> q[k].createdAt.tick <= r.createdAt.tick
  {
    if |q| == 1 then q[0]
    else
      var rest := Newest(q[1..]);
      if q[0].createdAt.tick > rest.createdAt.tick then q[0] else rest
  }

  /**
   * `DailyPredictionViewSet.list`: the newest live daily row of the user, or
   * a new one with content {} when there is none.
   */
  method DailyList(predictions: Table<Prediction>, user: UserId, now: Instant) returns (prediction: Row<Prediction>)
    requires predictions.Valid()
    modifies predictions
    ensures predictions.Valid()
    ensures |DailyRows(old(predictions.rows), user)| > 0 ==>
              prediction == Newest(DailyRows(old(predictions.rows), user)) && predictions.rows == old(predictions.rows)
    ensures |DailyRows(old(predictions.rows), user)| == 0 ==>
              prediction == Row(old(predictions.nextPk), false, now, Prediction(user, "today_reading", JObj([])))
              && predictions.rows == old(predictions.rows) + [prediction]
  {
    var queryset := DailyRows(predictions.rows, user);
    if |queryset| > 0 {
      prediction := Newest(queryset);
    } else {
      prediction := predictions.Create(Prediction(user, "today_reading", JObj([])), now);
    }
  }

  /** Appending a row extends the daily queryset by that row exactly when it is a live daily row of the user. */
  lemma {:induction false} DailyRowsAppend(rows: seq<Row<Prediction>>, r: Row<Prediction>, user: UserId)
    ensures DailyRows(rows + [r], user) == DailyRows(rows, user) + (if IsDaily(user, r) then [r] else [])
  {
    if |rows| > 0 {
      assert (rows + [r])[1..] == rows[1..] + [r];
      DailyRowsAppend(rows[1..], r, user);
    }
  }

  /**
   * The daily list settles: once it has created the empty row, the next
   * list finds that row (or a newer one) instead of creating another.
   */
  lemma DailyListSettles(rows: seq<Row<Prediction>>, user: UserId, pk: nat, now: Instant)
    requires |DailyRows(rows, user)| == 0
    ensures var created := Row(pk, false, now, Prediction(user, "today_reading", JObj([])));
            DailyRows(rows + [created], user) == [created]
            && Newest(DailyRows(rows + [created], user)) == created
  {
    DailyRowsAppend(rows, Row(pk, false, now, Prediction(user, "today_reading", JObj([]))), user);
  }

  /** A live row of `user` whose type is one of `readingTypes`. */
  predicate IsLongTerm(user: UserId, readingTypes: seq<string>, r: Row<Prediction>)
  {
    !r.isDeleted && r.fields.user == user && r.fields.predictionType in readingTypes
  }

  /** `LongTermPredictionViewSet.get_queryset`: this user's live rows of the given types, in table order. */
  function LongTermRows(rows: seq<Row<Prediction>>, user: UserId, readingTypes: seq<string>): (q: seq<Row<Prediction>>)
    ensures forall k :: 0 <= k < |q| ==> q[k] in rows && IsLongTerm(user, readingTypes, q[k])
    ensures forall k :: 0 <= k < |rows| && IsLongTerm(user, readingTypes, rows[k]) ==> rows[k] in q
  {
    if |rows| == 0 then []
    else if IsLongTerm(user, readingTypes, rows[0]) then [rows[0]] + LongTermRows(rows[1..], user, readingTypes)
    else LongTermRows(rows[1..], user, readingTypes)
  }

  /**
   * `LongTermPredictionViewSet.list`: queue the missing-readings job exactly
   * when the profile's status is "completed", then list the rows.
   */
  method LongTermList(predictions: Table<Prediction>, jobs: JobLog, user: UserId,
                      readingStatus: Option<string>, readingTypes: seq<string>)
    returns (listed: seq<Row<Prediction>>)
    modifies jobs
    ensures readingStatus == Some("completed") ==> jobs.jobs == old(jobs.jobs) + [Job(GenerateMissingTask, user)]
    ensures readingStatus != Some("completed") ==> jobs.jobs == old(jobs.jobs)
    ensures listed == LongTermRows(predictions.rows, user, readingTypes)
  {
    if readingStatus == Some("completed") {
      PredictionSerializers.CreateMissingPredictions(jobs, user);
    }
    listed := LongTermRows(predictions.rows, user, readingTypes);
  }
}

=== FILE: profile_permissions.dfy ===
/**
 * `ProfilePermission.has_object_permission`: who may read or change a
 * profile. Organisations are shared through the two users' live team
 * memberships; the profile's `allow_org_access` flag is an input here.
 */
module ProfilePermissions {
  import opened Common
  import opened Requests
  import opened Organizations

  /** The profile being accessed: its user and its `allow_org_access` flag. */
  datatype ProfileObject = ProfileObject(user: UserId, allowOrgAccess: bool)

  /** The organisations both users belong to through a live membership. */
  function SharedOrgs(s: State, a: UserId, b: UserId): (shared: set<nat>)
    requires WellFormed(s)
    ensures forall o :: o in shared <==> o in MembershipOrgs(s, a) && o in MembershipOrgs(s, b)
  {
    MembershipOrgs(s, a) * MembershipOrgs(s, b)
  }

  /** One of `orgs` is live and lists `user` among its owners. */
  predicate OwnsOneOf(s: State, orgs: set<nat>, user: UserId)
  {
    exists o :: o in orgs && o < |s.orgs| && !s.orgs[o].isDeleted && user in s.orgs[o].owners
  }

  /** `has_object_permission`, in the order the checks run. */
  function HasObjectPermission(s: State, requester: Requester, httpMethod: string, obj: ProfileObject): (allowed: bool)
    requires WellFormed(s)
    ensures requester.Anonymous? ==> !allowed
    ensures IsSuperuser(requester) || IsUser(requester, obj.user) ==> allowed
  {
    if !requester.Authenticated? then false
    else if requester.isSuperuser then true
    else if obj.user == requester.id then true
    else if !obj.allowOrgAccess then false
    else
      var shared := SharedOrgs(s, requester.id, obj.user);
      if shared == {} then false
      else if IsSafe(httpMethod) then true
      else OwnsOneOf(s, shared, requester.id)
  }

  /**
   * Another account may read a profile exactly when the profile opts in and
   * the two share an organisation, and may change it exactly when it also
   * owns one of the shared organisations.
   */
  lemma OtherUserRule(s: State, id: UserId, httpMethod: string, obj: ProfileObject)
    requires WellFormed(s) && id != obj.user
    ensures var allowed := HasObjectPermission(s, Authenticated(id, false), httpMethod, obj);
            var shared := SharedOrgs(s, id, obj.user);
            && (IsSafe(httpMethod) ==> (allowed <==> obj.allowOrgAccess && shared != {}))
            && (!IsSafe(httpMethod) ==> (allowed <==> obj.allowOrgAccess && OwnsOneOf(s, shared, id)))
  {
  }

  /** Whoever may change a profile may also read it. */
  lemma WriteImpliesRead(s: State, requester: Requester, write: string, read: string, obj: ProfileObject)
    requires WellFormed(s) && IsSafe(read)
    ensures HasObjectPermission(s, requester, write, obj) ==> HasObjectPermission(s, requester, read, obj)
  {
  }

  /** Without a shared organisation, the flag makes no difference: only the superuser and the profile's user get in. */
  lemma NoSharedOrgNoAccess(s: State, requester: Requester, httpMethod: string, obj: ProfileObject)
    requires WellFormed(s) && requester.Authenticated?
    requires SharedOrgs(s, requester.id, obj.user) == {}
    ensures HasObjectPermission(s, requester, httpMethod, obj) <==> IsSuperuser(requester) || IsUser(requester, obj.user)
  {
  }
}

=== FILE: profile_serializers.dfy ===
/**
 * `UserProfileSerializer`: the place-of-birth check against the geocoder,
 * and the creation that binds the user named by `user_id`.
 */
module ProfileSerializers {
  import opened Common
  import opened Mixins
  import Geocoding

  const InvalidPlace := "Invalid Place of birth"

  /**
   * `validate_place_of_birth`: a non-empty place whose lookup gives (0, 0)
   * is refused; anything else is returned unchanged.
   */
  function ValidatePlaceOfBirth(value: string, fetch: string -> Option<Geocoding.Coord>): (r: Result<string, string>)
  {
    if value != "" then
      var coordinates := Geocoding.GetCoordinates(value, fetch).coord;
      if coordinates.latitude == 0.0 && coordinates.longitude == 0.0 then Err(InvalidPlace)
      else Ok(value)
    else Ok(value)
  }

  /**
   * An empty place is accepted whatever the geocoder would say; a non-empty
   * one is refused exactly when the lookup lands on (0, 0), which includes
   * every place the lookup cannot resolve; accepted places come back as given.
   */
  lemma PlaceOfBirthRule(value: string, fetch: string -> Option<Geocoding.Coord>,
                         fetch2: string -> Option<Geocoding.Coord>)
    ensures ValidatePlaceOfBirth("", fetch) == Ok("") == ValidatePlaceOfBirth("", fetch2)
    ensures ValidatePlaceOfBirth(value, fetch).Ok? ==> ValidatePlaceOfBirth(value, fetch).value == value
    ensures ValidatePlaceOfBirth(value, fetch).Err? ==> ValidatePlaceOfBirth(value, fetch).error == InvalidPlace
    ensures value != "" ==>
              (ValidatePlaceOfBirth(value, fetch).Err?
               <==> Geocoding.GetCoordinates(value, fetch).coord == Geocoding.Unknown)
  {
  }

  /** A place the full-text lookup resolves to a point other than (0, 0) is accepted. */
  lemma ResolvedPlaceAccepted(value: string, fetch: string -> Option<Geocoding.Coord>)
    requires value != "" && fetch(value).Some? && fetch(value).value != Geocoding.Unknown
    ensures ValidatePlaceOfBirth(value, fetch) == Ok(value)
  {
    Geocoding.FullPlaceWins(value, fetch);
  }

  /** A profile row: the user it is bound to (none when no id was given) and the other validated fields. */
  datatype ProfileRecord = ProfileRecord(user: Option<UserId>, fields: seq<(string, Json)>)

  /** What `User.objects.get` raises for an unknown id. */
  const NoSuchUser := "User matching query does not exist."

  /**
   * `UserProfileSerializer.create`: look up the user when an id is given
   * (an unknown id raises before anything is written), then create the row.
   */
  method Create(profiles: Table<ProfileRecord>, users: set<UserId>, userId: Option<UserId>,
                fields: seq<(string, Json)>, now: Instant) returns (r: Result<Row<ProfileRecord>, string>)
    requires profiles.Valid()
    modifies profiles
    ensures profiles.Valid()
    ensures userId.Some? && userId.value !in users ==> r == Err(NoSuchUser) && profiles.rows == old(profiles.rows)
    ensures userId.None? || userId.value in users ==>
              && r == Ok(Row(old(profiles.nextPk), false, now, ProfileRecord(userId, fields)))
              && profiles.rows == old(profiles.rows) + [r.value]
  {
    var user: Option<UserId> := None;
    if userId.Some? {
      if userId.value !in users {
        return Err(NoSuchUser);
      }
      user := Some(userId.value);
    }
    var profile := profiles.Create(ProfileRecord(user, fields), now);
    return Ok(profile);
  }
}

=== FILE: profile_signals.dfy ===
/**
 * The profile save hooks: before a save, recompute coordinates and chart when
 * the birth data changed; after a save, retire the user's readings and queue
 * their regeneration.
 *
 * The place lookup is `Geocoding.GetCoordinates` over `fetch`. The chart is
 * the parameter `chartFor`: the hook passes the coordinates as `lat`/`lon`,
 * which is not how `calculate_birth_chart` takes its place, so that call is
 * kept abstract. `READING_TYPES` is the parameter `readingTypes`.
 */
module ProfileSignals {
  import opened Common
  import opened Mixins
  import opened Records
  import Geocoding

  /** The status a changed profile's long-term readings get. */
  const Reevaluate := "reeval"

  /** The stored profile row the hook compares against. */
  datatype StoredProfile = StoredProfile(
    placeOfBirth: string,
    dateOfBirth: Option<Date>,
    timeOfBirth: Option<Time>,
    preferredLanguage: string,
    phoneNumber: string)

  /** A profile instance being saved. */
  class Profile {
    var pk: Option<nat>
    var user: UserId
    var placeOfBirth: string
    var dateOfBirth: Option<Date>
    var timeOfBirth: Option<Time>
    var preferredLanguage: string
    var phoneNumber: string
    var latitude: Option<real>
    var longitude: Option<real>
    var birthChart: Json
    /** `long_term_reading_status`, which the hook sets although the model declares no such field. */
    var longTermReadingStatus: Option<string>
    /** Whether the `_generate_readings` attribute has been set on the instance. */
    var generateReadings: bool

    constructor (user: UserId, placeOfBirth: string, dateOfBirth: Option<Date>, timeOfBirth: Option<Time>)
      ensures this.pk.None? && this.user == user && this.placeOfBirth == placeOfBirth
      ensures this.dateOfBirth == dateOfBirth && this.timeOfBirth == timeOfBirth
      ensures !generateReadings && longTermReadingStatus.None?
    {
      this.pk := None;
      this.user := user;
      this.placeOfBirth := placeOfBirth;
      this.dateOfBirth := dateOfBirth;
      this.timeOfBirth := timeOfBirth;
      this.preferredLanguage := "en";
      this.phoneNumber := "";
      this.latitude := None;
      this.longitude := None;
      this.birthChart := JObj([]);
      this.longTermReadingStatus := None;
      this.generateReadings := false;
    }
  }

  /** The birth data or the language differ from the stored row; the phone number does not count. */
  predicate Changed(place: string, date: Option<Date>, time: Option<Time>, language: string, stored: StoredProfile)
  {
    place != stored.placeOfBirth
    || date != stored.dateOfBirth
    || time != stored.timeOfBirth
    || language != stored.preferredLanguage
  }

  /** A change of phone number alone never counts as a change. */
  lemma PhoneDoesNotCount(place: string, date: Option<Date>, time: Option<Time>, language: string,
                          stored: StoredProfile, phone: string)
    ensures Changed(place, date, time, language, stored)
            == Changed(place, date, time, language, stored.(phoneNumber := phone))
    ensures !Changed(stored.placeOfBirth, stored.dateOfBirth, stored.timeOfBirth, stored.preferredLanguage, stored)
  {
  }

  /**
   * `update_coordinates` (pre-save). `stored` is what the default manager
   * finds under the instance's key; `ok` is false when it finds nothing, the
   * lookup raising DoesNotExist.
   */
  method UpdateCoordinates(p: Profile, stored: Option<StoredProfile>,
                           fetch: string -> Option<Geocoding.Coord>,
                           chartFor: (Option<Date>, Option<Time>, real, real) -> Json) returns (ok: bool)
    modifies p
    ensures p.pk == old(p.pk) && p.user == old(p.user) && p.placeOfBirth == old(p.placeOfBirth)
    ensures p.dateOfBirth == old(p.dateOfBirth) && p.timeOfBirth == old(p.timeOfBirth)
    ensures p.preferredLanguage == old(p.preferredLanguage) && p.phoneNumber == old(p.phoneNumber)
    ensures ok <==> p.pk.None? || stored.Some?
    ensures var recompute := p.placeOfBirth != ""
              && (p.pk.None?
                  || (stored.Some? && Changed(p.placeOfBirth, p.dateOfBirth, p.timeOfBirth, p.preferredLanguage, stored.value)));
            var c := Geocoding.GetCoordinates(p.placeOfBirth, fetch).coord;
            if recompute then
              && p.latitude == Some(c.latitude) && p.longitude == Some(c.longitude)
              && p.birthChart == chartFor(p.dateOfBirth, p.timeOfBirth, c.latitude, c.longitude)
              && p.generateReadings
              && p.longTermReadingStatus == (if p.pk.None? then old(p.longTermReadingStatus) else Some(Reevaluate))
            else
              && p.latitude == old(p.latitude) && p.longitude == old(p.longitude)
              && p.birthChart == old(p.birthChart) && p.generateReadings == old(p.generateReadings)
              && p.longTermReadingStatus == old(p.longTermReadingStatus)
  {
    if p.pk.None? {
      if p.placeOfBirth != "" {
        var coordinates := Geocoding.GetCoordinates(p.placeOfBirth, fetch).coord;
        var birthChart := chartFor(p.dateOfBirth, p.timeOfBirth, coordinates.latitude, coordinates.longitude);
        p.latitude := Some(coordinates.latitude);
        p.longitude := Some(coordinates.longitude);
        p.birthChart := birthChart;
        p.generateReadings := true;
      }
      return true;
    }
    if stored.None? {
      return false;
    }
    var old_instance := stored.value;
    var fieldsChanged := p.placeOfBirth != old_instance.placeOfBirth
                         || p.dateOfBirth != old_instance.dateOfBirth
                         || p.timeOfBirth != old_instance.timeOfBirth
                         || p.preferredLanguage != old_instance.preferredLanguage;
    if fieldsChanged && p.placeOfBirth != "" {
      var coordinates := Geocoding.GetCoordinates(p.placeOfBirth, fetch).coord;
      var birthChart := chartFor(p.dateOfBirth, p.timeOfBirth, coordinates.latitude, coordinates.longitude);
      p.latitude := Some(coordinates.latitude);
      p.longitude := Some(coordinates.longitude);
      p.birthChart := birthChart;
      p.longTermReadingStatus := Some(Reevaluate);
      p.generateReadings := true;
    }
    return true;
  }

  /** The prediction types the post-save hook retires. */
  function RetiredTypes(readingTypes: seq<string>): seq<string>
  {
    readingTypes + ["todays_reading"]
  }

  /** A row the post-save hook retires: this user's, of a retired type. */
  predicate Retired(user: UserId, readingTypes: seq<string>, row: Prediction)
  {
    row.user == user && row.predictionType in RetiredTypes(readingTypes)
  }

  /** "today_reading" rows are never retired unless READING_TYPES itself names them: the list adds "todays_reading". */
  lemma TodayReadingKept(user: UserId, readingTypes: seq<string>, row: Prediction)
    requires "today_reading" !in readingTypes && row.predictionType == "today_reading"
    ensures !Retired(user, readingTypes, row)
  {
    assert RetiredTypes(readingTypes)[|readingTypes|] == "todays_reading";
    assert "today_reading" != "todays_reading";
  }

  /**
   * `generate_readings` (post-save): only when the flag is set, mark this
   * user's rows of the retired types deleted, then queue exactly one job.
   */
  method GenerateReadings(p: Profile, predictions: Table<Prediction>, jobs: JobLog, readingTypes: seq<string>)
    requires predictions.Valid()
    modifies predictions, jobs
    ensures predictions.Valid()
    ensures !p.generateReadings ==> predictions.rows == old(predictions.rows) && jobs.jobs == old(jobs.jobs)
    ensures p.generateReadings ==>
              && jobs.jobs == old(jobs.jobs) + [Job(GenerateMissingTask, p.user)]
              && |predictions.rows| == |old(predictions.rows)|
              && forall i :: 0 <= i < |predictions.rows| ==>
                   predictions.rows[i]
                   == old(predictions.rows)[i].(isDeleted := old(predictions.rows)[i].isDeleted
                                                              || Retired(p.user, readingTypes, old(predictions.rows)[i].fields))
  {
    if p.generateReadings {
      var user := p.user;
      var types := readingTypes + ["todays_reading"];
      predictions.DeleteWhere((row: Prediction) => row.user == user && row.predictionType in types);
      jobs.Delay(GenerateMissingTask, user);
    }
  }
}

=== FILE: reading_service.dfy ===
/**
 * `ReadingService.generate_reading`: build the chart (or an empty one), pick
 * the prompt for the reading type, ask the model, and store the answer as a
 * dict.
 *
 * The model call (`chat`), Python's `str()` of a value (`pyStr`) and the
 * prompt texts (`promptText`) are parameters; the chart is the one
 * `Astro.CalculateBirthChart` computes.
 */
module ReadingService {
  import opened Common
  import opened Mixins
  import opened Records
  import Astro
  import opened OpenAiUtils

  /** The reading types that have a prompt, in the table's order. */
  const PromptKeys: seq<string> := [
    "core_personality_and_life_path",
    "career_success_and_wealth",
    "relationships_love_and_marriage",
    "health_and_wellbeing",
    "challenges_and_remedies",
    "major_life_periods",
    "today_reading"
  ]

  /** The place used when the user has none. */
  const DefaultPlace := "48.8566,2.3522"

  const SystemPrompt := "You are a helpful Vedic astrology assistant."

  /** The prompt table: each of the seven reading types with its prompt text. */
  function PromptTable(promptText: string -> string): (table: map<string, string>)
    ensures table.Keys == set k | k in PromptKeys
    ensures forall k :: k in table ==> table[k] == promptText(k)
  {
    map k | k in PromptKeys :: promptText(k)
  }

  /** A sequence without repeats has as many distinct elements as entries. */
  lemma {:induction false} DistinctCount(s: seq<string>)
    requires forall i, j :: 0 <= i < j < |s| ==> s[i] != s[j]
    ensures |set k | k in s| == |s|
  {
    if |s| > 0 {
      DistinctCount(s[1..]);
      assert (set k | k in s) == {s[0]} + (set k | k in s[1..]);
      assert s[0] !in (set k | k in s[1..]);
    }
  }

  /** The table has exactly seven keys, "today_reading" among them. */
  lemma PromptTableKeys(promptText: string -> string)
    ensures |PromptTable(promptText).Keys| == 7
    ensures "today_reading" in PromptTable(promptText)
  {
    forall i, j | 0 <= i < j < |PromptKeys| ensures PromptKeys[i] != PromptKeys[j] {
      assert PromptKeys[i][..2] != PromptKeys[j][..2] || |PromptKeys[i]| != |PromptKeys[j]|;
    }
    DistinctCount(PromptKeys);
    assert PromptKeys[6] == "today_reading";
  }

  /** `self.prompts.get(reading_type, self.prompts["today_reading"])`. */
  function BasePrompt(promptText: string -> string, readingType: string): (p: string)
  {
    var table := PromptTable(promptText);
    PromptTableKeys(promptText);
    if readingType in table then table[readingType] else table["today_reading"]
  }

  /** A known reading type gets its own prompt; any other type gets the "today_reading" prompt. */
  lemma BasePromptFallback(promptText: string -> string, readingType: string)
    ensures readingType in PromptKeys ==> BasePrompt(promptText, readingType) == promptText(readingType)
    ensures readingType !in PromptKeys ==> BasePrompt(promptText, readingType) == promptText("today_reading")
  {
  }

  const ChartIntro := "This is the user's birth chart:\n"
  const ReadingRequest := "\n\nProvide a detailed reading:\n\n"

  /** The user message: the chart introduction, the chart, the request line, then the prompt. */
  function UserContent(chartText: string, basePrompt: string): string
  {
    ChartIntro + chartText + ReadingRequest + basePrompt
  }

  /** The user content can be split back into its four parts, in this order. */
  lemma UserContentParts(chartText: string, basePrompt: string)
    ensures var c := UserContent(chartText, basePrompt);
            var a := |ChartIntro|;
            var b := a + |chartText|;
            var d := b + |ReadingRequest|;
            |c| == d + |basePrompt|
            && c[..a] == ChartIntro && c[a..b] == chartText
            && c[b..d] == ReadingRequest && c[d..] == basePrompt
  {
  }

  /** The messages sent: the fixed system message, then the user content. */
  function ReadingMessages(chartText: string, basePrompt: string): (m: seq<Message>)
    ensures |m| == 2 && m[0] == Message("system", SystemPrompt)
    ensures m[1] == Message("user", UserContent(chartText, basePrompt))
  {
    [Message("system", SystemPrompt), Message("user", UserContent(chartText, basePrompt))]
  }

  /** What is stored: the response itself when it is a dict, else `{"raw": str(response)}`. */
  function StoredContent(response: Json, pyStr: Json -> string): Json
  {
    if response.JObj? then response else JObj([("raw", JStr(pyStr(response)))])
  }

  /** The stored content is always a dict, and a dict response is kept as it is. */
  lemma StoredContentIsDict(response: Json, pyStr: Json -> string)
    ensures StoredContent(response, pyStr).JObj?
    ensures response.JObj? <==> StoredContent(response, pyStr) == response
    ensures !response.JObj? ==> KeysOf(StoredContent(response, pyStr).fields) == ["raw"]
  {
  }

  /**
   * The attributes `generate_reading` looks up on the user: None when the
   * attribute is missing or None.
   */
  datatype ReadingUser = ReadingUser(
    id: UserId,
    dateOfBirth: Option<Date>,
    timeOfBirth: Option<Time>,
    placeOfBirth: Option<string>)

  /** The place passed on: the user's own, or the default when the attribute is missing. */
  function PlaceOf(user: ReadingUser): string
  {
    if user.placeOfBirth.Some? then user.placeOfBirth.value else DefaultPlace
  }

  /** The chart the prompt shows: {} when the date or time is missing, else the computed chart. */
  function ChartFor(user: ReadingUser, parseFloat: string -> Option<real>, sky: Astro.Sky): Json
  {
    if user.dateOfBirth.None? || user.timeOfBirth.None? then JObj([])
    else Astro.ChartJson(Astro.BirthChart(user.dateOfBirth.value, user.timeOfBirth.value,
                                          PlaceOf(user), parseFloat, sky))
  }

  /** Without a date or time the chart is {} whatever the ephemeris says: the astro service is not consulted. */
  lemma MissingBirthInfoGivesEmptyChart(user: ReadingUser, parseFloat: string -> Option<real>,
                                        parseFloat2: string -> Option<real>, sky: Astro.Sky, sky2: Astro.Sky)
    requires user.dateOfBirth.None? || user.timeOfBirth.None?
    ensures ChartFor(user, parseFloat, sky) == JObj([])
    ensures ChartFor(user, parseFloat, sky) == ChartFor(user, parseFloat2, sky2)
  {
  }

  /** With both, the chart is the computed one, for the user's place or the default place. */
  lemma ChartUsesPlaceOrDefault(user: ReadingUser, parseFloat: string -> Option<real>, sky: Astro.Sky)
    requires user.dateOfBirth.Some? && user.timeOfBirth.Some?
    ensures user.placeOfBirth.Some? ==>
              ChartFor(user, parseFloat, sky)
              == Astro.ChartJson(Astro.BirthChart(user.dateOfBirth.value, user.timeOfBirth.value,
                                                  user.placeOfBirth.value, parseFloat, sky))
    ensures user.placeOfBirth.None? ==>
              ChartFor(user, parseFloat, sky)
              == Astro.ChartJson(Astro.BirthChart(user.dateOfBirth.value, user.timeOfBirth.value,
                                                  "48.8566,2.3522", parseFloat, sky))
    ensures KeysOf(ChartFor(user, parseFloat, sky).fields) == ["ascendant", "planets", "houses"]
  {
  }

  /** The content `generate_reading` stores and returns. */
  function ReadingContent(user: ReadingUser, readingType: string, promptText: string -> string,
                          chat: seq<Message> -> Json, pyStr: Json -> string,
                          parseFloat: string -> Option<real>, sky: Astro.Sky): Json
  {
    var chartText := pyStr(ChartFor(user, parseFloat, sky));
    StoredContent(chat(ReadingMessages(chartText, BasePrompt(promptText, readingType))), pyStr)
  }

  /**
   * `generate_reading`: one new `UserReading` row holding the content, which
   * is also what is returned.
   */
  method GenerateReading(readings: Table<UserReading>, user: ReadingUser, readingType: string, now: Instant,
                         promptText: string -> string, chat: seq<Message> -> Json, pyStr: Json -> string,
                         parseFloat: string -> Option<real>, sky: Astro.Sky) returns (content: Json)
    requires readings.Valid()
    modifies readings
    ensures readings.Valid()
    ensures content == ReadingContent(user, readingType, promptText, chat, pyStr, parseFloat, sky)
    ensures content.JObj?
    ensures readings.rows == old(readings.rows)
              + [Row(old(readings.nextPk), false, now, UserReading(user.id, readingType, content))]
  {
    var birthChart: Json;
    if user.dateOfBirth.None? || user.timeOfBirth.None? {
      birthChart := JObj([]);
    } else {
      var place := if user.placeOfBirth.Some? then user.placeOfBirth.value else DefaultPlace;
      var chart := Astro.CalculateBirthChart(user.dateOfBirth.value, user.timeOfBirth.value, place, parseFloat, sky);
      birthChart := Astro.ChartJson(chart);
    }
    var basePrompt := BasePrompt(promptText, readingType);
    var messages := [Message("system", SystemPrompt),
                     Message("user", ChartIntro + pyStr(birthChart) + ReadingRequest + basePrompt)];
    var response := chat(messages);
    var stored := if response.JObj? then response else JObj([("raw", JStr(pyStr(response)))]);
    var row := readings.Create(UserReading(user.id, readingType, stored), now);
    content := row.fields.content;
  }
}

=== FILE: records.dfy ===
/**
 * The stored records the reading pipeline reads and writes, and the log of
 * dispatched background jobs.
 */
module Records {
  import opened Common

  /** The fields of a `Prediction` row (its audit fields live in `Mixins.Row`). */
  datatype Prediction = Prediction(user: UserId, predictionType: string, content: Json)

  /**
   * The fields of a `UserReading` row, the model the reading service writes.
   * No such model is defined next to `Prediction`, so it is kept as its own table.
   */
  datatype UserReading = UserReading(user: UserId, readingType: string, content: Json)

  /** A background job handed to the queue: the job's name and the user id it is given. */
  datatype Job = Job(task: string, userId: UserId)

  /** The name of the Celery job that fills in missing predictions. */
  const GenerateMissingTask := "generate_missing_predictions_for_user"

  /** The jobs dispatched so far, oldest first. Delivery and workers are not modelled. */
  class JobLog {
    var jobs: seq<Job>

    constructor ()
      ensures jobs == []
    {
      jobs := [];
    }

    /** `task.delay(user_id)`. */
    method Delay(task: string, userId: UserId)
      modifies this
      ensures jobs == old(jobs) + [Job(task, userId)]
    {
      jobs := jobs + [Job(task, userId)];
    }
  }
}

=== FILE: requests.dfy ===
/**
 * What the permission classes see of a request: its method and its user.
 */
module Requests {
  import opened Common

  /** The request's user: anonymous, or an authenticated account. */
  datatype Requester = Anonymous | Authenticated(id: UserId, isSuperuser: bool)

  /** `is_superuser` as the request user reports it; an anonymous user is never one. */
  predicate IsSuperuser(r: Requester)
  {
    r.Authenticated? && r.isSuperuser
  }

  /** `user == other`: only an authenticated account equals a user row. */
  predicate IsUser(r: Requester, user: UserId)
  {
    r.Authenticated? && r.id == user
  }

  /** `SAFE_METHODS`: the read-only HTTP methods. */
  const SafeMethods: seq<string> := ["GET", "HEAD", "OPTIONS"]

  predicate IsSafe(httpMethod: string)
  {
    httpMethod in SafeMethods
  }
}

=== FILE: response_normalizer.dfy ===
/**
 * `get_structure_openai_response`: turns the text a language model answered
 * with into a parsed JSON value, after a fixed sequence of textual repairs.
 *
 * Each regular expression of the pipeline is written out as a scanner with
 * the matching rules of Python's `re` (greedy and lazy repetition, priority
 * of the leftmost match, `re.sub` resuming after each match). `json.loads` is
 * a parameter: it answers `Some(value)` when the text is a JSON document and
 * `None` when it raises.
 */
module ResponseNormalizer {
  import opened Common

  /** The normaliser's answer: a parsed value, or the cleaned text when nothing parses. */
  datatype Normalized = Parsed(value: Json) | Raw(text: string)

  function Min(a: int, b: int): int { if a <= b then a else b }

  function Max(a: int, b: int): int { if a <= b then b else a }

  // ---------------------------------------------------------------------
  // Step 2: the code fence  ^```[a-zA-Z]*\s*([\s\S]+?)\s*```$
  // ---------------------------------------------------------------------

  predicate IsAsciiLetter(c: char)
  {
    'a' <= c <= 'z' || 'A' <= c <= 'Z'
  }

  /** Length of the run of ASCII letters starting at `i`. */
  function LetterRun(s: string, i: nat): (n: nat)
    requires i <= |s|
    ensures i + n <= |s|
    decreases |s| - i
  {
    if i < |s| && IsAsciiLetter(s[i]) then 1 + LetterRun(s, i + 1) else 0
  }

  /** `LetterRun` covers letters only and stops at a non-letter or the end. */
  lemma {:induction false} LetterRunFacts(s: string, i: nat)
    requires i <= |s|
    ensures forall x :: i <= x < i + LetterRun(s, i) ==> IsAsciiLetter(s[x])
    ensures i + LetterRun(s, i) < |s| ==> !IsAsciiLetter(s[i + LetterRun(s, i)])
    decreases |s| - i
  {
    if i < |s| && IsAsciiLetter(s[i]) {
      LetterRunFacts(s, i + 1);
    }
  }

  /** Length of the run of whitespace starting at `i`. */
  function SpaceRun(s: string, i: nat): (n: nat)
    requires i <= |s|
    ensures i + n <= |s|
    decreases |s| - i
  {
    if i < |s| && IsSpace(s[i]) then 1 + SpaceRun(s, i + 1) else 0
  }

  /** `SpaceRun` covers whitespace only and stops at other text or the end. */
  lemma {:induction false} SpaceRunFacts(s: string, i: nat)
    requires i <= |s|
    ensures forall x :: i <= x < i + SpaceRun(s, i) ==> IsSpace(s[x])
    ensures i + SpaceRun(s, i) < |s| ==> !IsSpace(s[i + SpaceRun(s, i)])
    decreases |s| - i
  {
    if i < |s| && IsSpace(s[i]) {
      SpaceRunFacts(s, i + 1);
    }
  }

  /** Length of the run of whitespace ending just before `j`. */
  function SpaceRunBefore(s: string, j: nat): (n: nat)
    requires j <= |s|
    ensures n <= j
  {
    if j > 0 && IsSpace(s[j - 1]) then 1 + SpaceRunBefore(s, j - 1) else 0
  }

  /** `SpaceRunBefore` covers whitespace only and stops at other text or the start. */
  lemma {:induction false} SpaceRunBeforeFacts(s: string, j: nat)
    requires j <= |s|
    ensures forall x :: j - SpaceRunBefore(s, j) <= x < j ==> IsSpace(s[x])
    ensures SpaceRunBefore(s, j) < j ==> !IsSpace(s[j - SpaceRunBefore(s, j) - 1])
  {
    if j > 0 && IsSpace(s[j - 1]) {
      SpaceRunBeforeFacts(s, j - 1);
    }
  }

  /**
   * The ways the fence pattern can match the whole of `s`: `l` letters of
   * language tag after the opening fence, `w` whitespace characters, then the
   * group from `3 + l + w` up to `q` (at least one character), then only
   * whitespace up to the closing fence at the very end.
   */
  predicate FenceSplit(s: string, l: nat, w: nat, q: nat)
  {
    |s| >= 6 && s[..3] == "```" && s[|s| - 3..] == "```"
    && 3 + l + w < q <= |s| - 3
    && (forall x :: 3 <= x < 3 + l ==> IsAsciiLetter(s[x]))
    && (forall x :: 3 + l <= x < 3 + l + w ==> IsSpace(s[x]))
    && (forall x :: q <= x < |s| - 3 ==> IsSpace(s[x]))
  }

  /** Opens and closes with a fence, with room for a one-character group between. */
  predicate Fenced(s: string)
  {
    |s| >= 7 && s[..3] == "```" && s[|s| - 3..] == "```"
  }

  /** A split of a fenced text: `tag` letters, `pad` whitespace, the group ending at `end`. */
  datatype FenceParts = FenceParts(tag: nat, pad: nat, end: nat)

  /**
   * The split Python's matcher settles on: the longest tag, then the longest
   * whitespace, then the shortest group (the group is lazy).
   */
  function FenceChoice(s: string): (r: Option<FenceParts>)
    ensures r.Some? <==> Fenced(s)
    ensures r.Some? ==> 3 + r.value.tag + r.value.pad < r.value.end <= |s| - 3
  {
    if Fenced(s) then
      var l := Min(LetterRun(s, 3), |s| - 7);
      var w := Min(SpaceRun(s, 3 + l), |s| - 7 - l);
      var r := |s| - 3 - SpaceRunBefore(s, |s| - 3);
      Some(FenceParts(l, w, Max(3 + l + w + 1, r)))
    else
      None
  }

  /** Step 2 applied to already stripped text: keep the stripped group of a matching fence. */
  function StripFence(s: string): (r: string)
    ensures |r| <= |s|
  {
    var c := FenceChoice(s);
    if c.Some? then Strip(s[3 + c.value.tag + c.value.pad..c.value.end]) else s
  }

  /** The chosen split is a match of the pattern. */
  lemma FenceChoiceIsSplit(s: string)
    ensures var c := FenceChoice(s); c.Some? ==> FenceSplit(s, c.value.tag, c.value.pad, c.value.end)
  {
    if FenceChoice(s).Some? {
      var FenceParts(l, w, q) := FenceChoice(s).value;
      LetterRunFacts(s, 3);
      SpaceRunFacts(s, 3 + l);
      SpaceRunBeforeFacts(s, |s| - 3);
      var r := |s| - 3 - SpaceRunBefore(s, |s| - 3);
      assert s[|s| - 3] == '`';
      forall x | q <= x < |s| - 3 ensures IsSpace(s[x]) {
        assert r <= x;
      }
    }
  }

  /**
   * Every match of the pattern is found by `FenceChoice`, and the chosen one
   * has priority over it: a longer tag, else longer whitespace, else a
   * shorter group.
   */
  lemma FenceChoicePreferred(s: string, l': nat, w': nat, q': nat)
    requires FenceSplit(s, l', w', q')
    ensures FenceChoice(s).Some?
    ensures var FenceParts(l, w, q) := FenceChoice(s).value;
      l' <= l && (l' == l ==> w' <= w) && (l' == l && w' == w ==> q <= q')
  {
    var FenceParts(l, w, q) := FenceChoice(s).value;
    LetterRunMaximal(s, 3, l');
    if l' == l {
      SpaceRunMaximal(s, 3 + l, w');
      if w' == w {
        SpaceRunBeforeMaximal(s, |s| - 3, |s| - 3 - q');
      }
    }
  }

  /** No run of letters starting at `i` is longer than `LetterRun`. */
  lemma {:induction false} LetterRunMaximal(s: string, i: nat, m: nat)
    requires i + m <= |s|
    requires forall x :: i <= x < i + m ==> IsAsciiLetter(s[x])
    ensures m <= LetterRun(s, i)
    decreases m
  {
    if m > 0 {
      LetterRunMaximal(s, i + 1, m - 1);
    }
  }

  /** No run of whitespace starting at `i` is longer than `SpaceRun`. */
  lemma {:induction false} SpaceRunMaximal(s: string, i: nat, m: nat)
    requires i + m <= |s|
    requires forall x :: i <= x < i + m ==> IsSpace(s[x])
    ensures m <= SpaceRun(s, i)
    decreases m
  {
    if m > 0 {
      SpaceRunMaximal(s, i + 1, m - 1);
    }
  }

  /** No run of whitespace ending at `j` is longer than `SpaceRunBefore`. */
  lemma {:induction false} SpaceRunBeforeMaximal(s: string, j: nat, m: nat)
    requires m <= j <= |s|
    requires forall x :: j - m <= x < j ==> IsSpace(s[x])
    ensures m <= SpaceRunBefore(s, j)
    decreases m
  {
    if m > 0 {
      SpaceRunBeforeMaximal(s, j - 1, m - 1);
    }
  }

  /**
   * A fence around a stripped body is removed whole, with its tag and
   * padding: the opening fence, letters up to `a`, whitespace up to `b`, the
   * body up to `c`, whitespace up to the closing fence. When there is no
   * whitespace, the body must not start with a letter (the tag would swallow it).
   */
  lemma FenceRemoved(s: string, a: nat, b: nat, c: nat)
    requires |s| >= 6 && s[..3] == "```" && s[|s| - 3..] == "```"
    requires 3 <= a <= b < c <= |s| - 3
    requires forall x :: 3 <= x < a ==> IsAsciiLetter(s[x])
    requires forall x :: a <= x < b ==> IsSpace(s[x])
    requires forall x :: c <= x < |s| - 3 ==> IsSpace(s[x])
    requires IsStripped(s[b..c])
    requires a == b ==> !IsAsciiLetter(s[b])
    ensures StripFence(s) == s[b..c]
  {
    FenceChoiceOf(s, a, b, c);
    StripStripped(s[b..c]);
  }

  /** The split `FenceChoice` picks for a fenced stripped body. */
  lemma FenceChoiceOf(s: string, a: nat, b: nat, c: nat)
    requires |s| >= 6 && s[..3] == "```" && s[|s| - 3..] == "```"
    requires 3 <= a <= b < c <= |s| - 3
    requires forall x :: 3 <= x < a ==> IsAsciiLetter(s[x])
    requires forall x :: a <= x < b ==> IsSpace(s[x])
    requires forall x :: c <= x < |s| - 3 ==> IsSpace(s[x])
    requires IsStripped(s[b..c])
    requires a == b ==> !IsAsciiLetter(s[b])
    ensures FenceChoice(s) == Some(FenceParts(a - 3, b - a, c))
  {
    assert s[b..c][0] == s[b] && s[b..c][c - b - 1] == s[c - 1];
    assert !IsSpace(s[b]) && !IsSpace(s[c - 1]);
    TagOf(s, a, b);
    SpaceRunExact(s, a, b - a);
    EndOf(s, c);
  }

  lemma TagOf(s: string, a: nat, b: nat)
    requires 3 <= a <= b < |s|
    requires forall x :: 3 <= x < a ==> IsAsciiLetter(s[x])
    requires forall x :: a <= x < b ==> IsSpace(s[x])
    requires !IsSpace(s[b])
    requires a == b ==> !IsAsciiLetter(s[b])
    ensures LetterRun(s, 3) == a - 3
  {
    assert !IsAsciiLetter(s[a]);
    LetterRunExact(s, 3, a - 3);
  }

  lemma EndOf(s: string, c: nat)
    requires 3 <= c <= |s| - 3
    requires forall x :: c <= x < |s| - 3 ==> IsSpace(s[x])
    requires !IsSpace(s[c - 1])
    ensures SpaceRunBefore(s, |s| - 3) == |s| - 3 - c
  {
    SpaceRunBeforeExact(s, |s| - 3, |s| - 3 - c);
  }

  /** The usual shape: a tag such as `json`, a newline, the body, a newline. */
  lemma TaggedFenceRemoved(body: string)
    requires |body| > 0 && IsStripped(body)
    ensures StripFence("```json\n" + body + "\n```") == body
  {
    var s := "```json\n" + body + "\n```";
    assert s[..3] == "```" && s[|s| - 3..] == "```";
    assert s[8..8 + |body|] == body;
    FenceRemoved(s, 7, 8, 8 + |body|);
  }

  lemma LetterRunExact(s: string, i: nat, n: nat)
    requires i + n <= |s|
    requires forall x :: i <= x < i + n ==> IsAsciiLetter(s[x])
    requires i + n < |s| && !IsAsciiLetter(s[i + n])
    ensures LetterRun(s, i) == n
    decreases n
  {
    if n > 0 {
      LetterRunExact(s, i + 1, n - 1);
    }
  }

  lemma SpaceRunExact(s: string, i: nat, n: nat)
    requires i + n <= |s|
    requires forall x :: i <= x < i + n ==> IsSpace(s[x])
    requires i + n < |s| && !IsSpace(s[i + n])
    ensures SpaceRun(s, i) == n
    decreases n
  {
    if n > 0 {
      SpaceRunExact(s, i + 1, n - 1);
    }
  }

  lemma SpaceRunBeforeExact(s: string, j: nat, n: nat)
    requires n < j <= |s|
    requires forall x :: j - n <= x < j ==> IsSpace(s[x])
    requires !IsSpace(s[j - n - 1])
    ensures SpaceRunBefore(s, j) == n
    decreases n
  {
    if n > 0 {
      SpaceRunBeforeExact(s, j - 1, n - 1);
    }
  }

  // ---------------------------------------------------------------------
  // Step 3: one wrapping quote pair
  // ---------------------------------------------------------------------

  predicate WrappedInQuotes(s: string)
  {
    |s| > 0 && ((s[0] == '\'' && s[|s| - 1] == '\'') || (s[0] == '"' && s[|s| - 1] == '"'))
  }

  /** Step 3: drop one pair of wrapping quotes, only when the text is longer than one character. */
  function StripQuotes(s: string): (r: string)
    ensures |r| <= |s|
    ensures r != s ==> WrappedInQuotes(s) && |s| > 1
  {
    if WrappedInQuotes(s) && |s| > 1 then Strip(s[1..|s| - 1]) else s
  }

  /** Exactly one pair is removed, and the inside is stripped. */
  lemma QuotePairRemoved(q: char, inner: string)
    requires q == '\'' || q == '"'
    ensures StripQuotes([q] + inner + [q]) == Strip(inner)
  {
    assert ([q] + inner + [q])[1..|inner| + 1] == inner;
  }

  /** A lone quote character is left alone. */
  lemma LoneQuoteKept(q: char)
    ensures StripQuotes([q]) == [q]
  {
  }

  // ---------------------------------------------------------------------
  // Step 4: Python literals
  // ---------------------------------------------------------------------

  /** Step 4: `None`, `True` and `False` become `null`, `true` and `false`, in that order. */
  function ReplaceLiterals(s: string): (r: string)
  {
    Replace(Replace(Replace(s, "None", "null"), "True", "true"), "False", "false")
  }

  /** The text holds none of Python's three literal words. */
  predicate LiteralFree(s: string)
  {
    !Contains(s, "None") && !Contains(s, "True") && !Contains(s, "False")
  }

  /** No proper suffix of "None" or "True" overlaps its lower-case replacement. */
  lemma NoneTrueSuffixes()
    ensures forall i :: 1 <= i < 4 ==> !Overlaps("None"[i..], "null") && !Overlaps("True"[i..], "true")
  {
    forall i | 1 <= i < 4 ensures !Overlaps("None"[i..], "null") && !Overlaps("True"[i..], "true") {
      NoOverlapAt("None"[i..], "null", if i == 2 then 1 else 0);
      NoOverlapAt("True"[i..], "true", 0);
    }
  }

  /** No proper suffix of "False" overlaps "false". */
  lemma FalseSuffixes()
    ensures forall i :: 1 <= i < 5 ==> !Overlaps("False"[i..], "false")
  {
    forall i | 1 <= i < 5 ensures !Overlaps("False"[i..], "false") {
      NoOverlapAt("False"[i..], "false", 0);
    }
  }

  /** After the first two replacements neither "None" nor "True" is left. */
  lemma NoneTrueReplaced(s: string)
    ensures var b := Replace(Replace(s, "None", "null"), "True", "true");
            !Contains(b, "None") && !Contains(b, "True")
  {
    var a := Replace(s, "None", "null");
    NoneTrueSuffixes();
    ReplaceKeepsAbsent(s, "None", "null", "None");
    ReplaceKeepsAbsent(a, "True", "true", "None");
    ReplaceKeepsAbsent(a, "True", "true", "True");
  }

  /** After step 4 none of the three Python words is left anywhere in the text. */
  lemma LiteralsReplaced(s: string)
    ensures LiteralFree(ReplaceLiterals(s))
  {
    var b := Replace(Replace(s, "None", "null"), "True", "true");
    NoneTrueReplaced(s);
    NoneTrueSuffixes();
    FalseSuffixes();
    ReplaceKeepsAbsent(b, "False", "false", "None");
    ReplaceKeepsAbsent(b, "False", "false", "True");
    ReplaceKeepsAbsent(b, "False", "false", "False");
  }

  // ---------------------------------------------------------------------
  // Step 5: single quotes  ([{\[,]\s*)'([^'\r\n]+)'\s*([},\]:])  ->  \1"\2"\3
  // ---------------------------------------------------------------------

  predicate IsOpener(c: char) { c == '{' || c == '[' || c == ',' }

  predicate IsCloser(c: char) { c == '}' || c == ',' || c == ']' || c == ':' }

  /** End of the run of characters other than a single quote, CR or LF, from `k`. */
  function QuotedEnd(s: string, k: nat): (e: nat)
    requires k <= |s|
    ensures k <= e <= |s|
    decreases |s| - k
  {
    if k < |s| && s[k] != '\'' && s[k] != '\r' && s[k] != '\n' then QuotedEnd(s, k + 1) else k
  }

  /** `QuotedEnd` covers allowed characters only and stops at a quote, a line break or the end. */
  lemma {:induction false} QuotedEndFacts(s: string, k: nat)
    requires k <= |s|
    ensures forall x :: k <= x < QuotedEnd(s, k) ==> s[x] != '\'' && s[x] != '\r' && s[x] != '\n'
    decreases |s| - k
  {
    if k < |s| && s[k] != '\'' && s[k] != '\r' && s[k] != '\n' {
      QuotedEndFacts(s, k + 1);
    }
  }

  /**
   * Where the single-quote pattern matches at `i`: the opener at `i`,
   * whitespace, the opening quote at `j`, a non-empty body, the closing quote
   * at `k`, whitespace, and the closer at `m`. Every repetition in the pattern
   * stops at a character the next item cannot start with, so the match, when
   * there is one, is unique.
   */
  datatype QuoteMatch = QuoteMatch(j: nat, k: nat, m: nat)

  function MatchQuoteAt(s: string, i: nat): (r: Option<QuoteMatch>)
    requires i <= |s|
    ensures r.Some? ==> i < r.value.j < r.value.k - 1 && r.value.k < r.value.m < |s|
  {
    if i < |s| && IsOpener(s[i]) then
      var j := i + 1 + SpaceRun(s, i + 1);
      if j < |s| && s[j] == '\'' then
        var k := QuotedEnd(s, j + 1);
        if j + 1 < k < |s| && s[k] == '\'' then
          var m := k + 1 + SpaceRun(s, k + 1);
          if m < |s| && IsCloser(s[m]) then Some(QuoteMatch(j, k, m)) else None
        else None
      else None
    else None
  }

  /** The shape of a match: every item of the pattern where it should be. */
  lemma MatchQuoteShape(s: string, i: nat)
    requires i <= |s|
    ensures MatchQuoteAt(s, i).Some? ==> SwapShape(s, i, MatchQuoteAt(s, i).value)
  {
    var r := MatchQuoteAt(s, i);
    if r.Some? {
      SpaceRunFacts(s, i + 1);
      QuotedEndFacts(s, r.value.j + 1);
      SpaceRunFacts(s, r.value.k + 1);
    }
  }

  /** Conversely, text with the pattern's shape at `i` is matched there, and only that way. */
  lemma MatchQuoteComplete(s: string, i: nat, q: QuoteMatch)
    requires SwapShape(s, i, q)
    ensures MatchQuoteAt(s, i) == Some(q)
  {
    SpaceRunExact(s, i + 1, q.j - i - 1);
    QuotedEndExact(s, q.j + 1, q.k);
    SpaceRunExact(s, q.k + 1, q.m - q.k - 1);
  }

  /** `QuotedEnd` stops at the first quote or line break. */
  lemma {:induction false} QuotedEndExact(s: string, k: nat, e: nat)
    requires k <= e < |s| && (s[e] == '\'' || s[e] == '\r' || s[e] == '\n')
    requires forall x :: k <= x < e ==> s[x] != '\'' && s[x] != '\r' && s[x] != '\n'
    ensures QuotedEnd(s, k) == e
    decreases e - k
  {
    if k < e {
      QuotedEndExact(s, k + 1, e);
    }
  }

  /** The text `\1"\2"\3` that replaces a match. */
  function QuoteReplacement(s: string, i: nat, q: QuoteMatch): (r: string)
    requires i < q.j < q.k < q.m < |s|
    ensures |r| == q.k - i + 2 && r[0] == s[i] && r[q.j - i] == '"' && r[q.k - i] == '"'
  {
    s[i..q.j] + "\"" + s[q.j + 1..q.k] + "\"" + [s[q.m]]
  }

  /** A step of one `re.sub` pass: copy the character, or replace the match that starts there. */
  datatype Step = Copy | Swap(q: QuoteMatch)

  /** The step a pass takes at index `i`: replace the match there, or copy the character. */
  function StepAt(s: string, i: nat): (st: Step)
    requires i < |s|
    ensures i < After(i, st) <= |s|
  {
    match MatchQuoteAt(s, i)
      case Some(q) => Swap(q)
      case None => Copy
  }

  /** Where a pass resumes after taking `st` at `i`: past the closer of a match, else the next index. */
  function After(i: nat, st: Step): nat
  {
    match st
      case Copy => i + 1
      case Swap(q) => q.m + 1
  }

  /** The steps one pass takes from index `i` to the end of the text. */
  function Plan(s: string, i: nat): seq<Step>
    requires i <= |s|
    decreases |s| - i
  {
    if i == |s| then [] else [StepAt(s, i)] + Plan(s, After(i, StepAt(s, i)))
  }

  /** What a match at `i` looks like: opener, whitespace, quoted body, whitespace, closer. */
  predicate SwapShape(s: string, i: nat, q: QuoteMatch)
  {
    && i < q.j && q.j + 1 < q.k && q.k < q.m < |s|
    && IsOpener(s[i]) && s[q.j] == '\'' && s[q.k] == '\'' && IsCloser(s[q.m])
    && (forall x :: i < x < q.j ==> IsSpace(s[x]))
    && (forall x :: q.j < x < q.k ==> s[x] != '\'' && s[x] != '\r' && s[x] != '\n')
    && (forall x :: q.k < x < q.m ==> IsSpace(s[x]))
  }

  /** `p` is a run of steps that goes from index `i` exactly to the end of `s`. */
  predicate Follows(s: string, i: nat, p: seq<Step>)
    decreases |p|
  {
    if |p| == 0 then i == |s|
    else
      i < |s| &&
      match p[0]
        case Copy => Follows(s, i + 1, p[1..])
        case Swap(q) => SwapShape(s, i, q) && Follows(s, q.m + 1, p[1..])
  }

  /** The text the steps `p` produce from index `i`. */
  function Splice(s: string, i: nat, p: seq<Step>): string
    requires Follows(s, i, p)
    decreases |p|
  {
    if |p| == 0 then ""
    else
      match p[0]
        case Copy => [s[i]] + Splice(s, i + 1, p[1..])
        case Swap(q) => QuoteReplacement(s, i, q) + Splice(s, q.m + 1, p[1..])
  }

  /** Number of replacements among the steps: the count `re.subn` reports. */
  function Swaps(p: seq<Step>): nat
    decreases |p|
  {
    if |p| == 0 then 0 else (if p[0].Swap? then 1 else 0) + Swaps(p[1..])
  }

  /** The steps of a pass go from `i` to the end, and each replacement has the pattern's shape. */
  lemma {:induction false} PlanFollows(s: string, i: nat)
    requires i <= |s|
    ensures Follows(s, i, Plan(s, i))
    decreases |s| - i
  {
    if i < |s| {
      var st := StepAt(s, i);
      MatchQuoteShape(s, i);
      PlanFollows(s, After(i, st));
      FollowsStep(s, i, st, Plan(s, After(i, st)));
    }
  }

  lemma FollowsStep(s: string, i: nat, st: Step, p: seq<Step>)
    requires i < |s| && (st.Swap? ==> SwapShape(s, i, st.q))
    requires Follows(s, After(i, st), p)
    ensures Follows(s, i, [st] + p)
  {
    assert ([st] + p)[1..] == p;
  }

  /** One `re.sub` pass of the single-quote pattern over the whole text. */
  function QuoteSub(s: string): string
  {
    PlanFollows(s, 0);
    Splice(s, 0, Plan(s, 0))
  }

  /** Number of single quotes in `s[x..z]`. */
  function QuotesIn(s: string, x: nat, z: nat): nat
    requires x <= z <= |s|
    decreases z - x
  {
    if x == z then 0 else QuotesIn(s, x, z - 1) + (if s[z - 1] == '\'' then 1 else 0)
  }

  /** Number of single quotes in the text. */
  function QuoteCount(s: string): nat
  {
    QuotesIn(s, 0, |s|)
  }

  /** Counts over adjacent ranges add up. */
  lemma {:induction false} QuotesInSplit(s: string, x: nat, y: nat, z: nat)
    requires x <= y <= z <= |s|
    ensures QuotesIn(s, x, z) == QuotesIn(s, x, y) + QuotesIn(s, y, z)
    decreases z - y
  {
    if y < z {
      QuotesInSplit(s, x, y, z - 1);
    }
  }

  /** Ranges holding the same characters hold as many single quotes. */
  lemma {:induction false} QuotesInShift(s: string, x: nat, z: nat, t: string, y: nat)
    requires x <= z <= |s| && y + (z - x) <= |t|
    requires forall k :: x <= k < z ==> s[k] == t[k - x + y]
    ensures QuotesIn(s, x, z) == QuotesIn(t, y, y + (z - x))
    decreases z - x
  {
    if x < z {
      QuotesInShift(s, x, z - 1, t, y);
    }
  }

  lemma QuoteCountConcat(a: string, b: string)
    ensures QuoteCount(a + b) == QuoteCount(a) + QuoteCount(b)
  {
    QuotesInSplit(a + b, 0, |a|, |a + b|);
    QuotesInShift(a + b, 0, |a|, a, 0);
    QuotesInShift(a + b, |a|, |a + b|, b, 0);
  }

  /** A range without single quotes counts zero. */
  lemma {:induction false} NoQuotesIn(s: string, x: nat, z: nat)
    requires x <= z <= |s|
    requires forall k :: x <= k < z ==> s[k] != '\''
    ensures QuotesIn(s, x, z) == 0
    decreases z - x
  {
    if x < z {
      NoQuotesIn(s, x, z - 1);
    }
  }

  /** A single character counts as it is a single quote or not. */
  lemma QuoteCountChar(s: string, i: nat)
    requires i < |s|
    ensures QuoteCount([s[i]]) == QuotesIn(s, i, i + 1)
  {
    assert QuotesIn([s[i]], 0, 1) == QuotesIn([s[i]], 0, 0) + (if s[i] == '\'' then 1 else 0);
  }

  /** Outside its two quotes a match holds no single quote. */
  lemma SwapQuoteFree(s: string, i: nat, q: QuoteMatch)
    requires SwapShape(s, i, q)
    ensures s[q.m] != '\''
    ensures forall x :: i <= x < q.j ==> s[x] != '\''
    ensures forall x :: q.k < x < q.m ==> s[x] != '\''
  {
    forall x | i < x < q.j || q.k < x < q.m
      ensures s[x] != '\''
    {
      assert IsSpace(s[x]);
    }
  }

  /** A replacement holds two single quotes fewer than the text it replaces. */
  lemma ReplacementCount(s: string, i: nat, q: QuoteMatch)
    requires SwapShape(s, i, q)
    ensures QuoteCount(QuoteReplacement(s, i, q)) + 2 == QuotesIn(s, i, q.m + 1)
  {
    SwapQuoteFree(s, i, q);
    var r := QuoteReplacement(s, i, q);
    assert forall x :: 0 <= x < |r| ==> r[x] != '\'';
    NoQuotesIn(r, 0, |r|);
    QuotesInSplit(s, i, q.j, q.m + 1);
    QuotesInSplit(s, q.j + 1, q.k, q.m + 1);
    NoQuotesIn(s, i, q.j);
    NoQuotesIn(s, q.j + 1, q.k);
    NoQuotesIn(s, q.k + 1, q.m + 1);
    assert QuotesIn(s, q.j, q.j + 1) == 1;
    assert QuotesIn(s, q.k, q.k + 1) == 1;
    QuotesInSplit(s, q.j, q.j + 1, q.m + 1);
    QuotesInSplit(s, q.k, q.k + 1, q.m + 1);
  }

  /** Each replacement turns exactly two single quotes into double quotes. */
  lemma {:induction false} SpliceCount(s: string, i: nat, p: seq<Step>)
    requires Follows(s, i, p)
    ensures i <= |s|
    ensures QuoteCount(Splice(s, i, p)) + 2 * Swaps(p) == QuotesIn(s, i, |s|)
    decreases |p|
  {
    if |p| > 0 {
      match p[0]
      case Copy =>
        SpliceCount(s, i + 1, p[1..]);
        SpliceCountCopy(s, i, p);
      case Swap(q) =>
        SpliceCount(s, q.m + 1, p[1..]);
        SpliceCountSwap(s, i, p, q);
    }
  }

  /** The count step for a copied character. */
  lemma SpliceCountCopy(s: string, i: nat, p: seq<Step>)
    requires Follows(s, i, p) && |p| > 0 && p[0].Copy?
    requires QuoteCount(Splice(s, i + 1, p[1..])) + 2 * Swaps(p[1..]) == QuotesIn(s, i + 1, |s|)
    ensures QuoteCount(Splice(s, i, p)) + 2 * Swaps(p) == QuotesIn(s, i, |s|)
  {
    QuotesInSplit(s, i, i + 1, |s|);
    QuoteCountConcat([s[i]], Splice(s, i + 1, p[1..]));
    QuoteCountChar(s, i);
  }

  /** The count step for a replaced match. */
  lemma SpliceCountSwap(s: string, i: nat, p: seq<Step>, q: QuoteMatch)
    requires Follows(s, i, p) && |p| > 0 && p[0] == Swap(q)
    requires QuoteCount(Splice(s, q.m + 1, p[1..])) + 2 * Swaps(p[1..]) == QuotesIn(s, q.m + 1, |s|)
    ensures QuoteCount(Splice(s, i, p)) + 2 * Swaps(p) == QuotesIn(s, i, |s|)
  {
    ReplacementCount(s, i, q);
    QuoteCountConcat(QuoteReplacement(s, i, q), Splice(s, q.m + 1, p[1..]));
    QuotesInSplit(s, i, q.m + 1, |s|);
  }

  /** Steps without a replacement copy the text. */
  lemma {:induction false} SpliceCopies(s: string, i: nat, p: seq<Step>)
    requires Follows(s, i, p) && Swaps(p) == 0
    ensures i <= |s| && Splice(s, i, p) == s[i..]
    decreases |p|
  {
    if |p| > 0 {
      SpliceCopies(s, i + 1, p[1..]);
      assert s[i..] == [s[i]] + s[i + 1..];
    }
  }

  /** A pass replaces nothing exactly when the pattern matches at no index from `i` on. */
  lemma {:induction false} PlanSwapsNone(s: string, i: nat)
    requires i <= |s|
    ensures Swaps(Plan(s, i)) == 0 <==> forall x :: i <= x < |s| ==> MatchQuoteAt(s, x).None?
    decreases |s| - i
  {
    if i < |s| {
      var st := StepAt(s, i);
      var rest := Plan(s, After(i, st));
      PlanSwapsNone(s, After(i, st));
      SwapsCons(st, rest);
      if st.Swap? {
        assert MatchQuoteAt(s, i).Some?;
      } else {
        assert After(i, st) == i + 1;
      }
    }
  }

  lemma SwapsCons(st: Step, p: seq<Step>)
    ensures Swaps([st] + p) == (if st.Swap? then 1 else 0) + Swaps(p)
  {
    assert ([st] + p)[1..] == p;
  }

  /**
   * A pass removes two single quotes per replacement, and it changes the
   * text exactly when the pattern matches somewhere.
   */
  lemma QuoteSubCount(s: string)
    ensures QuoteCount(QuoteSub(s)) + 2 * Swaps(Plan(s, 0)) == QuoteCount(s)
    ensures QuoteSub(s) == s <==> forall x :: 0 <= x < |s| ==> MatchQuoteAt(s, x).None?
  {
    PlanFollows(s, 0);
    SpliceCount(s, 0, Plan(s, 0));
    PlanSwapsNone(s, 0);
    if Swaps(Plan(s, 0)) == 0 {
      SpliceCopies(s, 0, Plan(s, 0));
    }
  }

  /** One or more ASCII letters, like the three Python literal words. */
  predicate LetterWord(w: string)
  {
    |w| > 0 && forall x :: 0 <= x < |w| ==> IsAsciiLetter(w[x])
  }

  /** Before its opening quote and at its closer a match holds no letter. */
  lemma SwapNoLetter(s: string, i: nat, q: QuoteMatch)
    requires SwapShape(s, i, q)
    ensures forall x :: i <= x < q.j ==> !IsAsciiLetter(s[x])
    ensures !IsAsciiLetter(s[q.m])
  {
    forall x | i < x < q.j
      ensures !IsAsciiLetter(s[x])
    {
      assert IsSpace(s[x]);
    }
  }

  /** A word of letters that starts the output of steps from `i` starts at `i` in the input. */
  lemma {:induction false} SplicePrefix(s: string, i: nat, p: seq<Step>, w: string)
    requires Follows(s, i, p) && LetterWord(w)
    ensures w <= Splice(s, i, p) ==> OccursAt(s, w, i)
    decreases |p|
  {
    if |p| > 0 {
      match p[0]
      case Copy =>
        if |w| > 1 {
          SplicePrefix(s, i + 1, p[1..], w[1..]);
          PrefixStep(s, i, Splice(s, i + 1, p[1..]), w);
        } else {
          assert w <= Splice(s, i, p) ==> s[i..i + |w|] == w;
        }
      case Swap(q) =>
        assert Splice(s, i, p)[0] == s[i];
        assert !IsAsciiLetter(s[i]);
    }
  }

  lemma PrefixStep(s: string, i: nat, rest: string, w: string)
    requires i < |s| && |w| > 1
    requires w[1..] <= rest ==> OccursAt(s, w[1..], i + 1)
    ensures w <= [s[i]] + rest ==> OccursAt(s, w, i)
  {
    if w <= [s[i]] + rest {
      assert w[1..] <= rest;
      assert s[i..i + |w|] == [s[i]] + s[i + 1..i + 1 + |w[1..]|];
    }
  }

  /**
   * The rewrite only deletes whitespace next to quotes and swaps quote
   * characters, so it never forms a new word of letters.
   */
  lemma {:induction false} SpliceKeepsWord(s: string, i: nat, p: seq<Step>, w: string)
    requires Follows(s, i, p) && LetterWord(w)
    ensures Contains(Splice(s, i, p), w) ==> Contains(s, w)
    decreases |p|
  {
    if |p| > 0 {
      match p[0]
      case Copy =>
        SpliceKeepsWord(s, i + 1, p[1..], w);
        SplicePrefix(s, i, p, w);
        SkipKeepsWord(s, i, Splice(s, i + 1, p[1..]), w);
      case Swap(q) =>
        SpliceKeepsWord(s, q.m + 1, p[1..], w);
        SwapKeepsWord(s, i, q, Splice(s, q.m + 1, p[1..]), w);
    }
  }

  lemma SwapKeepsWord(s: string, i: nat, q: QuoteMatch, rest: string, w: string)
    requires SwapShape(s, i, q) && LetterWord(w)
    requires Contains(rest, w) ==> Contains(s, w)
    ensures Contains(QuoteReplacement(s, i, q) + rest, w) ==> Contains(s, w)
  {
    SwapNoLetter(s, i, q);
    var rep := QuoteReplacement(s, i, q);
    if Contains(rep + rest, w) {
      var p :| 0 <= p <= |rep + rest| - |w| && OccursAt(rep + rest, w, p);
      if p < |rep| {
        ReplacementWord(s, i, q, rest, w, p);
      } else {
        OccursAfterPrefix(rep, rest, w, p);
      }
    }
  }

  lemma SkipKeepsWord(s: string, i: nat, rest: string, w: string)
    requires i < |s| && LetterWord(w)
    requires Contains(rest, w) ==> Contains(s, w)
    requires w <= [s[i]] + rest ==> OccursAt(s, w, i)
    ensures Contains([s[i]] + rest, w) ==> Contains(s, w)
  {
    if Contains([s[i]] + rest, w) {
      var p :| 0 <= p <= |[s[i]] + rest| - |w| && OccursAt([s[i]] + rest, w, p);
      if p == 0 {
        assert w <= [s[i]] + rest;
      } else {
        OccursAfterPrefix([s[i]], rest, w, p);
      }
    }
  }

  /** A word of letters inside a replacement lies in the quoted body, copied from the input. */
  lemma ReplacementWord(s: string, i: nat, q: QuoteMatch, rest: string, w: string, p: nat)
    requires i < q.j < q.k < q.m < |s|
    requires forall x :: i <= x < q.j ==> !IsAsciiLetter(s[x])
    requires !IsAsciiLetter(s[q.m])
    requires LetterWord(w) && p < |QuoteReplacement(s, i, q)|
    requires OccursAt(QuoteReplacement(s, i, q) + rest, w, p)
    ensures Contains(s, w)
  {
    var out := QuoteReplacement(s, i, q) + rest;
    var a := q.j - i;
    var b := q.k - i;
    assert forall x :: 0 <= x < a ==> out[x] == s[i + x];
    assert forall x :: 0 <= x <= a ==> !IsAsciiLetter(out[x]);
    assert !IsAsciiLetter(out[b]) && !IsAsciiLetter(out[b + 1]);
    assert forall y :: p <= y < p + |w| ==> out[y] == w[y - p];
    assert IsAsciiLetter(out[p]);
    assert a < p < b;
    assert p + |w| <= b;
    assert forall x :: a < x < b ==> out[x] == s[i + x];
    assert s[p + i..p + i + |w|] == out[p..p + |w|];
    assert OccursAt(s, w, p + i);
  }

  /** A pass never forms a word of letters that was not already there. */
  lemma QuoteSubKeepsWord(s: string, w: string)
    requires LetterWord(w)
    ensures Contains(QuoteSub(s), w) ==> Contains(s, w)
  {
    PlanFollows(s, 0);
    SpliceKeepsWord(s, 0, Plan(s, 0), w);
  }

  /** A pass that changes the text turned at least two single quotes into double quotes. */
  lemma QuoteSubShrinks(s: string)
    ensures QuoteSub(s) != s ==> QuoteCount(QuoteSub(s)) + 2 <= QuoteCount(s)
  {
    PlanFollows(s, 0);
    SpliceCount(s, 0, Plan(s, 0));
    if Swaps(Plan(s, 0)) == 0 {
      SpliceCopies(s, 0, Plan(s, 0));
    }
  }

  /** The rewrite loop: substitute until a pass changes nothing. */
  function FixedQuotes(s: string): (r: string)
    decreases QuoteCount(s)
  {
    var next := QuoteSub(s);
    if next == s then s
    else
      QuoteSubShrinks(s);
      FixedQuotes(next)
  }

  /** The loop ends at a text the substitution leaves unchanged. */
  lemma {:induction false} FixedQuotesIsFixpoint(s: string)
    ensures QuoteSub(FixedQuotes(s)) == FixedQuotes(s)
    decreases QuoteCount(s)
  {
    var next := QuoteSub(s);
    if next != s {
      QuoteSubShrinks(s);
      FixedQuotesIsFixpoint(next);
    }
  }

  /** In `{'a': 'b'}` the pattern matches at the opening brace, and nowhere from the space on. */
  lemma ColonExampleSteps()
    ensures StepAt("{'a': 'b'}", 0) == Swap(QuoteMatch(1, 3, 4))
    ensures forall x :: 5 <= x < 10 ==> StepAt("{'a': 'b'}", x) == Copy
  {
    var s := "{'a': 'b'}";
    MatchQuoteComplete(s, 0, QuoteMatch(1, 3, 4));
    forall x | 5 <= x < |s|
      ensures StepAt(s, x) == Copy
    {
      assert !IsOpener(s[x]);
    }
  }

  /** The steps of the first pass over `{'a': 'b'}`: the key's match, then five copies. */
  lemma ColonExamplePlan()
    ensures Plan("{'a': 'b'}", 0) == [Swap(QuoteMatch(1, 3, 4)), Copy, Copy, Copy, Copy, Copy]
  {
    var s := "{'a': 'b'}";
    ColonExampleSteps();
    PlanOfCopies(s, 5);
    assert seq(5, _ => Copy) == [Copy, Copy, Copy, Copy, Copy];
    assert Plan(s, 0) == [Swap(QuoteMatch(1, 3, 4))] + Plan(s, 5);
  }

  /** Where no match starts, a pass only copies. */
  lemma {:induction false} PlanOfCopies(s: string, i: nat)
    requires i <= |s|
    requires forall x :: i <= x < |s| ==> StepAt(s, x) == Copy
    ensures Plan(s, i) == seq(|s| - i, _ => Copy)
    decreases |s| - i
  {
    if i < |s| {
      PlanOfCopies(s, i + 1);
      assert Plan(s, i) == [Copy] + Plan(s, i + 1);
    }
  }

  /** The key's match in `{'a': 'b'}` is replaced by `{"a":`. */
  lemma ColonExampleReplacement()
    ensures QuoteReplacement("{'a': 'b'}", 0, QuoteMatch(1, 3, 4)) == "{\"a\":"
  {
  }

  /** Copying the last five characters of `{'a': 'b'}` gives ` 'b'}`. */
  lemma ColonExampleTail()
    ensures Follows("{'a': 'b'}", 5, [Copy, Copy, Copy, Copy, Copy])
    ensures Splice("{'a': 'b'}", 5, [Copy, Copy, Copy, Copy, Copy]) == " 'b'}"
  {
    var s := "{'a': 'b'}";
    var copies := [Copy, Copy, Copy, Copy, Copy];
    assert Follows(s, 10, copies[5..]);
    assert Follows(s, 9, copies[4..]);
    assert Follows(s, 8, copies[3..]);
    assert Follows(s, 7, copies[2..]);
    assert Follows(s, 6, copies[1..]);
    assert Swaps(copies[4..]) == 0;
    assert Swaps(copies[3..]) == 0;
    assert Swaps(copies[2..]) == 0;
    assert Swaps(copies[1..]) == 0;
    SpliceCopies(s, 5, copies);
  }

  /** The first pass over `{'a': 'b'}` rewrites the key and copies the rest. */
  lemma ColonExampleFirstPass()
    ensures QuoteSub("{'a': 'b'}") == "{\"a\": 'b'}"
  {
    ColonExamplePlan();
    ColonExampleSplice();
  }

  /** The key's replacement followed by the five copies gives `{"a": 'b'}`. */
  lemma ColonExampleSplice()
    ensures Follows("{'a': 'b'}", 0, [Swap(QuoteMatch(1, 3, 4)), Copy, Copy, Copy, Copy, Copy])
    ensures Splice("{'a': 'b'}", 0, [Swap(QuoteMatch(1, 3, 4)), Copy, Copy, Copy, Copy, Copy]) == "{\"a\": 'b'}"
  {
    var s := "{'a': 'b'}";
    var q := QuoteMatch(1, 3, 4);
    var copies := [Copy, Copy, Copy, Copy, Copy];
    var p := [Swap(q)] + copies;
    ColonExampleFollows();
    ColonExampleTail();
    ColonExampleReplacement();
    assert p[1..] == copies;
    assert Splice(s, 0, p) == QuoteReplacement(s, 0, q) + Splice(s, 5, copies);
    assert "{\"a\":" + " 'b'}" == "{\"a\": 'b'}";
  }

  /** The first pass's steps over `{'a': 'b'}` run from the start to the end of the text. */
  lemma ColonExampleFollows()
    ensures Follows("{'a': 'b'}", 0, [Swap(QuoteMatch(1, 3, 4)), Copy, Copy, Copy, Copy, Copy])
  {
    var s := "{'a': 'b'}";
    var q := QuoteMatch(1, 3, 4);
    var copies := [Copy, Copy, Copy, Copy, Copy];
    ColonExampleSteps();
    MatchQuoteShape(s, 0);
    ColonExampleTail();
    var p := [Swap(q)] + copies;
    assert p[1..] == copies;
  }

  /** The second pass finds nothing: after `{` comes a double quote, and ':' opens nothing. */
  lemma ColonExampleSecondPass()
    ensures QuoteSub("{\"a\": 'b'}") == "{\"a\": 'b'}"
  {
    var t := "{\"a\": 'b'}";
    forall x | 0 <= x < |t|
      ensures MatchQuoteAt(t, x).None?
    {
      if x == 0 {
        assert SpaceRun(t, 1) == 0;
      } else {
        assert !IsOpener(t[x]);
      }
    }
    QuoteSubCount(t);
  }

  /**
   * The opener class has no ':', so a single-quoted value after a colon is
   * never rewritten: in `{'a': 'b'}` only the key gets double quotes.
   */
  lemma ColonValueKeepsSingleQuotes()
    ensures FixedQuotes("{'a': 'b'}") == "{\"a\": 'b'}"
  {
    ColonExampleFirstPass();
    ColonExampleSecondPass();
  }

  /** The loop turns single quotes into double quotes two at a time: `pairs` of them in all. */
  lemma {:induction false} FixedQuotesCount(s: string) returns (pairs: nat)
    ensures QuoteCount(FixedQuotes(s)) + 2 * pairs == QuoteCount(s)
    decreases QuoteCount(s)
  {
    var next := QuoteSub(s);
    QuoteSubCount(s);
    QuoteSubShrinks(s);
    if next == s {
      pairs := 0;
    } else {
      var rest := FixedQuotesCount(next);
      pairs := rest + Swaps(Plan(s, 0));
    }
  }

  /** The loop never forms a word of letters that was not already there. */
  lemma {:induction false} FixedQuotesKeepsWord(s: string, w: string)
    requires LetterWord(w)
    ensures Contains(FixedQuotes(s), w) ==> Contains(s, w)
    decreases QuoteCount(s)
  {
    var next := QuoteSub(s);
    if next != s {
      QuoteSubShrinks(s);
      FixedQuotesKeepsWord(next, w);
      QuoteSubKeepsWord(s, w);
    }
  }

  /** Text without the Python literal words stays without them through the loop. */
  lemma FixedQuotesLiteralFree(s: string)
    requires LiteralFree(s)
    ensures LiteralFree(FixedQuotes(s))
  {
    FixedQuotesKeepsWord(s, "None");
    FixedQuotesKeepsWord(s, "True");
    FixedQuotesKeepsWord(s, "False");
  }

  // ---------------------------------------------------------------------
  // Step 6: re-escaping inside double-quoted spans  "((?:\\.|[^"\\])*)"
  // ---------------------------------------------------------------------

  /**
   * End of the span body from `k`: a backslash takes the next character with
   * it unless that is a line feed or the end, any other character except a
   * double quote is taken alone. Each position allows only one alternative,
   * so the greedy repetition never has a shorter match to fall back on.
   */
  function SpanEnd(s: string, k: nat): (e: nat)
    requires k <= |s|
    ensures k <= e <= |s|
    decreases |s| - k
  {
    if k == |s| then k
    else if s[k] == '\\' then
      if k + 1 < |s| && s[k + 1] != '\n' then SpanEnd(s, k + 2) else k
    else if s[k] == '"' then k
    else SpanEnd(s, k + 1)
  }

  /** The lookbehind replacement `(?<!\\)"` -> `\"`, over the span body from index `x`. */
  function EscapeFrom(t: string, x: nat): string
    requires x <= |t|
    decreases |t| - x
  {
    if x == |t| then ""
    else if t[x] == '"' && (x == 0 || t[x - 1] != '\\') then "\\\"" + EscapeFrom(t, x + 1)
    else [t[x]] + EscapeFrom(t, x + 1)
  }

  function EscapeInner(t: string): string
  {
    EscapeFrom(t, 0)
  }

  /** One `re.sub` pass of the span pattern from index `i`, each span re-escaped. */
  function DqSub(s: string, i: nat): string
    requires i <= |s|
    decreases |s| - i
  {
    if i == |s| then ""
    else if s[i] == '"' && SpanEnd(s, i + 1) < |s| && s[SpanEnd(s, i + 1)] == '"' then
      var e := SpanEnd(s, i + 1);
      "\"" + EscapeInner(s[i + 1..e]) + "\"" + DqSub(s, e + 1)
    else [s[i]] + DqSub(s, i + 1)
  }

  /** Every double quote of `t` follows a backslash. */
  predicate QuotesEscaped(t: string)
  {
    forall x :: 0 <= x < |t| && t[x] == '"' ==> x > 0 && t[x - 1] == '\\'
  }

  /** A span body holds double quotes only right after a backslash. */
  lemma {:induction false} SpanQuotesEscaped(s: string, k: nat)
    requires k <= |s|
    ensures QuotesEscaped(s[k..SpanEnd(s, k)])
    decreases |s| - k
  {
    var e := SpanEnd(s, k);
    if k < |s| && s[k] == '\\' && k + 1 < |s| && s[k + 1] != '\n' {
      SpanQuotesEscaped(s, k + 2);
      assert s[k..e] == [s[k], s[k + 1]] + s[k + 2..e];
    } else if k < |s| && s[k] != '"' && s[k] != '\\' {
      SpanQuotesEscaped(s, k + 1);
      assert s[k..e] == [s[k]] + s[k + 1..e];
    }
  }

  /** The lookbehind never fires on text whose double quotes all follow a backslash. */
  lemma {:induction false} EscapeFromIdentity(t: string, x: nat)
    requires x <= |t| && QuotesEscaped(t)
    ensures EscapeFrom(t, x) == t[x..]
    decreases |t| - x
  {
    if x < |t| {
      EscapeFromIdentity(t, x + 1);
      assert t[x..] == [t[x]] + t[x + 1..];
    }
  }

  /** Step 6 changes nothing: every span it re-escapes is already escaped. */
  lemma {:induction false} DqSubIdentity(s: string, i: nat)
    requires i <= |s|
    ensures DqSub(s, i) == s[i..]
    decreases |s| - i
  {
    if i < |s| {
      var e := SpanEnd(s, i + 1);
      if s[i] == '"' && e < |s| && s[e] == '"' {
        DqSubIdentity(s, e + 1);
        SpanKept(s, i, e);
      } else {
        DqSubIdentity(s, i + 1);
        assert s[i..] == [s[i]] + s[i + 1..];
      }
    }
  }

  /** A pass at an opening quote whose span closes re-escapes the span and resumes after it. */
  lemma DqSubAtSpan(s: string, i: nat, e: nat)
    requires i < |s| && s[i] == '"' && e == SpanEnd(s, i + 1) && e < |s| && s[e] == '"'
    ensures DqSub(s, i) == "\"" + EscapeInner(s[i + 1..e]) + "\"" + DqSub(s, e + 1)
  {
  }

  /** Re-escaping a span body gives it back unchanged. */
  lemma SpanBodyKept(s: string, i: nat, e: nat)
    requires i < |s| && e == SpanEnd(s, i + 1)
    ensures EscapeInner(s[i + 1..e]) == s[i + 1..e]
  {
    var inner := s[i + 1..e];
    SpanQuotesEscaped(s, i + 1);
    EscapeFromIdentity(inner, 0);
    assert inner[0..] == inner;
  }

  /** A matched span is given back as it was. */
  lemma SpanKept(s: string, i: nat, e: nat)
    requires i < |s| && s[i] == '"' && e == SpanEnd(s, i + 1) && e < |s| && s[e] == '"'
    requires DqSub(s, e + 1) == s[e + 1..]
    ensures DqSub(s, i) == s[i..]
  {
    DqSubAtSpan(s, i, e);
    SpanBodyKept(s, i, e);
    assert s[i..] == [s[i]] + s[i + 1..e] + [s[e]] + s[e + 1..];
  }

  // ---------------------------------------------------------------------
  // Steps 7 to 9: parse, parse the brace slice, or give the text back
  // ---------------------------------------------------------------------

  /** Python's `s[start:end + 1]` for the first `{` and the last `}` (`rfind` gives -1 when absent). */
  function BraceSlice(s: string): (r: string)
    requires '{' in s
    ensures r == "" || (r[0] == '{' && r[|r| - 1] == '}')
    ensures FirstIndexOf(s, '{') + |r| <= |s|
    ensures forall k :: 0 <= k < |r| ==> r[k] == s[FirstIndexOf(s, '{') + k]
  {
    var start := FirstIndexOf(s, '{');
    var end := LastIndexOf(s, '}');
    if end + 1 <= start then "" else s[start..end + 1]
  }

  /** Steps 1 to 6: the text every parse attempt sees, and the answer when none succeeds. */
  function Cleaned(text: string): string
  {
    var t := ReplaceLiterals(StripQuotes(StripFence(Strip(text))));
    DqSub(FixedQuotes(t), 0)
  }

  /** Steps 7 to 9 on the cleaned text. */
  function ParseStep(s: string, loads: string -> Option<Json>): Normalized
  {
    if loads(s).Some? then Parsed(loads(s).value)
    else if '{' in s && loads(BraceSlice(s)).Some? then Parsed(loads(BraceSlice(s)).value)
    else Raw(s)
  }

  /** What `get_structure_openai_response` returns for `text`. */
  function Normalize(text: string, loads: string -> Option<Json>): Normalized
  {
    ParseStep(Cleaned(text), loads)
  }

  /** Step 5: substitute until a pass leaves the text unchanged. */
  method FixQuotes(s: string) returns (r: string)
    ensures r == FixedQuotes(s)
  {
    r := s;
    while true
      invariant FixedQuotes(r) == FixedQuotes(s)
      decreases QuoteCount(r)
    {
      var next := QuoteSub(r);
      if next == r {
        break;
      }
      QuoteSubShrinks(r);
      r := next;
    }
  }

  /**
   * The pipeline as the source runs it: the text is reassigned step by step,
   * and the single-quote rewrite runs until a pass changes nothing.
   */
  method GetStructuredResponse(aiResponse: string, loads: string -> Option<Json>) returns (r: Normalized)
    ensures r == Normalize(aiResponse, loads)
  {
    var s := Strip(aiResponse);
    s := StripFence(s);
    s := StripQuotes(s);
    s := Replace(s, "None", "null");
    s := Replace(s, "True", "true");
    s := Replace(s, "False", "false");
    s := FixQuotes(s);
    s := DqSub(s, 0);
    r := ParseCleaned(s, loads);
  }

  /** Steps 7 to 9: `json.loads` on the text, then on its brace slice, else the text itself. */
  method ParseCleaned(s: string, loads: string -> Option<Json>) returns (r: Normalized)
    ensures r == ParseStep(s, loads)
  {
    var parsed := loads(s);
    if parsed.Some? {
      return Parsed(parsed.value);
    }
    if '{' in s {
      var open := FirstIndexOf(s, '{');
      var close := LastIndexOf(s, '}');
      var sub := if close + 1 <= open then "" else s[open..close + 1];
      parsed := loads(sub);
      if parsed.Some? {
        return Parsed(parsed.value);
      }
    }
    return Raw(s);
  }

  /**
   * The answer is a parse of the cleaned text when that parses, else a parse
   * of its brace slice when that parses, else the cleaned text itself.
   */
  lemma NormalizeCascade(text: string, loads: string -> Option<Json>)
    ensures var c := Cleaned(text);
      && (loads(c).Some? ==> Normalize(text, loads) == Parsed(loads(c).value))
      && (loads(c).None? && '{' in c && loads(BraceSlice(c)).Some? ==>
            Normalize(text, loads) == Parsed(loads(BraceSlice(c)).value))
      && (Normalize(text, loads).Raw? <==>
            loads(c).None? && ('{' !in c || loads(BraceSlice(c)).None?))
      && (Normalize(text, loads).Raw? ==> Normalize(text, loads).text == c)
  {
  }

  /** A text answer never holds the words `None`, `True` or `False`. */
  lemma RawIsLiteralFree(text: string, loads: string -> Option<Json>)
    ensures Normalize(text, loads).Raw? ==> LiteralFree(Normalize(text, loads).text)
  {
    var t := ReplaceLiterals(StripQuotes(StripFence(Strip(text))));
    LiteralsReplaced(StripQuotes(StripFence(Strip(text))));
    FixedQuotesLiteralFree(t);
    DqSubIdentity(FixedQuotes(t), 0);
  }

  /** The cleaned text is one the single-quote substitution leaves unchanged. */
  lemma CleanedIsQuoteFixpoint(text: string)
    ensures QuoteSub(Cleaned(text)) == Cleaned(text)
  {
    var t := ReplaceLiterals(StripQuotes(StripFence(Strip(text))));
    FixedQuotesIsFixpoint(t);
    DqSubIdentity(FixedQuotes(t), 0);
  }
}

=== FILE: subscriptions.dfy ===
/**
 * Subscription plans and organisation subscriptions: whether a subscription
 * is active on a given day, its text form, and the hook that gives every
 * newly created organisation the "free" plan.
 *
 * Rows are held by position: a plan's id is its index. The default manager
 * only sees rows whose `is_deleted` is false, while the unique constraints
 * (plan name, one subscription per organisation) hold over all rows.
 */
module Subscriptions {
  import opened Common

  datatype Plan = Plan(
    name: string,
    description: string,
    monthlyPrice: real,
    maxSeats: nat,
    isActive: bool,
    isDeleted: bool)

  datatype Subscription = Subscription(
    organization: nat,
    plan: Option<nat>,
    startDate: Date,
    endDate: Option<Date>,
    isDeleted: bool)

  /** `Subscription.is_active`: no end date, or an end date not before today. */
  predicate IsActive(sub: Subscription, today: Date)
  {
    sub.endDate.None? || DateLe(today, sub.endDate.value)
  }

  /** An open-ended subscription is always active; one ending today still is; one that ended earlier is not. */
  lemma ActiveRule(sub: Subscription, today: Date)
    ensures sub.endDate.None? ==> IsActive(sub, today)
    ensures sub.endDate == Some(today) ==> IsActive(sub, today)
    ensures sub.endDate.Some? && DateLe(sub.endDate.value, today) && sub.endDate.value != today ==> !IsActive(sub, today)
  {
  }

  const NoPlan := "No Plan"

  /** `Subscription.__str__`, given the organisation's name and the plan's name when there is a plan. */
  function Text(organizationName: string, planName: Option<string>): (t: string)
    ensures |t| >= |organizationName| + 4
    ensures t[..|organizationName|] == organizationName
    ensures t[|organizationName|..|organizationName| + 4] == " -> "
    ensures planName.None? ==> t[|organizationName| + 4..] == NoPlan
    ensures planName.Some? ==> t[|organizationName| + 4..] == planName.value
  {
    organizationName + " -> " + (if planName.Some? then planName.value else NoPlan)
  }

  /** The first index whose element satisfies `p`. */
  function FirstWhere<T>(xs: seq<T>, p: T -> bool): (r: Option<nat>)
    ensures r.Some? ==> r.value < |xs| && p(xs[r.value]) && forall k :: 0 <= k < r.value ==> !p(xs[k])
    ensures r.None? ==> forall k :: 0 <= k < |xs| ==> !p(xs[k])
  {
    if |xs| == 0 then None
    else if p(xs[0]) then Some(0)
    else match FirstWhere(xs[1..], p)
      case None => None
      case Some(i) => Some(i + 1)
  }

  /** Appending an element changes the first match only when there was none. */
  lemma {:induction false} FirstWhereAppend<T>(xs: seq<T>, x: T, p: T -> bool)
    ensures FirstWhere(xs + [x], p)
            == if FirstWhere(xs, p).Some? then FirstWhere(xs, p) else if p(x) then Some(|xs|) else None
  {
    if |xs| > 0 && !p(xs[0]) {
      assert (xs + [x])[1..] == xs[1..] + [x];
      FirstWhereAppend(xs[1..], x, p);
    }
  }

  /** The two tables. */
  datatype State = State(plans: seq<Plan>, subscriptions: seq<Subscription>)

  /** Plan names are unique, an organisation has at most one subscription row, and plans referred to exist. */
  predicate WellFormed(s: State)
  {
    && (forall i, j :: 0 <= i < j < |s.plans| ==> s.plans[i].name != s.plans[j].name)
    && (forall i, j :: 0 <= i < j < |s.subscriptions| ==> s.subscriptions[i].organization != s.subscriptions[j].organization)
    && (forall i :: 0 <= i < |s.subscriptions| && s.subscriptions[i].plan.Some? ==> s.subscriptions[i].plan.value < |s.plans|)
  }

  const Free := "free"

  /** The plan `get_or_create` makes when there is no "free" plan. */
  const FreePlan := Plan(Free, "Default free tier", 0.0, 5, true, false)

  const PlanNameTaken := "IntegrityError: duplicate subscription plan name"
  const SubscriptionTaken := "IntegrityError: duplicate subscription organization"

  predicate NamedFree(p: Plan) { p.name == Free }

  /** What the hook did. */
  datatype Outcome = Skipped | Assigned(plan: nat, subscription: nat) | Failed(error: string)

  /**
   * `get_or_create(name='free', ...)`: the live "free" plan, or a new one
   * appended; a deleted "free" row blocks the insert through the unique name.
   */
  function FreePlanStep(s: State): (r: Result<(State, nat), string>)
    requires WellFormed(s)
    ensures r.Ok? ==> WellFormed(r.value.0) && r.value.0.subscriptions == s.subscriptions
    ensures r.Ok? ==> r.value.1 < |r.value.0.plans| && r.value.0.plans[r.value.1].name == Free
    ensures r.Ok? && FirstWhere(s.plans, NamedFree).None? ==> r.value == (s.(plans := s.plans + [FreePlan]), |s.plans|)
    ensures r.Ok? && FirstWhere(s.plans, NamedFree).Some? ==> r.value == (s, FirstWhere(s.plans, NamedFree).value)
  {
    match FirstWhere(s.plans, NamedFree)
    case Some(i) =>
      if s.plans[i].isDeleted then Err(PlanNameTaken) else Ok((s, i))
    case None =>
      var s' := s.(plans := s.plans + [FreePlan]);
      assert forall k :: 0 <= k < |s.plans| ==> s'.plans[k] == s.plans[k];
      Ok((s', |s.plans|))
  }

  predicate ForOrganization(org: nat, sub: Subscription) { sub.organization == org }

  /**
   * `get_or_create(organization=instance, defaults={'plan': free_plan})`:
   * the live subscription of the organisation, or a new one starting today.
   */
  function SubscriptionStep(s: State, org: nat, plan: nat, today: Date): (r: Result<(State, nat), string>)
    requires WellFormed(s) && plan < |s.plans|
    ensures r.Ok? ==> WellFormed(r.value.0) && r.value.0.plans == s.plans
    ensures r.Ok? ==> r.value.1 < |r.value.0.subscriptions| && r.value.0.subscriptions[r.value.1].organization == org
    ensures r.Ok? ==> !r.value.0.subscriptions[r.value.1].isDeleted
  {
    var p := (sub: Subscription) => ForOrganization(org, sub);
    match FirstWhere(s.subscriptions, p)
    case Some(i) =>
      if s.subscriptions[i].isDeleted then Err(SubscriptionTaken) else Ok((s, i))
    case None =>
      var s' := s.(subscriptions := s.subscriptions + [Subscription(org, Some(plan), today, None, false)]);
      assert forall k :: 0 <= k < |s.subscriptions| ==> s'.subscriptions[k] == s.subscriptions[k];
      Ok((s', |s.subscriptions|))
  }

  /**
   * `assign_free_subscription`, as a function of the tables: nothing on an
   * update; on a creation the free plan then the subscription, the plan
   * staying written when the subscription insert fails.
   */
  function AfterAssignFree(s: State, org: nat, created: bool, today: Date): (res: (State, Outcome))
    requires WellFormed(s)
    ensures WellFormed(res.0)
  {
    if !created then (s, Skipped)
    else match FreePlanStep(s)
      case Err(e) => (s, Failed(e))
      case Ok((s1, plan)) =>
        match SubscriptionStep(s1, org, plan, today)
        case Err(e) => (s1, Failed(e))
        case Ok((s2, sub)) => (s2, Assigned(plan, sub))
  }

  /**
   * The hook only ever adds rows, at most one of each kind, and never alters
   * one: an update of the organisation changes nothing, an existing "free"
   * plan and an existing subscription are kept as they are, and a new plan
   * has the default free-tier values.
   */
  lemma AssignFreeOnlyAdds(s: State, org: nat, created: bool, today: Date)
    requires WellFormed(s)
    ensures var (s', outcome) := AfterAssignFree(s, org, created, today);
            && (!created ==> s' == s && outcome == Skipped)
            && (s'.plans == s.plans || s'.plans == s.plans + [FreePlan])
            && (s'.plans != s.plans ==> FirstWhere(s.plans, NamedFree).None?)
            && (s'.subscriptions == s.subscriptions
                || (outcome.Assigned?
                    && s'.subscriptions == s.subscriptions + [Subscription(org, Some(outcome.plan), today, None, false)]))
  {
  }

  /**
   * After a successful run the organisation has a live subscription, and the
   * plan it was given, when it was created now, is the "free" plan.
   */
  lemma AssignedIsLive(s: State, org: nat, today: Date)
    requires WellFormed(s)
    ensures var (s', outcome) := AfterAssignFree(s, org, true, today);
            outcome.Assigned? ==>
              && outcome.subscription < |s'.subscriptions|
              && s'.subscriptions[outcome.subscription].organization == org
              && !s'.subscriptions[outcome.subscription].isDeleted
              && s'.plans[outcome.plan].name == Free
  {
  }

  /** Running the hook a second time for the same created organisation changes nothing more and reports the same. */
  lemma {:induction false} AssignFreeIdempotent(s: State, org: nat, today: Date, later: Date)
    requires WellFormed(s)
    ensures var (s1, o1) := AfterAssignFree(s, org, true, today);
            var (s2, o2) := AfterAssignFree(s1, org, true, later);
            s2 == s1 && (o1.Skipped? || o2 == o1)
  {
    var (s1, o1) := AfterAssignFree(s, org, true, today);
    match FreePlanStep(s)
    case Err(e) =>
    case Ok((t, plan)) =>
      FirstWhereAppend(s.plans, FreePlan, NamedFree);
      assert FirstWhere(t.plans, NamedFree) == Some(plan);
      assert FreePlanStep(t) == Ok((t, plan));
      var p := (sub: Subscription) => ForOrganization(org, sub);
      match SubscriptionStep(t, org, plan, today)
      case Err(e) =>
      case Ok((u, sub)) =>
        FirstWhereAppend(t.subscriptions, Subscription(org, Some(plan), today, None, false), p);
        assert FirstWhere(u.subscriptions, p) == Some(sub);
        assert u.plans == t.plans;
        assert FreePlanStep(u) == Ok((u, plan));
        assert SubscriptionStep(u, org, plan, later) == Ok((u, sub));
  }

  /** The plan and subscription tables, updated in place by the hook. */
  class Billing {
    var plans: seq<Plan>
    var subscriptions: seq<Subscription>

    function Snapshot(): State
      reads this
    {
      State(plans, subscriptions)
    }

    ghost predicate Valid()
      reads this
    {
      WellFormed(Snapshot())
    }

    constructor ()
      ensures Valid() && Snapshot() == State([], [])
    {
      plans := [];
      subscriptions := [];
    }

    /** `assign_free_subscription` (post-save of an organisation). */
    method AssignFreeSubscription(org: nat, created: bool, today: Date) returns (outcome: Outcome)
      requires Valid()
      modifies this
      ensures Valid()
      ensures (Snapshot(), outcome) == AfterAssignFree(old(Snapshot()), org, created, today)
    {
      if !created {
        return Skipped;
      }
      var existingPlan := FirstWhere(plans, NamedFree);
      var freePlan: nat;
      if existingPlan.Some? {
        if plans[existingPlan.value].isDeleted {
          return Failed(PlanNameTaken);
        }
        freePlan := existingPlan.value;
      } else {
        freePlan := |plans|;
        plans := plans + [FreePlan];
      }
      var p := (sub: Subscription) => ForOrganization(org, sub);
      var existing := FirstWhere(subscriptions, p);
      if existing.Some? {
        if subscriptions[existing.value].isDeleted {
          return Failed(SubscriptionTaken);
        }
        return Assigned(freePlan, existing.value);
      }
      subscriptions := subscriptions + [Subscription(org, Some(freePlan), today, None, false)];
      outcome := Assigned(freePlan, |subscriptions| - 1);
    }
  }
}

=== FILE: tasks.dfy ===
/**
 * The batch jobs: every long-term reading for one user, and the daily
 * reading for every user.
 */
module Tasks {
  import opened Common
  import opened Mixins
  import opened Records
  import opened OpenAiUtils
  import opened ReadingService
  import Astro

  /** The long-term reading types, generated in this order. */
  const LongTermTypes: seq<string> := [
    "core_personality_and_life_path",
    "career_success_and_wealth",
    "relationships_love_and_marriage",
    "health_and_wellbeing",
    "challenges_and_remedies",
    "major_life_periods"
  ]

  /** The oracles every reading needs, bundled. */
  datatype Oracles = Oracles(
    promptText: string -> string,
    chat: seq<Message> -> Json,
    pyStr: Json -> string,
    parseFloat: string -> Option<real>,
    sky: Astro.Sky)

  function Content(user: ReadingUser, readingType: string, o: Oracles): Json
  {
    ReadingContent(user, readingType, o.promptText, o.chat, o.pyStr, o.parseFloat, o.sky)
  }

  /** The message returned for an unknown user id. */
  function MissingUserMessage(userId: UserId): string
  {
    "User " + NatToString(userId) + " does not exist."
  }

  /** The long-term types are six distinct prompt keys other than "today_reading". */
  lemma LongTermTypesArePrompts()
    ensures |LongTermTypes| == 6
    ensures forall i :: 0 <= i < 6 ==> LongTermTypes[i] in PromptKeys && LongTermTypes[i] != "today_reading"
    ensures forall i, j :: 0 <= i < j < 6 ==> LongTermTypes[i] != LongTermTypes[j]
  {
    forall i, j | 0 <= i < j < 6 ensures LongTermTypes[i] != LongTermTypes[j] {
      assert LongTermTypes[i][..2] != LongTermTypes[j][..2] || |LongTermTypes[i]| != |LongTermTypes[j]|;
    }
  }

  /**
   * `generate_all_readings_for_user`: for a known user, one reading per
   * long-term type, in order, collected into a dict keyed by type.
   */
  method GenerateAllReadingsForUser(users: map<UserId, ReadingUser>, userId: UserId,
                                    readings: Table<UserReading>, now: Instant, o: Oracles)
    returns (result: Json)
    requires readings.Valid()
    requires forall id :: id in users ==> users[id].id == id
    modifies readings
    ensures readings.Valid()
    ensures userId !in users ==> result == JStr(MissingUserMessage(userId)) && readings.rows == old(readings.rows)
    ensures userId in users ==>
              && result.JObj?
              && KeysOf(result.fields) == LongTermTypes
              && |readings.rows| == |old(readings.rows)| + 6
              && readings.rows[..|old(readings.rows)|] == old(readings.rows)
              && forall i :: 0 <= i < 6 ==>
                   && result.fields[i].1 == Content(users[userId], LongTermTypes[i], o)
                   && readings.rows[|old(readings.rows)| + i].fields
                      == UserReading(userId, LongTermTypes[i], result.fields[i].1)
  {
    if userId !in users {
      return JStr("User " + NatToString(userId) + " does not exist.");
    }
    var user := users[userId];
    var results: seq<(string, Json)> := [];
    for k := 0 to |LongTermTypes|
      invariant readings.Valid()
      invariant |results| == k
      invariant |readings.rows| == |old(readings.rows)| + k
      invariant readings.rows[..|old(readings.rows)|] == old(readings.rows)
      invariant forall i :: 0 <= i < k ==>
                  && results[i] == (LongTermTypes[i], Content(user, LongTermTypes[i], o))
                  && readings.rows[|old(readings.rows)| + i].fields == UserReading(userId, LongTermTypes[i], results[i].1)
    {
      var content := GenerateReading(readings, user, LongTermTypes[k], now,
                                     o.promptText, o.chat, o.pyStr, o.parseFloat, o.sky);
      results := results + [(LongTermTypes[k], content)];
    }
    result := JObj(results);
  }

  /** The daily job's report. */
  function DailyReport(count: nat): string
  {
    "Generated daily reading for " + NatToString(count) + " users."
  }

  /**
   * `generate_daily_reading_for_all_users`: one "today_reading" per user, in
   * order, and a count equal to the number of users.
   */
  method GenerateDailyReadingForAllUsers(users: seq<ReadingUser>, readings: Table<UserReading>,
                                         now: Instant, o: Oracles) returns (report: string, count: nat)
    requires readings.Valid()
    modifies readings
    ensures readings.Valid()
    ensures count == |users| && report == DailyReport(|users|)
    ensures |readings.rows| == |old(readings.rows)| + |users|
    ensures readings.rows[..|old(readings.rows)|] == old(readings.rows)
    ensures forall i :: 0 <= i < |users| ==>
              readings.rows[|old(readings.rows)| + i].fields
              == UserReading(users[i].id, "today_reading", Content(users[i], "today_reading", o))
  {
    count := 0;
    for k := 0 to |users|
      invariant readings.Valid()
      invariant count == k
      invariant |readings.rows| == |old(readings.rows)| + k
      invariant readings.rows[..|old(readings.rows)|] == old(readings.rows)
      invariant forall i :: 0 <= i < k ==>
                  readings.rows[|old(readings.rows)| + i].fields
                  == UserReading(users[i].id, "today_reading", Content(users[i], "today_reading", o))
    {
      var _ := GenerateReading(readings, users[k], "today_reading", now,
                               o.promptText, o.chat, o.pyStr, o.parseFloat, o.sky);
      count := count + 1;
    }
    report := "Generated daily reading for " + NatToString(count) + " users.";
  }
}

=== FILE: user_permissions.dfy ===
/**
 * `IsUserOrSuperuserOrCreate`: anyone may sign up, only the superuser may
 * list the users, and a user row is reachable by the superuser and by that
 * user.
 */
module UserPermissions {
  import opened Common
  import opened Requests

  /** `has_permission` for the view action `action`. */
  function HasPermission(requester: Requester, action: string): (allowed: bool)
    ensures action == "create" ==> allowed
    ensures action != "create" && requester.Anonymous? ==> !allowed
    ensures action == "list" ==> (allowed <==> IsSuperuser(requester))
  {
    if action == "create" then true
    else if !requester.Authenticated? then false
    else if action == "list" then requester.isSuperuser
    else true
  }

  /** `has_object_permission` on the user row `obj`. */
  function HasObjectPermission(requester: Requester, obj: UserId): (allowed: bool)
    ensures allowed <==> IsSuperuser(requester) || IsUser(requester, obj)
  {
    if requester.Authenticated? && requester.isSuperuser then true
    else requester.Authenticated? && obj == requester.id
  }

  /**
   * For the object actions (retrieve, update, destroy) the two checks
   * together let through the superuser and the user themself, and no one else.
   */
  lemma ObjectActionRule(requester: Requester, action: string, obj: UserId)
    requires action != "create" && action != "list"
    ensures HasPermission(requester, action) && HasObjectPermission(requester, obj)
            <==> IsSuperuser(requester) || IsUser(requester, obj)
  {
  }
}

=== FILE: user_serializers.dfy ===
/**
 * Signup (`CreateUserSerializer`): the account, its token, the organisation
 * the new user owns or joins, and the user's profile, written in that order.
 * Nothing is wrapped in a transaction, so rows written before an error stay.
 */
module UserSerializers {
  import opened Common
  import opened Organizations

  /** An organisation id as the client sent it: the row it names (if any) and its text. */
  datatype OrgRef = OrgRef(row: nat, text: string)

  /** The signup fields that decide the organisation. */
  datatype SignupAttrs = SignupAttrs(username: string, organizationId: Option<OrgRef>, organizationName: Option<string>)

  const BothGiven := "Please provide either organization_id OR organization_name, not both."

  /**
   * The `organization_name` `CharField` before `validate` runs: with
   * `trim_whitespace` on by default it hands on the stripped text.
   */
  function TrimFields(raw: SignupAttrs): (r: SignupAttrs)
    ensures r.username == raw.username && r.organizationId == raw.organizationId
    ensures r.organizationName.Some? <==> raw.organizationName.Some?
    ensures r.organizationName.Some? ==> r.organizationName.value == Strip(raw.organizationName.value)
  {
    raw.(organizationName := if raw.organizationName.Some? then Some(Strip(raw.organizationName.value)) else None)
  }

  /**
   * `validate`, on the attributes the fields hand on (see `TrimFields`): both
   * an id and a non-empty name is refused; an id given is always truthy, a
   * name only when it is not empty.
   */
  function Validate(attrs: SignupAttrs): (r: Result<SignupAttrs, string>)
    ensures r.Err? <==> attrs.organizationId.Some? && attrs.organizationName.Some? && attrs.organizationName.value != ""
    ensures r.Err? ==> r.error == BothGiven
    ensures r.Ok? ==> r.value == attrs
  {
    var orgName := if attrs.organizationName.Some? then attrs.organizationName.value else "";
    if attrs.organizationId.Some? && orgName != "" then Err(BothGiven) else Ok(attrs)
  }

  /** How signup fails: a validation error, one keyed by a field, or an exception raised through. */
  datatype SignupError = NonField(message: string) | Field(field: string, message: string) | Raised(message: string)

  function OwnOrganizationName(username: string): string
  {
    username + "'s Organization"
  }

  function NoSuchOrganization(id: OrgRef): string
  {
    "Organization with id=" + id.text + " does not exist."
  }

  function NameTaken(name: string): string
  {
    "Organization name '" + name + "' is already taken."
  }

  /** What `Organization.objects.get(id=...)` finds: a live row. */
  predicate LiveOrganization(s: State, org: nat)
  {
    org < |s.orgs| && !s.orgs[org].isDeleted
  }

  /** Create an organisation on the "free" plan with 5 seats and add the user to it as owner. */
  function CreateOwned(s: State, name: string, user: UserId): (res: (State, Result<nat, SignupError>))
    requires WellFormed(s)
    ensures WellFormed(res.0) && |s.orgs| <= |res.0.orgs|
    ensures forall o :: 0 <= o < |s.orgs| ==> res.0.orgs[o].seats == s.orgs[o].seats
  {
    match AfterCreateOrganization(s, name, "free", 5)
    case (s1, Err(e)) => (s1, Err(Raised(e)))
    case (s1, Ok(org)) =>
      var (s2, r) := AfterAddUser(s1, org, user, "owner");
      (s2, if r.Err? then Err(Raised(r.error)) else Ok(org))
  }

  /**
   * The organisation step of `create`, as a function of the tables:
   * `orgName` is the stripped name (empty when none was sent). The result is
   * the organisation the user ended up in.
   */
  function SignupOrganization(s: State, user: UserId, username: string, orgId: Option<OrgRef>, orgName: string)
    : (res: (State, Result<nat, SignupError>))
    requires WellFormed(s)
    ensures WellFormed(res.0) && |s.orgs| <= |res.0.orgs|
    ensures forall o :: 0 <= o < |s.orgs| ==> res.0.orgs[o].seats == s.orgs[o].seats
  {
    if orgId.None? && orgName == "" then CreateOwned(s, OwnOrganizationName(username), user)
    else if orgId.Some? then JoinExisting(s, orgId.value, user)
    else if LiveNameInUse(s.orgs, orgName) then (s, Err(NonField(NameTaken(orgName))))
    else CreateOwned(s, orgName, user)
  }

  /** The `organization_id` branch: the live organisation it names, joined as "member". */
  function JoinExisting(s: State, orgId: OrgRef, user: UserId): (res: (State, Result<nat, SignupError>))
    requires WellFormed(s)
    ensures WellFormed(res.0) && |s.orgs| == |res.0.orgs|
    ensures forall o :: 0 <= o < |s.orgs| ==> res.0.orgs[o].seats == s.orgs[o].seats
  {
    var org := orgId.row;
    if !LiveOrganization(s, org) then (s, Err(NonField(NoSuchOrganization(orgId))))
    else if !HasAvailableSeatFor(s, org, user) then (s, Err(Field("organization_id", NoSeatMessage(s.orgs[org].name))))
    else
      var (s1, r) := AfterAddUser(s, org, user, "member");
      (s1, if r.Err? then Err(Raised(r.error)) else Ok(org))
  }

  /**
   * A new organisation made at signup is the next row, named as asked, on
   * the "free" plan with 5 seats, owned by the new user alone, who is its
   * one member.
   */
  lemma CreateOwnedOutcome(s: State, name: string, user: UserId)
    requires WellFormed(s)
    ensures var (s', r) := CreateOwned(s, name, user);
            r.Ok? ==>
              && r.value == |s.orgs| < |s'.orgs|
              && s'.orgs[r.value] == Organization(name, "free", 5, {user}, false)
              && OrgUsers(s', r.value) == {user}
  {
    var (s1, org) := AfterCreateOrganization(s, name, "free", 5);
    if org.Ok? {
      CreatedOrganizationIsEmpty(s, name, "free", 5, org.value);
      AddUserUsers(s1, org.value, user, "owner", org.value);
      AddUserOwners(s1, org.value, user, "owner", org.value);
    }
  }

  /** Joining by id puts the user among the organisation's users and changes nothing else about it. */
  lemma JoinExistingOutcome(s: State, orgId: OrgRef, user: UserId)
    requires WellFormed(s)
    ensures var (s', r) := JoinExisting(s, orgId, user);
            r.Ok? ==>
              && r.value == orgId.row < |s'.orgs|
              && s'.orgs[r.value] == s.orgs[r.value]
              && OrgUsers(s', r.value) == OrgUsers(s, r.value) + {user}
  {
    if LiveOrganization(s, orgId.row) {
      AddUserUsers(s, orgId.row, user, "member", orgId.row);
      AddUserOwners(s, orgId.row, user, "member", orgId.row);
    }
  }

  /**
   * The refusals: an id naming no live organisation, a full organisation
   * (keyed "organization_id"), and a name a live organisation already has;
   * none of them writes anything.
   */
  lemma SignupOrganizationRefusals(s: State, user: UserId, username: string, orgId: Option<OrgRef>, orgName: string)
    requires WellFormed(s)
    ensures var res := SignupOrganization(s, user, username, orgId, orgName);
            && (orgId.Some? && !LiveOrganization(s, orgId.value.row) ==>
                  res == (s, Err(NonField(NoSuchOrganization(orgId.value)))))
            && (orgId.Some? && LiveOrganization(s, orgId.value.row) && !HasAvailableSeatFor(s, orgId.value.row, user) ==>
                  res == (s, Err(Field("organization_id", NoSeatMessage(s.orgs[orgId.value.row].name)))))
            && (orgId.None? && orgName != "" && LiveNameInUse(s.orgs, orgName) ==>
                  res == (s, Err(NonField(NameTaken(orgName)))))
  {
  }

  /** Signup keeps every organisation within its seats. */
  lemma SignupKeepsSeats(s: State, user: UserId, username: string, orgId: Option<OrgRef>, orgName: string)
    requires WellFormed(s)
    requires forall o :: 0 <= o < |s.orgs| ==> SeatUsage(s, o) <= s.orgs[o].seats
    ensures var (s', _) := SignupOrganization(s, user, username, orgId, orgName);
            forall o :: 0 <= o < |s'.orgs| ==> SeatUsage(s', o) <= s'.orgs[o].seats
  {
    if orgId.Some? {
      if LiveOrganization(s, orgId.value.row) && HasAvailableSeatFor(s, orgId.value.row, user) {
        SeatInvariant(s, orgId.value.row, user, "member");
      }
    } else if orgName == "" || !LiveNameInUse(s.orgs, orgName) {
      var name := if orgName == "" then OwnOrganizationName(username) else orgName;
      var (s1, org) := AfterCreateOrganization(s, name, "free", 5);
      if org.Ok? {
        forall o | 0 <= o < |s1.orgs|
          ensures SeatUsage(s1, o) <= s1.orgs[o].seats
        {
          CreatedOrganizationIsEmpty(s, name, "free", 5, o);
        }
        SeatInvariant(s1, org.value, user, "owner");
      }
    }
  }

  /** A name of whitespace alone strips to nothing, so it signs up like no name at all. */
  lemma BlankNameIsNoName(name: string)
    requires forall k :: 0 <= k < |name| ==> IsSpace(name[k])
    ensures Strip(name) == ""
  {
  }

  /**
   * As sent by the client: refused exactly when an id and a name that is not
   * all whitespace are both given, so a whitespace-only name with an id joins
   * by the id.
   */
  lemma ValidateSentFields(raw: SignupAttrs)
    ensures Validate(TrimFields(raw)).Err?
            <==> raw.organizationId.Some? && raw.organizationName.Some?
                 && exists k :: 0 <= k < |raw.organizationName.value| && !IsSpace(raw.organizationName.value[k])
  {
    if raw.organizationName.Some? {
      var name := raw.organizationName.value;
      if forall k :: 0 <= k < |name| ==> IsSpace(name[k]) {
        BlankNameIsNoName(name);
      } else {
        var k :| 0 <= k < |name| && !IsSpace(name[k]);
        var left := StripLeft(name);
        assert |left| > 0 && !IsSpace(left[0]);
        assert |StripRight(left)| > 0;
      }
    }
  }

  /** The accounts side of signup: users, their tokens and their profiles. */
  class Accounts {
    var usernames: seq<string>
    var tokens: seq<UserId>
    var profiles: seq<UserId>

    /** Tokens and profiles belong to existing users. */
    ghost predicate Valid()
      reads this
    {
      && (forall k :: 0 <= k < |tokens| ==> tokens[k] < |usernames|)
      && (forall k :: 0 <= k < |profiles| ==> profiles[k] < |usernames|)
    }

    constructor ()
      ensures Valid() && usernames == [] && tokens == [] && profiles == []
    {
      usernames := [];
      tokens := [];
      profiles := [];
    }
  }

  /**
   * `CreateUserSerializer.create`: the user (a fresh username, as the
   * serializer's unique check guarantees), a token for it, the organisation
   * step, and on success the profile. An error leaves the user, the token and
   * any organisation rows already written in place.
   */
  method Create(accounts: Accounts, directory: Directory, attrs: SignupAttrs) returns (r: Result<UserId, SignupError>)
    requires accounts.Valid() && directory.Valid()
    requires attrs.username !in accounts.usernames
    modifies accounts, directory
    ensures accounts.Valid() && directory.Valid()
    ensures var user := |old(accounts.usernames)|;
            && accounts.usernames == old(accounts.usernames) + [attrs.username]
            && accounts.tokens == old(accounts.tokens) + [user]
            && var orgName := if attrs.organizationName.Some? then Strip(attrs.organizationName.value) else "";
               var (s', outcome) := SignupOrganization(old(directory.Snapshot()), user, attrs.username,
                                                        attrs.organizationId, orgName);
               && directory.Snapshot() == s'
               && (outcome.Ok? ==> r == Ok(user) && accounts.profiles == old(accounts.profiles) + [user])
               && (outcome.Err? ==> r == Err(outcome.error) && accounts.profiles == old(accounts.profiles))
  {
    var orgId := attrs.organizationId;
    var orgName := if attrs.organizationName.Some? then Strip(attrs.organizationName.value) else "";

    var user := |accounts.usernames|;
    accounts.usernames := accounts.usernames + [attrs.username];
    if user !in accounts.tokens {
      accounts.tokens := accounts.tokens + [user];
    }

    var joined := OrganizationStep(directory, user, attrs.username, orgId, orgName);
    if joined.Err? {
      return Err(joined.error);
    }
    accounts.profiles := accounts.profiles + [user];
    r := Ok(user);
  }

  /** The organisation step of `create`. */
  method OrganizationStep(directory: Directory, user: UserId, username: string, orgId: Option<OrgRef>, orgName: string)
    returns (r: Result<nat, SignupError>)
    requires directory.Valid()
    modifies directory
    ensures directory.Valid()
    ensures (directory.Snapshot(), r) == SignupOrganization(old(directory.Snapshot()), user, username, orgId, orgName)
  {
    if orgId.None? && orgName == "" {
      r := CreateOwnedOrganization(directory, OwnOrganizationName(username), user);
    } else if orgId.Some? {
      r := JoinExistingOrganization(directory, orgId.value, user);
    } else if LiveNameInUse(directory.orgs, orgName) {
      r := Err(NonField(NameTaken(orgName)));
    } else {
      r := CreateOwnedOrganization(directory, orgName, user);
    }
  }

  /** The `organization_id` branch: look the organisation up, then `add_user(user, role='member')`. */
  method JoinExistingOrganization(directory: Directory, orgId: OrgRef, user: UserId) returns (r: Result<nat, SignupError>)
    requires directory.Valid()
    modifies directory
    ensures directory.Valid()
    ensures (directory.Snapshot(), r) == JoinExisting(old(directory.Snapshot()), orgId, user)
  {
    var org := orgId.row;
    if !(org < |directory.orgs| && !directory.orgs[org].isDeleted) {
      return Err(NonField(NoSuchOrganization(orgId)));
    }
    if !HasAvailableSeatFor(directory.Snapshot(), org, user) {
      return Err(Field("organization_id", NoSeatMessage(directory.orgs[org].name)));
    }
    var added := directory.AddUser(org, user, "member");
    if added.Err? {
      return Err(Raised(added.error));
    }
    r := Ok(org);
  }

  /** `Organization.objects.create(name=..., ...)` followed by `add_user(user, role='owner')`. */
  method CreateOwnedOrganization(directory: Directory, name: string, user: UserId) returns (r: Result<nat, SignupError>)
    requires directory.Valid()
    modifies directory
    ensures directory.Valid()
    ensures (directory.Snapshot(), r) == CreateOwned(old(directory.Snapshot()), name, user)
  {
    var org := directory.CreateOrganization(name, "free", 5);
    if org.Err? {
      return Err(Raised(org.error));
    }
    var added := directory.AddUser(org.value, user, "owner");
    if added.Err? {
      return Err(Raised(added.error));
    }
    r := Ok(org.value);
  }
}
